=== FILE: README.md ===
# InvoSafe front end: a Dafny model of its decisions

InvoSafe is an invoice-financing portal. Admins manage lenders and users.
Lender managers upload invoices, bulk-update their status from a CSV file,
buy API credits and manage API keys. The business rules live in the backend.
The front end holds a set of small, deterministic decisions wrapped in
React and `fetch`, and this project models those decisions as pure Dafny
functions over immutable datatypes:

- the bulk CSV update (`BulkCsv`, `BulkValidate`, `BulkUpdate`, `BulkRoundTrip`):
  parsing, the all-or-nothing validation, and the per-row reconciliation loop;
- the API clients (`InvoiceApi`, `CreditsApi`, `Http`): token guards, error-detail
  flattening, and the normalisation of list answers;
- the session and page access (`Session`, `RouteGuard`, `Store`): `localStorage`
  as a `map<string, string>`, login and logout, `RouteProtection`, and the
  sign-in redirect;
- the tables (`AdminUserTable`, `ManagerUserTable`, `LenderTable`,
  `BlockUnblockDialog`): filters, tab counts, and row actions;
- the forms and dialogs (`AddUserForm`, `AddLenderForm`, `PasswordForm`,
  `BuyCreditsForm`, `CreditsPage`, `CreditGauge`, `ManagerInvoiceForms`,
  `InvoiceActions`, `ApiKeysPage`).

Shared modules:

- `Results`: `Option` and `Result`.
- `Seqs`: `Filter`, `Map`, `FilterMap`, `Count`, and subsequence lemmas.
- `Text`: ECMAScript `trim`, ASCII `toLowerCase`, `includes`, `split`, `join`.
- `JsNumbers`: `parseInt` and the sign class of `Number()`.

Every remote call becomes a value. Either the call is a `Response<T>`, the
backend's answer, or it is a `reply: Option<string>` parameter, where `None`
means the call resolved and `Some(message)` means it threw. The lookup of
each bulk update request is a parameter `server`. `Math.random()` becomes a
parameter: the `draws` for the password, and `randomText` for
`Math.random().toString(36)`.

## Model

| member | source | states |
|---|---|---|
| BulkCsv.UpdateTypeForTab | src/app/manager/invoices/BulkUpdateModal.tsx:67-78 | The Financed and Rejected tabs open the dialog in "repaid" mode. Every other tab opens it in "finance" mode. No tab opens it in "reject" mode. |
| BulkCsv.Lines | src/app/manager/invoices/BulkUpdateModal.tsx:89 | Every line kept is non-blank after trimming. Blank and white-space-only lines are dropped before the header is read. |
| BulkCsv.Cells | src/app/manager/invoices/BulkUpdateModal.tsx:113 | Splitting a line on commas always yields at least one value. Each value is trimmed. |
| BulkCsv.IndexOf | src/app/manager/invoices/BulkUpdateModal.tsx:122-127 | Returns -1 exactly when the name is absent. Otherwise it returns the first position holding the name. |
| BulkCsv.Cell | src/app/manager/invoices/BulkUpdateModal.tsx:129-149 | A position inside the line gives that value. Any other position, including -1, gives the empty string. |
| BulkCsv.BuildRow | src/app/manager/invoices/BulkUpdateModal.tsx:115-151 | The invoice id always comes from column 0. A finance row reads all six financing fields, a repaid row only the due date, and a reject row nothing else. |
| BulkCsv.ParseCsv | src/app/manager/invoices/BulkUpdateModal.tsx:83-164 | A file with no non-blank line is a parse error. Otherwise the file is refused with the "Expected headers" message exactly when a required header is missing. A parsed file never has more rows than data lines. |
| BulkCsv.ParseRowsKeepsLongLines | src/app/manager/invoices/BulkUpdateModal.tsx:112-155 | The rows are the lines with at least as many values as the header, kept in order. There is exactly one row per such line. |
| BulkCsv.ParseRowsOneLineAtATime | src/app/manager/invoices/BulkUpdateModal.tsx:112-155 | Appending a line appends its row if the line is long enough, and nothing otherwise. No line affects another line's row. |
| BulkCsv.FullExportFinanceByName | src/app/manager/invoices/BulkUpdateModal.tsx:120-134 | In a full-export file, each of the six financing fields is the value under the first column with that field's name, wherever that column is. |
| BulkCsv.SimpleFinanceByPosition | src/app/manager/invoices/BulkUpdateModal.tsx:135-143 | Without a full-export header, the financing fields are columns 1 to 6, whatever the header names. |
| BulkCsv.OnlyInvoiceIdRequired | src/app/manager/invoices/BulkUpdateModal.tsx:95-109 | In repaid and reject modes, a header with `invoice_id` is enough for the file to parse. |
| BulkRoundTrip.FinanceRoundTrip | src/app/manager/invoices/BulkUpdateModal.tsx:83-164 | Writing finance records in the documented seven-column layout and parsing the file gives back one row per record, in order, with every value unchanged. Values must not contain commas or line breaks, or have edge white space. |
| BulkValidate.RowError | src/app/manager/invoices/BulkUpdateModal.tsx:175-202 | A row gets no message exactly when it passes every check for its mode. A blank id is reported first. A finance row then reports the first failing check in the order loan amount, interest rate, disbursement amount, disbursement date, credit period, due date, each with its own message. A repaid row fails only on a missing due date. A reject row fails only on a blank id. |
| BulkValidate.FirstError | src/app/manager/invoices/BulkUpdateModal.tsx:172-203 | The loop stops at the first failing row and reports it as `Row <i+2>: <message>`. It reports nothing when no row fails. |
| BulkValidate.ValidateCsvData | src/app/manager/invoices/BulkUpdateModal.tsx:167-206 | No rows gives "CSV file is empty". Otherwise there is no message exactly when every row is valid, and any message names the first invalid row, with every earlier row valid. |
| BulkValidate.FirstRowIsLineTwo | src/app/manager/invoices/BulkUpdateModal.tsx:172-176 | A failing first data row is reported as "Row 2", because the header is line 1. |
| BulkValidate.WholeNumberFinanceRowValid | src/app/manager/invoices/BulkUpdateModal.tsx:175-202 | A finance row passes when its amounts and credit period are positive whole numbers, its rate is a non-negative whole number, its dates are non-empty, and its id is not blank. |
| BulkValidate.BlankAmountRefused | src/app/manager/invoices/BulkUpdateModal.tsx:180-182 | An empty loan amount is refused, even though `Number("")` is 0 and not NaN. |
| BulkUpdate.StatusLabel | src/app/manager/invoices/BulkUpdateModal.tsx:36-41 | Exactly the statuses 0 to 3 have a label. |
| BulkUpdate.BuildPayload | src/app/manager/invoices/BulkUpdateModal.tsx:310-327 | The payload always carries the invoice id and the status of the mode. A finance payload carries the six financing fields of the row. Other modes carry none of them. A due date is sent only in finance and repaid modes, and it is the row's due date. |
| BulkUpdate.FindInvoice | src/app/manager/invoices/BulkUpdateModal.tsx:299-307 | Finds nothing exactly when no invoice has the id. A found invoice has that id and comes from the list. |
| BulkUpdate.FindInvoiceFirst | src/app/manager/invoices/BulkUpdateModal.tsx:299 | When several invoices share the id, the first one is used. |
| BulkUpdate.SuccessMessages | src/app/manager/invoices/BulkUpdateModal.tsx:330-337 | The three success messages read "Successfully updated to" Financed, Repaid and Rejected. None reads "undefined". |
| BulkUpdate.ProcessRow | src/app/manager/invoices/BulkUpdateModal.tsx:296-366 | A row with no invoice gets "Invoice not found". A row succeeds exactly when its invoice exists, a token is stored and the backend accepts the update. On failure the message is the token message or the flattened error detail. Every result carries the row's invoice id. |
| BulkUpdate.ProcessRows | src/app/manager/invoices/BulkUpdateModal.tsx:292-366 | There is one result per row, in row order, and each result depends only on its own row. |
| BulkUpdate.RequestsSent | src/app/manager/invoices/BulkUpdateModal.tsx:292-366 | At most one request is sent per row. Without a token no request reaches the backend. |
| BulkUpdate.CountsCoverResults | src/app/manager/invoices/BulkUpdateModal.tsx:388-389 | The success count plus the error count is the number of results. |
| BulkUpdate.AcceptingBackend | src/app/manager/invoices/BulkUpdateModal.tsx:292-366 | With a token and a backend that accepts every update, one request is sent per row whose invoice exists. The errors are exactly the rows without an invoice. |
| BulkUpdate.HandleSubmit | src/app/manager/invoices/BulkUpdateModal.tsx:243-375 | No file or no rows gives the upload alert. A validation message is alerted, and nothing is sent. A missing lender id or a failed invoice fetch gives a single "System" error and no request. Otherwise the results and requests are those of the row loop. |
| BulkUpdate.HandleSubmitAsWritten | src/app/manager/invoices/BulkUpdateModal.tsx:243-262 | As written, the submit never reaches the results. It alerts exactly when there is no file, no rows or a validation message, and otherwise it stalls on the processing step. |
| BulkUpdate.MissingUserLookupStalls | src/app/manager/invoices/BulkUpdateModal.tsx:255-262 | The program as written gives the same alerts as the corrected submit, and stalls wherever the corrected submit reaches the results. |
| BulkUpdate.InvalidRowBlocksBatch | src/app/manager/invoices/BulkUpdateModal.tsx:249-253 | One invalid row stops the whole batch before any request. |
| BulkUpdate.MissingInvoiceDoesNotStop | src/app/manager/invoices/BulkUpdateModal.tsx:300-307 | A row with a missing invoice gets an error, and every later row is still processed as usual. |
| BulkUpdate.SelectFile | src/app/manager/invoices/BulkUpdateModal.tsx:218-232 | A file whose name does not end in `.csv` (in any letter case) is refused with "Please select a CSV file". Any other file is parsed. |
| BulkUpdate.UpperCaseExtensionAccepted | src/app/manager/invoices/BulkUpdateModal.tsx:219 | A name ending in `.CSV` is accepted. |
| InvoiceApi.LocLabel | src/library/invoiceApi.ts:140-142 | The label is "Field" exactly when the location is missing, joins to the empty string, or joins to "Field" itself. |
| InvoiceApi.FlattenDetail | src/library/invoiceApi.ts:138-145 | An empty list flattens to the empty string. A single element flattens to its own rendering. |
| InvoiceApi.FlattenDetailAppend | src/library/invoiceApi.ts:138-145 | Flattening two non-empty lists is flattening each and joining them with ", ". |
| InvoiceApi.FieldErrorWithoutLoc | src/library/invoiceApi.ts:140-142 | A validation error with a message but no location reads "Field: <msg>". |
| InvoiceApi.UpdateErrorMessage | src/library/invoiceApi.ts:146-150 | A missing or empty `detail` gives "Failed to update invoice". A non-empty text detail is used verbatim. |
| InvoiceApi.UpdateInvoice | src/library/invoiceApi.ts:117-154 | With no token the call fails with "No access token found" before any request. It succeeds exactly when a token is stored and the backend answers OK, and then it returns the answer's body. An error answer fails with the flattened detail. |
| InvoiceApi.Call | src/library/invoiceApi.ts:37-58 | Every endpoint checks the token first. It succeeds exactly on an OK answer. An error answer without detail gives that endpoint's fallback message. |
| InvoiceApi.GetInvoicesByLenderId | src/library/invoiceApi.ts:37-58 | Without a token the call fails with the token message. It succeeds exactly when a token is stored and the backend answers OK, and then returns exactly the list sent. An error answer fails with its detail, or "Failed to fetch invoices" when there is none. |
| InvoiceApi.GetInvoiceById | src/library/invoiceApi.ts:61-88 | Succeeds exactly on an OK answer with a non-empty list, and returns its first element. An empty list gives "Invoice not found". |
| InvoiceApi.CheckInvoiceExists | src/library/invoiceApi.ts:256-278 | Answers true exactly when the response is a non-empty array. |
| CreditsApi.LenderGuard | src/library/creditsApi.ts:33-41 | The token is checked before the lender id. The guard passes exactly when both are stored, and it yields the stored lender id. |
| CreditsApi.GetApiCredits | src/library/creditsApi.ts:32-71 | Guard failures come first. An empty array becomes an all-zero "active" record with the parsed stored lender id, stamped with the two clock readings, creation then update. A non-empty array gives its first element. A single record is returned unchanged. |
| CreditsApi.PurchaseCredits | src/library/creditsApi.ts:73-92 | Only the token is required. The call succeeds exactly on an OK answer. |
| CreditsApi.GetTransactions | src/library/creditsApi.ts:94-117 | Fails with the token message, then with the lender-id message. Otherwise it succeeds exactly on an OK answer. |
| CreditsApi.DefaultRecordLenderId | src/library/creditsApi.ts:56-68 | A stored decimal lender id is read back exactly into the default record, whose creation and update times are the two clock readings, each in its own field. |
| CreditsApi.PurchaseWithoutLenderId | src/library/creditsApi.ts:74-77 | Without a stored lender id a purchase still goes through, while the credit lookup fails with "No lender ID found". |
| Session.Login | src/library/authenticationApi.ts:35-46 | A refused login throws "Login failed" and leaves the store untouched. An accepted one writes exactly the five session keys, with the user id as its decimal string. Every other key is kept. |
| Session.Logout | src/library/authenticationApi.ts:51-58 | Removes exactly the five session keys. Every other key keeps its value. |
| Session.GetStoredAuthData | src/library/authenticationApi.ts:60-74 | The user id is null exactly when it is absent or empty, and otherwise it is the `parseInt` of the stored text. |
| Session.LoginAuthenticates | src/library/authenticationApi.ts:76-82 | After a login with a non-empty token the visitor is authenticated, and the role is the one the backend returned. |
| Session.RefusedLoginKeepsSession | src/library/authenticationApi.ts:35-37 | A refused login changes neither the store nor the authentication. |
| Session.LoginStoredAuth | src/library/authenticationApi.ts:60-74 | After a login, the stored data reads back the token, the type, the user id as a number, the email and the role. |
| Session.LogoutEndsSession | src/library/authenticationApi.ts:51-58 | After logout nobody is authenticated and no role or user data is stored. `lender_id` survives. |
| Session.LoginLogout | src/library/authenticationApi.ts:42-57 | Logging out after a login gives back the original store without its session keys. |
| RouteGuard.CheckAuthorization | src/app/admin/components/RouteProtection.tsx:21-50 | Authorised exactly when a token is stored and the stored role is non-empty and allowed. A visitor without a token goes to "/auth/signin". Every other refusal goes to the fallback path, which is "/admin" by default. |
| RouteGuard.ChildrenOnlyWhenAuthorized | src/app/admin/components/RouteProtection.tsx:55-65 | The protected page renders exactly when the visitor is authorised. Otherwise the loader stays on screen. |
| RouteGuard.SignedInRedirect | src/app/auth/layout.tsx:15-33 | A visitor who is not signed in stays. A signed-in manager goes to "/manager". Every other signed-in visitor goes to "/admin". |
| RouteGuard.ManagerSession | src/app/auth/layout.tsx:21-31 | A manager who logs in is let into manager pages and redirected to "/manager". After logout the same pages send them to sign in. |
| AdminUserTable.TabRole | src/app/admin/users/UserTable.tsx:9-13 | Exactly the three tab labels Admin, Manager and User select a role. Each selects one of the stored roles ADMIN, MANAGER and USER, the one that spells its label in capitals. |
| AdminUserTable.FilteredUsers | src/app/admin/users/UserTable.tsx:142-149 | The listed users are exactly the fetched users other than the signed-in one that match the search, kept in their original order. |
| AdminUserTable.SelfNeverListed | src/app/admin/users/UserTable.tsx:145 | The signed-in user is never listed, whatever the search. |
| AdminUserTable.SearchIgnoresCase | src/app/admin/users/UserTable.tsx:147 | A search typed in another letter case lists the same users. |
| AdminUserTable.NoFilterShowsAll | src/app/admin/users/UserTable.tsx:142-149 | With nobody signed in and an empty search, the whole list is shown. |
| AdminUserTable.CountTabs | src/app/admin/users/UserTable.tsx:116-118 | The Admin, Manager and User badges are the numbers of users whose role is exactly ADMIN, MANAGER and USER. Together they never count more users than exist, and they count every user when every role is one of the three. |
| AdminUserTable.BadgeCountsQueriedRole | src/app/admin/users/UserTable.tsx:189 | A tab has a badge exactly when it selects a role, and the badge counts exactly the users listed under that role. |
| AdminUserTable.RoleCountsBound | src/app/admin/users/UserTable.tsx:129-131 | Each user is counted in at most one role badge. When every role is ADMIN, MANAGER or USER, each user is counted in exactly one. |
| AdminUserTable.RowAction | src/app/admin/users/UserTable.tsx:266-274 | Block is offered exactly when the badge reads Active. |
| AdminUserTable.LenderMap | src/app/admin/users/UserTable.tsx:61-64 | The map has exactly the ids of the lenders, and each id maps to the name of some lender with that id. |
| AdminUserTable.LenderMapLastWins | src/app/admin/users/UserTable.tsx:61-64 | The last lender with a given id names it. |
| AdminUserTable.LenderColumn | src/app/admin/users/UserTable.tsx:242 | The column shows either "Lender #<id>" or the non-empty name of a lender with that id. |
| AdminUserTable.UnknownLenderFallback | src/app/admin/users/UserTable.tsx:242 | An id no lender has is shown as "Lender #<id>". |
| ManagerUserTable.CountTabs | src/app/manager/users/UserTable.tsx:34-38 | The All badge counts every user. Active plus Blocked never exceeds All. |
| ManagerUserTable.FixedCounts | src/app/manager/users/UserTable.tsx:13-17 | The fixed user list shows the badges 3, 2 and 1. |
| ManagerUserTable.FilteredUsers | src/app/manager/users/UserTable.tsx:41-45 | Every listed user is on the tab, since "All" admits any status, and matches the search. Every user on the tab who matches the search is listed. Order is kept. |
| ManagerUserTable.BadgeMatchesList | src/app/manager/users/UserTable.tsx:34-45 | With an empty search, each tab lists as many users as its badge says. |
| ManagerUserTable.RowAction | src/app/manager/users/UserTable.tsx:128-136 | Block is offered exactly for status "Active". |
| LenderTable.FilteredLenders | src/app/admin/lenders/LenderTable.tsx:45-48 | The listed lenders are exactly those whose name includes the search, ignoring case, kept in order. |
| LenderTable.EmptySearchListsAll | src/app/admin/lenders/LenderTable.tsx:45-48 | An empty search lists every lender. |
| LenderTable.StatusLabel | src/app/admin/lenders/LenderTable.tsx:107-108 | The badge reads Active exactly for status "active". |
| LenderTable.ViewRoute | src/app/admin/lenders/LenderTable.tsx:52-54 | The view route lies under "/admin/lenders/". |
| LenderTable.ViewRouteReadsBack | src/app/admin/lenders/LenderTable.tsx:52-54 | Parsing the last path segment of the view route gives back the lender id. |
| BlockUnblockDialog.IsBlocked | src/app/manager/users/BlockUnblockModal.tsx:7 | A user is not blocked exactly when present with status "Active". |
| BlockUnblockDialog.DialogWording | src/app/manager/users/BlockUnblockModal.tsx:16-21 | The title, the question's verb and the button all say "unblock" for a blocked user and "block" otherwise. |
| BlockUnblockDialog.DialogMatchesRowAction | src/app/manager/users/BlockUnblockModal.tsx:21 | The dialog's button names the same action the table row offered. |
| BlockUnblockDialog.LowerCaseActiveCountsAsBlocked | src/app/manager/users/BlockUnblockModal.tsx:7 | A user with lower-case status "active" is offered an unblock. |
| AddUserForm.Pick | src/app/admin/users/AddUserModal.tsx:33 | Every draw in [0, 1) picks a position inside the charset. |
| AddUserForm.PickReachesEveryPosition | src/app/admin/users/AddUserModal.tsx:33 | Every charset position is picked by some draw. |
| AddUserForm.GeneratePassword | src/app/admin/users/AddUserModal.tsx:27-37 | The password has exactly 12 characters. Each is a charset character, the one its draw picks. |
| AddUserForm.ActiveLenders | src/app/admin/users/AddUserModal.tsx:58 | Exactly the active lenders are offered, in their original order. |
| AddUserForm.ChangeRole | src/app/admin/users/AddUserModal.tsx:138-141 | Changing the role clears the lender selection and changes nothing else. |
| AddUserForm.FinalLenderId | src/app/admin/users/AddUserModal.tsx:85-90 | An admin is sent lender id 0. A manager or user is sent the `parseInt` of the selection. |
| AddUserForm.SubmitUser | src/app/admin/users/AddUserModal.tsx:73-116 | For a form that reaches the submit handler: nothing is sent, and "Please select a lender" shows, exactly when a manager or user has no lender selected. The request carries the form's fields and the derived lender id. Callbacks run, close then success, and the form resets exactly when the call succeeds. A failure keeps the form and shows the message or "Failed to create user". |
| AddUserForm.SelectedLenderSent | src/app/admin/users/AddUserModal.tsx:85-90 | A manager or user whose selection is a lender's decimal id is created under exactly that lender. |
| AddUserForm.RoleChangeRequiresNewLender | src/app/admin/users/AddUserModal.tsx:138-141 | Switching to a lender-bound role and submitting straight away is refused without a call. |
| AddUserForm.AdminAlwaysLenderZero | src/app/admin/users/AddUserModal.tsx:85-90 | An admin form that reaches the submit handler is always sent, with lender id 0, whatever the selector still holds. |
| AddLenderForm.SubmitLender | src/app/admin/lenders/AddLenderModal.tsx:27-47 | A blank name gives "Lender name is required" and no call. Otherwise the trimmed, non-empty name is sent. Success runs the success callback then close. Failure shows the message or "Failed to create lender". |
| AddLenderForm.ReopenedFormRefusesSubmit | src/app/admin/lenders/AddLenderModal.tsx:19-35 | Whatever the form held before closing, submitting the reopened dialog shows "Lender name is required" and sends nothing. |
| AddLenderForm.PaddedNameSentTrimmed | src/app/admin/lenders/AddLenderModal.tsx:39 | A padded name and its trimmed form send the same name, which has no edge white space. |
| AddLenderForm.SuccessThenCloseLeavesEmptyForm | src/app/admin/lenders/AddLenderModal.tsx:20-41 | A successful submit sends the trimmed name and runs success then close. The dialog then reopens empty, so submitting it again sends nothing. |
| PasswordForm.Utf16Length | src/app/manager/account-settings/UpdatePasswordCard.tsx:34 | The JavaScript length lies between the character count and twice that. |
| PasswordForm.Utf16LengthBmp | src/app/manager/account-settings/UpdatePasswordCard.tsx:34 | For text without characters beyond U+FFFF, the JavaScript length is the character count. |
| PasswordForm.ChangeField | src/app/manager/account-settings/UpdatePasswordCard.tsx:14-20 | The named field takes the value. The other two are kept. |
| PasswordForm.Submit | src/app/manager/account-settings/UpdatePasswordCard.tsx:22-56 | For a form that reaches the submit handler, `updatePassword` is called exactly when the new password matches its confirmation and has at least 6 code units, and it receives the current and new passwords. A mismatch is reported before the length. Success clears all fields and shows the success message. Failure keeps the fields and shows the error's message or the default. Loading ends on every path. |
| PasswordForm.SubmitAsWritten | src/app/manager/account-settings/UpdatePasswordCard.tsx:40-51 | With the missing `updatePassword`, nothing is ever sent. The form ends as `Submit` ends on a thrown error whose message is the TypeError's, so an error message always shows. |
| PasswordForm.MissingUpdatePasswordNeverSends | src/app/manager/account-settings/UpdatePasswordCard.tsx:40-51 | A valid change that the corrected form sends and confirms is, as written, never sent, and the TypeError's text shows instead. |
| PasswordForm.MismatchReportedFirst | src/app/manager/account-settings/UpdatePasswordCard.tsx:28-38 | A short password that also mismatches is reported as a mismatch. |
| PasswordForm.AstralCharactersCountTwice | src/app/manager/account-settings/UpdatePasswordCard.tsx:34 | Three emoji are six code units, so they pass the length check. |
| PasswordForm.ClearedFormIsRefused | src/app/manager/account-settings/UpdatePasswordCard.tsx:42-47 | Submitting again after a success sends nothing. |
| BuyCreditsForm.Submit | src/app/manager/credits/BuyCreditsModal.tsx:17-28 | `onBuy` runs exactly when `parseInt(amount, 10)` is a positive number, and it gets that number. Then the fields are cleared and the dialog closes. Otherwise "Please enter a valid number of credits." shows and nothing else changes. |
| BuyCreditsForm.CloseOrBuyDisablesButton | src/app/manager/credits/BuyCreditsModal.tsx:17-62 | Cancel and a successful buy both clear the amount. The button is then disabled and a submit buys nothing. |
| BuyCreditsForm.DisabledButtonWouldRefuse | src/app/manager/credits/BuyCreditsModal.tsx:62 | Whatever a disabled button would submit is refused. |
| BuyCreditsForm.InputValue | src/app/manager/credits/BuyCreditsModal.tsx:44 | The number input holds either nothing or a valid floating-point number, and a valid one is kept unchanged. |
| BuyCreditsForm.TypedTextDisablesButton | src/app/manager/credits/BuyCreditsModal.tsx:44-62 | Text that is not a valid number, such as "abc" or "25 credits", reads as an empty amount, so the button is disabled. |
| BuyCreditsForm.DecimalAmountBought | src/app/manager/credits/BuyCreditsModal.tsx:19-44 | A valid number text that starts with a positive decimal is kept by the number input, leaves the button enabled, and buys exactly the whole number before the first non-digit. |
| BuyCreditsForm.ExponentAmountBuysOne | src/app/manager/credits/BuyCreditsModal.tsx:19-44 | "1e3" is a valid amount that enables the button, yet it buys one credit, because `parseInt` stops at the "e". |
| CreditsPage.BuyCredits | src/app/manager/credits/page.tsx:12-14 | A purchase raises the balance by exactly the amount. |
| CreditsPage.HistoryBalances | src/app/manager/credits/page.tsx:109-137 | The history shows the balance, then 5 less, then 500 less again. |
| CreditsPage.PurchasesAddUp | src/app/manager/credits/page.tsx:12-14 | A series of purchases adds its total to the balance. |
| CreditsPage.AcceptedPurchaseRaisesBalance | src/app/manager/credits/page.tsx:9-52 | A purchase the dialog accepts raises the Available Credits card and every history row by the amount. The Credits Used card stays 750. |
| CreditGauge.RoundQuotient | src/app/manager/components/dashboard/MonthlyTarget.tsx:55 | The result is the integer nearest to n / d, with halves rounded up. |
| CreditGauge.AvailablePercentage | src/app/manager/components/dashboard/MonthlyTarget.tsx:53-56 | No record, or a zero total, gives 0%. Otherwise the result is the available share of the total in percent, rounded half up. |
| CreditGauge.PercentageBounds | src/app/manager/components/dashboard/MonthlyTarget.tsx:53-56 | When the available credits lie between 0 and the total, the percentage lies in 0..100. A full balance gives exactly 100 and an empty one exactly 0. |
| CreditGauge.Shown | src/app/manager/components/dashboard/MonthlyTarget.tsx:210-249 | A figure of a missing record displays as 0. |
| CreditGauge.ClosingSentence | src/app/manager/components/dashboard/MonthlyTarget.tsx:215-217 | The percentage sentence shows exactly when some credits are available, and it carries the gauge's percentage. |
| CreditGauge.DefaultRecordShowsZero | src/app/manager/components/dashboard/MonthlyTarget.tsx:210-217 | A lender with no credit record sees 0% and zero figures, plus the purchase hint. |
| CreditGauge.SentenceShowsNonNegativePercent | src/app/manager/components/dashboard/MonthlyTarget.tsx:215-217 | Whenever the percentage sentence shows, its percentage is not negative. |
| ManagerInvoiceForms.IsValidIffNoEmptyField | src/app/manager/invoices/MarkAsFinancedModal.tsx:21 | The financing form is valid exactly when none of its six inputs is empty. |
| ManagerInvoiceForms.ChangeField | src/app/manager/invoices/MarkAsFinancedModal.tsx:23-25 | The named input takes the value. The other five keep theirs. |
| ManagerInvoiceForms.SubmitFinance | src/app/manager/invoices/MarkAsFinancedModal.tsx:27-30 | The whole form is submitted exactly when it is valid and a handler is present. |
| ManagerInvoiceForms.ChangeFieldValidity | src/app/manager/invoices/MarkAsFinancedModal.tsx:21-25 | After an edit, the form is valid exactly when the new value is non-empty and every other input is non-empty. |
| ManagerInvoiceForms.ButtonMatchesSubmit | src/app/manager/invoices/MarkAsFinancedModal.tsx:63 | The button is disabled exactly when a submit would send nothing. |
| ManagerInvoiceForms.SubmitManagerReject | src/app/manager/invoices/RejectFinanceModal.tsx:15-22 | The reason is submitted exactly when an invoice is shown, the reason is not blank and a handler is present. It is submitted untrimmed. |
| ManagerInvoiceForms.BlankReasonNeverSubmitted | src/app/manager/invoices/RejectFinanceModal.tsx:15 | A blank reason is never submitted. |
| ManagerInvoiceForms.PaddedReasonKept | src/app/manager/invoices/RejectFinanceModal.tsx:19-22 | " late " is submitted with its spaces. |
| InvoiceActions.RejectPayload | src/app/admin/invoices/RejectFinanceModal.tsx:28-32 | The write is the invoice with status 2 and the reason. Restoring those two fields gives back the original record. |
| InvoiceActions.RepaidPayload | src/app/admin/invoices/MarkAsRepaidModal.tsx:23-27 | The write has status 3. The repaid date is absent exactly when none was entered, and otherwise it is the entered date. No other field changes. |
| InvoiceActions.TrashPayload | src/app/manager/invoices/DeleteInvoiceModal.tsx:20-23 | The write has status 4 and differs from the record in nothing else. |
| InvoiceActions.AdminReject | src/app/admin/invoices/RejectFinanceModal.tsx:22-40 | The write is sent exactly when an invoice is shown and the reason is not blank. Success runs the submit then the close callback. Failure shows the message or "Failed to reject invoice" and does not close. |
| InvoiceActions.MarkAsRepaid | src/app/admin/invoices/MarkAsRepaidModal.tsx:19-35 | The write is sent whenever an invoice is shown. Success runs the submit then the close callback. Failure only alerts. |
| InvoiceActions.AdminRejectAsWritten | src/app/admin/invoices/RejectFinanceModal.tsx:22-40 | With the missing `updateInvoiceById`, nothing is written, no callback runs and nothing is alerted. The dialog shows what the corrected dialog shows for a thrown TypeError. |
| InvoiceActions.MarkAsRepaidAsWritten | src/app/admin/invoices/MarkAsRepaidModal.tsx:19-35 | With the missing `updateInvoiceById`, nothing is written and no callback runs. "Failed to mark as repaid" is alerted exactly when an invoice is shown. |
| InvoiceActions.MissingUpdateByIdNeverWrites | src/app/admin/invoices/RejectFinanceModal.tsx:28-34 | Where the corrected reject and repaid dialogs write and close, the dialogs as written write nothing and stay open. |
| InvoiceActions.DeleteInvoice | src/app/manager/invoices/DeleteInvoiceModal.tsx:17-31 | The trash write is addressed by the record's numeric id and sent when a token is stored. Success runs delete then close. Failure only alerts "Failed to delete invoice". |
| InvoiceActions.CloseOnlyOnSuccess | src/app/manager/invoices/DeleteInvoiceModal.tsx:24-27 | Each of the three actions closes its dialog exactly when its write succeeds. |
| InvoiceActions.WritesKeepInvoiceId | src/app/admin/invoices/MarkAsRepaidModal.tsx:23-27 | None of the three writes changes the invoice id. The repaid write keeps the rejection reason. |
| InvoiceActions.RepaidFromAnyStatus | src/app/admin/invoices/MarkAsRepaidModal.tsx:19-27 | An invoice in any status, even the trash, is written as repaid. The client checks no status. |
| ApiKeysPage.DeleteKey | src/app/manager/my-api/page.tsx:41-43 | Deleting keeps exactly the keys with another id, in their original order. |
| ApiKeysPage.DeleteAbsentId | src/app/manager/my-api/page.tsx:41-43 | Deleting an id no key has changes nothing. |
| ApiKeysPage.DeleteTwice | src/app/manager/my-api/page.tsx:41-43 | Deleting the same id twice is the same as deleting it once. |
| ApiKeysPage.DeleteClick | src/app/manager/my-api/page.tsx:55-58 | The chosen key is remembered and the confirmation opens. The list is unchanged. |
| ApiKeysPage.DeleteConfirm | src/app/manager/my-api/page.tsx:60-66 | With no chosen key nothing changes. Otherwise that key's id is deleted, the choice is cleared and the confirmation closes. |
| ApiKeysPage.Slice | src/app/manager/my-api/page.tsx:47 | The slice is clamped to the string and is never longer than `end - start`. |
| ApiKeysPage.GenerateKey | src/app/manager/my-api/page.tsx:45-53 | The key list is unchanged. The stored new key starts with "sk_" and has at most 16 more characters. The stored title is "New Key" and the dialog is set to open. |
| ApiKeysPage.GeneratedKeyNeverShown | src/app/manager/my-api/page.tsx:122 | The generate dialog receives only whether it is open. It opens, and it receives the same thing whatever key was generated, so the new key never reaches the screen. |
| ApiKeysPage.GeneratedKeySuffix | src/app/manager/my-api/page.tsx:47 | For a random text "0.<digits>", the key is "sk_" followed by the first sixteen digits. |
| ApiKeysPage.ChooseGenerateConfirm | src/app/manager/my-api/page.tsx:45-66 | Choosing a key, generating another and confirming removes exactly the chosen key. |
| ApiKeysPage.DeleteProductionKey | src/app/manager/my-api/page.tsx:12-43 | Deleting the production key from the initial page leaves only the test key. |

## Left out

- Network and storage plumbing: `fetch`, HTTP status codes and JSON decoding are not modelled. Each call is a modelled answer (`Response`) or a `reply` parameter. `localStorage` is a `map<string, string>`.
- `authenticationApi.getUserDetails`, `authenticationApi.updatePassword` and `invoiceApi.updateInvoiceById` are called but defined nowhere in the program, so each call throws a `TypeError` (see "## Findings"). The main model assumes an implementation and takes each call as a parameter: `getUserDetails` is the lender id it yields, and the other two are how they end. The `...AsWritten` members model the program as it stands.
- `userApi.createUser` and `lenderApi.createLender` belong to API clients outside the modelled core, so they too are parameters, standing for how they end. `getInvoiceStatistics` and `getMonthlyChartData` are not used by the modelled code.
- The backend is a function of the request in the bulk loop. Its own rules (status transitions, duplicate detection, credit deduction) are not part of this code.
- React effects, state batching and re-renders are not modelled. Neither are the bulk progress bar with its 100 ms delay, `FileReader`, drag-and-drop, and the modal and layout markup.
- The password is generated when the dialog opens; this is an effect, so only the generator is modelled. The "copy password" button (clipboard) is left out.
- `new Date().toISOString()` is a parameter. The two readings in the default credits record are two separate parameters, `created` and `updated`, and nothing relates them.
- `Math.random()` is a parameter: the twelve password draws, and the `toString(36)` text of the key. The key's randomness is not modelled.
- Text.Lower: `toLowerCase` is modelled on ASCII letters only. Other letters keep their case, so search results for non-ASCII text may differ from the browser's.
- CreditGauge.AvailablePercentage: `Math.round(a / t * 100)` is computed exactly on rationals. The floating-point rounding of the division is not modelled.
- BulkValidate.RowError: `Number(v)` is reduced to its sign class (NaN, negative, zero, positive) over the full numeric-literal grammar. Its value is not computed.
- JsNumbers.NumberClass: the sign class is taken from the exact decimal value, with no rounding to a double. So `"1e-400"` is Positive here, although `Number` underflows it to 0 and the program refuses it as a loan amount, and `"-1e-400"` is Negative here, although it is -0 in JavaScript and passes as an interest rate.
- BulkValidate.RowError: inherits the missing underflow of `JsNumbers.NumberClass` for amounts below about 1e-324 in size.
- JsNumbers.ParseInt: `parseInt` is computed exactly on unbounded integers. JavaScript rounds results beyond 2^53 to a double, so `parseInt("9007199254740993")` is 9007199254740992 there.
- Session.LoginStoredAuth: the user id reads back exactly only up to 2^53, because of the `parseInt` rounding above.
- Session.GetStoredAuthData: the parsed user id is exact, with no rounding beyond 2^53.
- AddUserForm.SelectedLenderSent: the lender id reads back exactly only up to 2^53.
- AddUserForm.FinalLenderId: the parsed lender id is exact, with no rounding beyond 2^53.
- CreditsApi.DefaultRecordLenderId: the lender id reads back exactly only up to 2^53.
- LenderTable.ViewRouteReadsBack: the lender id reads back exactly only up to 2^53.
- BuyCreditsForm.DecimalAmountBought: the amount bought is exact, with no rounding beyond 2^53.
- AddUserForm.SubmitUser: the browser's constraint validation is not modelled. The role select (AddUserModal.tsx:142), the lender select (line 166), the name (line 190), the email (line 206) and the password (line 223) are `required`, and the email input is `type="email"`. The browser blocks the submit event before the handler runs for a blank required field or a malformed email, so the model sends requests for such forms that the page cannot send. The handler's own "Please select a lender" path is reached only while the lender list is loading and the select is not shown.
- AddUserForm.AdminAlwaysLenderZero: "always sent" covers only admin forms that pass the browser's `required` and email checks listed above.
- PasswordForm.Submit: the three password inputs are `required` (UpdatePasswordCard.tsx:86, 101 and 116), so the browser never runs the handler with any field blank. The model has no such check, and sends a change with a blank current password.
- BuyCreditsForm.Submit: the browser's constraint validation of the number input (`required`, `min="1"` and the default step of 1) is not modelled. The browser blocks the submit event for an amount such as "12.5" or "0.5" before the handler runs, and these amounts are modelled as reaching the handler.
- AddUserForm.GeneratePassword: the contract states membership in the literal 70-character charset. It does not break the charset down into letters, digits and symbols.
- `isEmpty` of the three tables is just the emptiness of the filtered list, so it has no member of its own.
- Charts, mock screens, the simulated sign-in and reset pages, and the thin API-client wrappers hold no decisions and are not modelled.

## Findings

| source | as written | input that shows it | evidently intended | confidence | as-written member | corrected member |
|---|---|---|---|---|---|---|
| src/app/manager/invoices/BulkUpdateModal.tsx:261 | `authenticationApi.getUserDetails()` is called, but `authenticationApi` defines no such member, so the call throws outside any `try` after the step is set to processing | any selected CSV file whose rows all pass validation | read the signed-in user's lender id, then fetch the invoices and run the row loop | high, not executed | BulkUpdate.HandleSubmitAsWritten, BulkUpdate.MissingUserLookupStalls | BulkUpdate.HandleSubmit |
| src/app/admin/invoices/RejectFinanceModal.tsx:28 | `invoiceApi.updateInvoiceById` is called, but `invoiceApi` defines no such member, so the dialog always shows the TypeError's message and writes nothing | any shown invoice with a non-blank reason | write the invoice with status 2 and the reason, then run the submit and close callbacks | high, not executed | InvoiceActions.AdminRejectAsWritten, InvoiceActions.MissingUpdateByIdNeverWrites | InvoiceActions.AdminReject |
| src/app/admin/invoices/MarkAsRepaidModal.tsx:23 | the same missing `invoiceApi.updateInvoiceById` throws, so every attempt alerts "Failed to mark as repaid" | any shown invoice | write the invoice with status 3 and the repaid date, then run the submit and close callbacks | high, not executed | InvoiceActions.MarkAsRepaidAsWritten, InvoiceActions.MissingUpdateByIdNeverWrites | InvoiceActions.MarkAsRepaid |
| src/app/manager/account-settings/UpdatePasswordCard.tsx:41 | `authenticationApi.updatePassword` is called, but `authenticationApi` defines no such member, so every valid change ends in the TypeError's message | new and confirmed password "secret1", any non-empty current password | send the change and show "Password updated successfully!" | high, not executed | PasswordForm.SubmitAsWritten, PasswordForm.MissingUpdatePasswordNeverSends | PasswordForm.Submit |

=== FILE: admin_forms.dfy ===
/** The admin's "Add User" dialog (`src/app/admin/users/AddUserModal.tsx`):
    the generated password, the lender requirement for managers and users,
    and what a submit sends and resets. */
module AddUserForm {
  import opened Results
  import opened Seqs
  import opened JsNumbers
  import AdminUserTable

  /** The characters a generated password is drawn from. */
  const Charset: string := "abcdefghijklmnopqrstuvwxyzABCDEFGHIJKLMNOPQRSTUVWXYZ0123456789!@#$%^&*"

  const PasswordLength: nat := 12

  /** `Math.floor(r * charset.length)` for a draw `r` of `Math.random()`. */
  function Pick(r: real): (i: nat)
    requires 0.0 <= r < 1.0
    ensures i < |Charset|
  {
    (r * 70.0).Floor
  }

  /** Every character of the charset can be drawn: the draw `i / 70` picks
      position `i`. */
  lemma PickReachesEveryPosition(i: nat)
    requires i < |Charset|
    ensures 0.0 <= i as real / 70.0 < 1.0
    ensures Pick(i as real / 70.0) == i
  {
  }

  /** `generatePassword`: twelve draws, each picking one charset character. */
  method GeneratePassword(draws: seq<real>) returns (password: string)
    requires |draws| == PasswordLength
    requires forall k :: 0 <= k < |draws| ==> 0.0 <= draws[k] < 1.0
    ensures |password| == PasswordLength
    ensures forall k :: 0 <= k < |password| ==> password[k] in Charset
    ensures forall k :: 0 <= k < |password| ==> password[k] == Charset[Pick(draws[k])]
  {
    password := "";
    var i := 0;
    while i < PasswordLength
      invariant 0 <= i <= PasswordLength
      invariant |password| == i
      invariant forall k :: 0 <= k < i ==> password[k] == Charset[Pick(draws[k])]
    {
      password := password + [Charset[Pick(draws[i])]];
      i := i + 1;
    }
  }

  datatype Role = Admin | Manager | User

  /** The value of the role selector. */
  function RoleName(role: Role): string {
    match role
    case Admin => "ADMIN"
    case Manager => "MANAGER"
    case User => "USER"
  }

  /** Managers and users belong to a lender; admins do not. */
  predicate NeedsLender(role: Role) {
    role == Manager || role == User
  }

  /** The dialog's fields. `lenderId` is the selected option's value, `""`
      when nothing is selected. */
  datatype Form = Form(
    name: string,
    email: string,
    password: string,
    role: Role,
    lenderId: string,
    error: string,
    copied: bool)

  /** What `userApi.createUser` receives. */
  datatype CreateUserRequest = CreateUserRequest(
    name: string,
    email: string,
    password: string,
    role: Role,
    lenderId: JsInt)

  /** The parent's callbacks, in the order they run. */
  datatype Callback = CloseCalled | SuccessCalled

  datatype Outcome = Outcome(form: Form, request: Option<CreateUserRequest>, callbacks: seq<Callback>)

  /** The form the dialog reopens with after a successful submit. */
  const ResetForm: Form := Form("", "", "", User, "", "", false)

  const SelectLenderMessage: string := "Please select a lender"
  const CreateFailedMessage: string := "Failed to create user"

  /** The lenders offered in the selector: only active ones, in order. */
  function ActiveLenders(lenders: seq<AdminUserTable.Lender>): (r: seq<AdminUserTable.Lender>)
    ensures forall i :: 0 <= i < |r| ==> r[i] in lenders && r[i].status == "active"
    ensures forall l :: l in lenders && l.status == "active" ==> l in r
    ensures IsSubsequence(r, lenders)
  {
    var active := (l: AdminUserTable.Lender) => l.status == "active";
    FilterIsSubsequence(active, lenders);
    Filter(active, lenders)
  }

  /** The role selector's change handler: set the role and clear the
      selected lender; nothing else changes. */
  function ChangeRole(form: Form, role: Role): (f: Form)
    ensures f.role == role && f.lenderId == []
    ensures f.name == form.name && f.email == form.email && f.password == form.password
    ensures f.error == form.error && f.copied == form.copied
  {
    form.(role := role, lenderId := [])
  }

  /** `finalLenderId`: 0 for an admin, otherwise `parseInt` of the selection
      (without a radix). */
  function FinalLenderId(role: Role, lenderId: string): (id: JsInt)
    ensures role == Admin ==> id == Int(0)
    ensures NeedsLender(role) ==> id == ParseInt(lenderId, Auto)
  {
    if role == Admin then Int(0) else ParseInt(lenderId, Auto)
  }

  /** `handleSubmit`. `reply` is how `createUser` ends: `None` when the user
      is created, `Some(message)` when it throws. The browser's `required`
      and email checks run before this handler and are not modelled. */
  function SubmitUser(form: Form, reply: Option<string>): (out: Outcome)
    ensures out.request.None? <==> NeedsLender(form.role) && form.lenderId == []
    ensures out.request.None? ==>
      out == Outcome(form.(error := SelectLenderMessage), None, [])
    ensures out.request.Some? ==>
      && out.request.value.name == form.name
      && out.request.value.email == form.email
      && out.request.value.password == form.password
      && out.request.value.role == form.role
      && out.request.value.lenderId == FinalLenderId(form.role, form.lenderId)
    ensures out.callbacks != [] <==> out.request.Some? && reply.None?
    ensures out.callbacks != [] ==> out.callbacks == [CloseCalled, SuccessCalled] && out.form == ResetForm
    ensures out.request.Some? && reply.Some? ==>
      out.form == form.(error := OrElse(reply.value, CreateFailedMessage))
  {
    if NeedsLender(form.role) && form.lenderId == [] then
      Outcome(form.(error := SelectLenderMessage), None, [])
    else
      var request := CreateUserRequest(form.name, form.email, form.password, form.role,
                                       FinalLenderId(form.role, form.lenderId));
      match reply
      case None => Outcome(ResetForm, Some(request), [CloseCalled, SuccessCalled])
      case Some(message) => Outcome(form.(error := OrElse(message, CreateFailedMessage)), Some(request), [])
  }

  /** A manager or user whose selected option is a lender's decimal id is
      created under exactly that lender. */
  lemma SelectedLenderSent(form: Form, id: nat, reply: Option<string>)
    requires NeedsLender(form.role) && form.lenderId == NatToString(id)
    ensures SubmitUser(form, reply).request.Some?
    ensures SubmitUser(form, reply).request.value.lenderId == Int(id)
  {
    assert NatToString(id) == IntToString(id);
    ParseIntToString(id, [], Auto);
    assert NatToString(id) + [] == NatToString(id);
  }

  /** Switching to a lender-bound role clears the selection, so submitting
      straight away is refused without calling the backend. */
  lemma RoleChangeRequiresNewLender(form: Form, role: Role, reply: Option<string>)
    requires NeedsLender(role)
    ensures SubmitUser(ChangeRole(form, role), reply)
            == Outcome(ChangeRole(form, role).(error := SelectLenderMessage), None, [])
  {
  }

  /** An admin never needs a lender and is always sent with lender id 0,
      whatever the selector still holds. */
  lemma AdminAlwaysLenderZero(form: Form, reply: Option<string>)
    requires form.role == Admin
    ensures SubmitUser(form, reply).request.Some?
    ensures SubmitUser(form, reply).request.value.lenderId == Int(0)
  {
  }
}

/** The admin's "Add Lender" dialog (`src/app/admin/lenders/AddLenderModal.tsx`). */
module AddLenderForm {
  import opened Results
  import opened Text

  datatype Form = Form(name: string, error: string)

  /** The parent's callbacks, in the order they run. */
  datatype Callback = SuccessCalled | CloseCalled

  /** `request` is the name sent to `lenderApi.createLender`, if any. */
  datatype Outcome = Outcome(form: Form, request: Option<string>, callbacks: seq<Callback>)

  const NameRequiredMessage: string := "Lender name is required"
  const CreateFailedMessage: string := "Failed to create lender"

  /** `handleSubmit`. `reply` is how `createLender` ends: `None` when the
      lender is created, `Some(message)` when it throws. */
  function SubmitLender(form: Form, reply: Option<string>): (out: Outcome)
    ensures out.request.None? <==> AllSpace(form.name)
    ensures out.request.None? ==> out == Outcome(Form(form.name, NameRequiredMessage), None, [])
    ensures out.request.Some? ==> out.request.value == Trim(form.name) && out.request.value != []
    ensures out.request.Some? ==> out.form.name == form.name
    ensures out.callbacks != [] <==> out.request.Some? && reply.None?
    ensures out.callbacks != [] ==> out.callbacks == [SuccessCalled, CloseCalled] && out.form.error == []
    ensures out.request.Some? && reply.Some? ==> out.form.error == OrElse(reply.value, CreateFailedMessage)
  {
    var cleared := form.(error := []);
    var trimmed := Trim(form.name);
    if trimmed == [] then Outcome(cleared.(error := NameRequiredMessage), None, [])
    else match reply
      case None => Outcome(cleared, Some(trimmed), [SuccessCalled, CloseCalled])
      case Some(message) => Outcome(cleared.(error := OrElse(message, CreateFailedMessage)), Some(trimmed), [])
  }

  /** The effect that runs when the dialog closes: both fields are cleared. */
  function Closed(form: Form): Form {
    Form([], [])
  }

  /** Whatever was typed before, a closed and reopened dialog refuses to
      submit until a name is typed again: nothing is sent twice by a second
      click. */
  lemma ReopenedFormRefusesSubmit(form: Form, reply: Option<string>)
    ensures SubmitLender(Closed(form), reply) == Outcome(Form([], NameRequiredMessage), None, [])
  {
  }

  /** The name sent has no white space at either end, so a padded name and
      its trimmed form create the same lender. */
  lemma PaddedNameSentTrimmed(form: Form, reply: Option<string>)
    requires !AllSpace(form.name)
    ensures SubmitLender(form, reply).request == SubmitLender(Form(Trim(form.name), form.error), reply).request
    ensures Trim(SubmitLender(form, reply).request.value) == SubmitLender(form, reply).request.value
  {
    TrimIdempotent(form.name);
  }

  /** A successful submit runs `onSuccess` and then `onClose`; the close
      effect then clears the dialog, so submitting again sends nothing. */
  lemma SuccessThenCloseLeavesEmptyForm(form: Form, again: Option<string>)
    requires !AllSpace(form.name)
    ensures SubmitLender(form, None).callbacks == [SuccessCalled, CloseCalled]
    ensures SubmitLender(form, None).request == Some(Trim(form.name))
    ensures SubmitLender(Closed(SubmitLender(form, None).form), again).request.None?
  {
    ReopenedFormRefusesSubmit(SubmitLender(form, None).form, again);
  }
}

=== FILE: bulk_csv.dfy ===
/** Reading the bulk-update CSV file (`parseCSV` in
    `src/app/manager/invoices/BulkUpdateModal.tsx`).

    Blank lines are dropped, the first remaining line is the header, the
    required headers depend on the update type, and each later line becomes
    a row when it has at least as many values as the header. The invoice id
    always comes from the first column; the other fields are found by header
    name in a "full export" file and by fixed position otherwise. */
module BulkCsv {
  import opened Results
  import opened Text
  import opened Seqs

  /** The three kinds of bulk update the dialog offers. */
  datatype UpdateType = Finance | Reject | MarkRepaid

  /** The update type chosen when the dialog opens on a status tab: the
      Financed and Rejected tabs choose "repaid", every other tab "finance". */
  function UpdateTypeForTab(tab: string): (t: UpdateType)
    ensures t != Reject
    ensures t == MarkRepaid <==> tab == "Financed" || tab == "Rejected"
  {
    if tab == "Searched" then Finance
    else if tab == "Financed" then MarkRepaid
    else if tab == "Rejected" then MarkRepaid
    else if tab == "Repaid" then Finance
    else Finance
  }

  /** One data row. A field the update type does not read stays absent. */
  datatype CsvRow = CsvRow(
    invoiceId: string,
    loanAmount: Option<string>,
    interestRate: Option<string>,
    disbursementAmount: Option<string>,
    disbursementDate: Option<string>,
    creditPeriod: Option<string>,
    dueDate: Option<string>)

  const FinanceHeaders: seq<string> :=
    ["invoice_id", "loan_amount", "interest_rate", "disbursement_amount",
     "disbursement_date", "credit_period", "due_date"]

  /** The headers a file must contain for the given update type. */
  function ExpectedHeaders(mode: UpdateType): seq<string> {
    if mode == Finance then FinanceHeaders else ["invoice_id"]
  }

  function MissingHeadersMessage(mode: UpdateType): string {
    "Invalid CSV format. Expected headers: " + Join(ExpectedHeaders(mode), ", ")
  }

  const ParseFailedMessage: string := "Failed to parse CSV file"

  /** A line kept by `filter(line => line.trim())`. */
  predicate NonBlank(line: string) {
    Trim(line) != []
  }

  /** The non-blank lines of the file, in order. */
  function Lines(text: string): (r: seq<string>)
    ensures forall k :: 0 <= k < |r| ==> NonBlank(r[k])
  {
    Filter(NonBlank, Split(text, '\n'))
  }

  /** `line.split(',').map(v => v.trim())`. */
  function Cells(line: string): (r: seq<string>)
    ensures |r| >= 1
  {
    var parts := Split(line, ',');
    seq(|parts|, k requires 0 <= k < |parts| => Trim(parts[k]))
  }

  /** A "full export" header: it names `status` and has more than seven columns. */
  predicate IsFullExport(headers: seq<string>) {
    "status" in headers && |headers| > 7
  }

  /** `headers.indexOf(name)`: the first position of `name`, or -1. */
  function IndexOf(headers: seq<string>, name: string): (i: int)
    ensures i == -1 <==> name !in headers
    ensures 0 <= i ==> i < |headers| && headers[i] == name && name !in headers[..i]
  {
    if |headers| == 0 then -1
    else if headers[0] == name then 0
    else
      var j := IndexOf(headers[1..], name);
      assert headers[1..][..if j < 0 then 0 else j] == headers[1..if j < 0 then 1 else j + 1];
      if j < 0 then -1 else j + 1
  }

  /** `values[i] || ''`: a missing value (also `values[-1]`) reads as empty. */
  function Cell(values: seq<string>, i: int): (v: string)
    ensures 0 <= i < |values| ==> v == values[i]
    ensures !(0 <= i < |values|) ==> v == []
  {
    if 0 <= i < |values| then values[i] else []
  }

  /** The value under the column named `name`. */
  function Named(values: seq<string>, headers: seq<string>, name: string): string {
    Cell(values, IndexOf(headers, name))
  }

  /** Builds the row for one line's values. */
  function BuildRow(values: seq<string>, headers: seq<string>, mode: UpdateType): (r: CsvRow)
    requires |values| >= 1
    ensures r.invoiceId == values[0]
    ensures mode == Reject ==> r == CsvRow(values[0], None, None, None, None, None, None)
    ensures mode == MarkRepaid ==> r.loanAmount.None? && r.interestRate.None? && r.disbursementAmount.None?
                                   && r.disbursementDate.None? && r.creditPeriod.None? && r.dueDate.Some?
    ensures mode == Finance ==> r.loanAmount.Some? && r.interestRate.Some? && r.disbursementAmount.Some?
                                && r.disbursementDate.Some? && r.creditPeriod.Some? && r.dueDate.Some?
  {
    var full := IsFullExport(headers);
    match mode
    case Finance =>
      if full then
        CsvRow(values[0],
               Some(Named(values, headers, "loan_amount")),
               Some(Named(values, headers, "interest_rate")),
               Some(Named(values, headers, "disbursement_amount")),
               Some(Named(values, headers, "disbursement_date")),
               Some(Named(values, headers, "credit_period")),
               Some(Named(values, headers, "due_date")))
      else
        CsvRow(values[0], Some(Cell(values, 1)), Some(Cell(values, 2)), Some(Cell(values, 3)),
               Some(Cell(values, 4)), Some(Cell(values, 5)), Some(Cell(values, 6)))
    case MarkRepaid =>
      var due := if full then Named(values, headers, "due_date") else Cell(values, 1);
      CsvRow(values[0], None, None, None, None, None, Some(due))
    case Reject =>
      CsvRow(values[0], None, None, None, None, None, None)
  }

  /** A line long enough to become a row. */
  predicate LongEnough(line: string, headers: seq<string>) {
    |Cells(line)| >= |headers|
  }

  /** The row a data line builds, as a value for `FilterMap`. */
  function RowBuilder(headers: seq<string>, mode: UpdateType): string -> CsvRow {
    (l: string) => BuildRow(Cells(l), headers, mode)
  }

  /** The line filter of the row loop, as a value for `FilterMap`. */
  function LongEnoughFor(headers: seq<string>): string -> bool {
    (l: string) => LongEnough(l, headers)
  }

  /** The row loop over the data lines: lines with fewer values than headers
      are skipped, every other line pushes its row. */
  function ParseRows(lines: seq<string>, headers: seq<string>, mode: UpdateType): seq<CsvRow> {
    FilterMap(LongEnoughFor(headers), RowBuilder(headers, mode), lines)
  }

  /** `parseCSV` on the file's text. A file without any non-blank line fails
      as a parse error (its header line does not exist). */
  function ParseCsv(text: string, mode: UpdateType): (r: Result<seq<CsvRow>>)
    ensures |Lines(text)| == 0 ==> r == Failure(ParseFailedMessage)
    ensures |Lines(text)| > 0 ==>
      var headers := Cells(Lines(text)[0]);
      && (r.Failure? <==> exists h :: h in ExpectedHeaders(mode) && h !in headers)
      && (r.Failure? ==> r.error == MissingHeadersMessage(mode))
      && (r.Success? ==> |r.value| < |Lines(text)|)
  {
    var lines := Lines(text);
    if |lines| == 0 then Failure(ParseFailedMessage)
    else
      var headers := Cells(lines[0]);
      if exists h :: h in ExpectedHeaders(mode) && h !in headers then Failure(MissingHeadersMessage(mode))
      else Success(ParseRows(lines[1..], headers, mode))
  }

  /** The rows are exactly the long-enough lines, kept in order, each built
      into a row, and there is one row per long-enough line. */
  lemma ParseRowsKeepsLongLines(lines: seq<string>, headers: seq<string>, mode: UpdateType)
    ensures ParseRows(lines, headers, mode) == Map(RowBuilder(headers, mode), Filter(LongEnoughFor(headers), lines))
    ensures |ParseRows(lines, headers, mode)| == Count(LongEnoughFor(headers), lines)
  {
    FilterMapIsMapOfFilter(LongEnoughFor(headers), RowBuilder(headers, mode), lines);
    FilterMapLength(LongEnoughFor(headers), RowBuilder(headers, mode), lines);
  }

  /** A single line becomes one row when it is long enough and nothing
      otherwise, so rows come out in line order with no line affecting
      another's row. */
  lemma ParseRowsOneLineAtATime(before: seq<string>, line: string, headers: seq<string>, mode: UpdateType)
    ensures ParseRows(before + [line], headers, mode)
            == ParseRows(before, headers, mode)
               + (if LongEnough(line, headers) then [BuildRow(Cells(line), headers, mode)] else [])
  {
    FilterMapAppend(LongEnoughFor(headers), RowBuilder(headers, mode), before, [line]);
    assert [line][1..] == [];
  }

  /** The financing field of a row that `FinanceHeaders[f]` names. */
  function FinanceField(row: CsvRow, f: nat): Option<string>
    requires 1 <= f < |FinanceHeaders|
  {
    if f == 1 then row.loanAmount
    else if f == 2 then row.interestRate
    else if f == 3 then row.disbursementAmount
    else if f == 4 then row.disbursementDate
    else if f == 5 then row.creditPeriod
    else row.dueDate
  }

  /** In a full-export finance file every financing field is the value under
      the first column of that name, wherever the column is. */
  lemma FullExportFinanceByName(values: seq<string>, headers: seq<string>, f: nat, k: nat)
    requires |values| >= |headers| >= 1
    requires IsFullExport(headers)
    requires 1 <= f < |FinanceHeaders|
    requires k < |headers| && headers[k] == FinanceHeaders[f] && FinanceHeaders[f] !in headers[..k]
    ensures FinanceField(BuildRow(values, headers, Finance), f) == Some(values[k])
  {
    FinanceFieldNamed(values, headers, f);
    IndexOfFirst(headers, FinanceHeaders[f], k);
  }

  /** A full-export finance row reads each field through its header name. */
  lemma FinanceFieldNamed(values: seq<string>, headers: seq<string>, f: nat)
    requires |values| >= 1 && IsFullExport(headers)
    requires 1 <= f < |FinanceHeaders|
    ensures FinanceField(BuildRow(values, headers, Finance), f) == Some(Named(values, headers, FinanceHeaders[f]))
  {
  }

  /** A name's first occurrence is what `IndexOf` finds. */
  lemma IndexOfFirst(headers: seq<string>, name: string, k: nat)
    requires k < |headers| && headers[k] == name && name !in headers[..k]
    ensures IndexOf(headers, name) == k
  {
    assert name in headers;
  }

  /** Without a full-export header the financing fields are columns 1 to 6,
      whatever the header says. */
  lemma SimpleFinanceByPosition(values: seq<string>, headers: seq<string>)
    requires |values| >= 7
    requires !IsFullExport(headers)
    ensures BuildRow(values, headers, Finance)
            == CsvRow(values[0], Some(values[1]), Some(values[2]), Some(values[3]),
                      Some(values[4]), Some(values[5]), Some(values[6]))
  {
  }

  /** Repaid and reject files only need an `invoice_id` column. */
  lemma OnlyInvoiceIdRequired(text: string, mode: UpdateType)
    requires mode != Finance
    requires |Lines(text)| > 0 && "invoice_id" in Cells(Lines(text)[0])
    ensures ParseCsv(text, mode).Success?
  {
  }
}

=== FILE: bulk_roundtrip.dfy ===
/** Writing finance rows in the documented layout
    (`invoice_id,loan_amount,interest_rate,disbursement_amount,disbursement_date,credit_period,due_date`)
    and reading the file back gives the same rows, as long as no value
    contains a comma or a line break, or starts or ends with white space. */
module BulkRoundTrip {
  import opened Results
  import opened Text
  import opened Seqs
  import opened BulkCsv

  /** The seven values of one finance line. */
  datatype FinanceLine = FinanceLine(
    invoiceId: string,
    loanAmount: string,
    interestRate: string,
    disbursementAmount: string,
    disbursementDate: string,
    creditPeriod: string,
    dueDate: string)

  function Values(l: FinanceLine): seq<string> {
    [l.invoiceId, l.loanAmount, l.interestRate, l.disbursementAmount,
     l.disbursementDate, l.creditPeriod, l.dueDate]
  }

  /** A value the format carries unchanged. */
  predicate CleanValue(v: string) {
    ',' !in v && '\n' !in v && (v != [] ==> !IsSpace(v[0]) && !IsSpace(v[|v| - 1]))
  }

  predicate CleanLine(l: FinanceLine) {
    forall k :: 0 <= k < 7 ==> CleanValue(Values(l)[k])
  }

  function LineText(l: FinanceLine): string {
    Join(Values(l), ",")
  }

  function LineTexts(lines: seq<FinanceLine>): (r: seq<string>)
    ensures |r| == |lines|
    ensures forall i :: 0 <= i < |lines| ==> r[i] == LineText(lines[i])
  {
    if |lines| == 0 then [] else [LineText(lines[0])] + LineTexts(lines[1..])
  }

  /** The lines of the file: the header line, then one line per record. */
  function FileLines(lines: seq<FinanceLine>): seq<string> {
    [Join(FinanceHeaders, ",")] + LineTexts(lines)
  }

  /** The file. */
  function FormatFinanceCsv(lines: seq<FinanceLine>): string {
    Join(FileLines(lines), "\n")
  }

  /** The row the parser should produce for a line. */
  function ExpectedRow(l: FinanceLine): CsvRow {
    CsvRow(l.invoiceId, Some(l.loanAmount), Some(l.interestRate), Some(l.disbursementAmount),
           Some(l.disbursementDate), Some(l.creditPeriod), Some(l.dueDate))
  }

  /** The values of a clean comma-joined list read back unchanged. */
  lemma CellsOfJoin(values: seq<string>)
    requires |values| >= 1
    requires forall k :: 0 <= k < |values| ==> CleanValue(values[k])
    ensures Cells(Join(values, ",")) == values
  {
    var joined := Join(values, ",");
    assert forall k :: 0 <= k < |values| ==> ',' !in values[k];
    SplitJoin(values, ',');
    CleanValuesTrimmed(values);
    var cells := Cells(joined);
    assert |cells| == |values|;
    assert forall k :: 0 <= k < |values| ==> cells[k] == Trim(values[k]);
  }

  /** Trimming leaves clean values as they are. */
  lemma CleanValuesTrimmed(values: seq<string>)
    requires forall k :: 0 <= k < |values| ==> CleanValue(values[k])
    ensures forall k :: 0 <= k < |values| ==> Trim(values[k]) == values[k]
  {
    forall k | 0 <= k < |values| ensures Trim(values[k]) == values[k] {
      TrimNoEdgeSpace(values[k]);
    }
  }

  /** A clean line is kept as non-blank, is long enough, and builds its row. */
  lemma LineParses(l: FinanceLine)
    requires CleanLine(l)
    ensures '\n' !in LineText(l)
    ensures NonBlank(LineText(l))
    ensures Cells(LineText(l)) == Values(l)
    ensures BuildRow(Cells(LineText(l)), FinanceHeaders, Finance) == ExpectedRow(l)
  {
    var vs := Values(l);
    assert forall k :: 0 <= k < |vs| ==> CleanValue(vs[k]);
    CellsOfJoin(vs);
    JoinExcludes(vs, ",", '\n');
    var t := LineText(l);
    assert t == vs[0] + "," + Join(vs[1..], ",");
    assert t[|vs[0]|] == ',';
    assert !AllSpace(t) by { assert !IsSpace(t[|vs[0]|]); }
    assert !IsFullExport(FinanceHeaders);
  }

  /** The blank-line filter keeps every line of the written file. */
  lemma {:induction false} AllLinesKept(texts: seq<string>)
    requires forall i :: 0 <= i < |texts| ==> NonBlank(texts[i])
    ensures Filter(NonBlank, texts) == texts
    decreases |texts|
  {
    if |texts| > 0 {
      AllLinesKept(texts[1..]);
    }
  }

  /** Every line is long enough and builds its own row. */
  lemma {:induction false} RowsOfLines(lines: seq<FinanceLine>)
    requires forall i :: 0 <= i < |lines| ==> CleanLine(lines[i])
    ensures ParseRows(LineTexts(lines), FinanceHeaders, Finance) == Map(ExpectedRow, lines)
    decreases |lines|
  {
    if |lines| > 0 {
      RowsOfLines(lines[1..]);
      LineParses(lines[0]);
      assert LineTexts(lines)[1..] == LineTexts(lines[1..]);
    }
  }

  /** The header names are clean values. */
  lemma HeadersClean()
    ensures forall k :: 0 <= k < |FinanceHeaders| ==> CleanValue(FinanceHeaders[k])
  {
  }

  /** The written header line is kept and reads back as the finance headers. */
  lemma HeaderLine()
    ensures '\n' !in Join(FinanceHeaders, ",")
    ensures NonBlank(Join(FinanceHeaders, ","))
    ensures Cells(Join(FinanceHeaders, ",")) == FinanceHeaders
  {
    HeadersClean();
    CellsOfJoin(FinanceHeaders);
    JoinExcludes(FinanceHeaders, ",", '\n');
    JoinStartsWith(FinanceHeaders, ",");
  }

  /** A join starts with the first piece. */
  lemma JoinStartsWith(parts: seq<string>, sep: string)
    requires |parts| > 0 && |parts[0]| > 0
    ensures |Join(parts, sep)| > 0 && Join(parts, sep)[0] == parts[0][0]
  {
  }

  /** Joining non-blank lines without line breaks and dropping blank lines
      gives the lines back. */
  lemma LinesOfJoin(texts: seq<string>)
    requires |texts| >= 1
    requires forall i :: 0 <= i < |texts| ==> '\n' !in texts[i] && NonBlank(texts[i])
    ensures Lines(Join(texts, "\n")) == texts
  {
    SplitJoin(texts, '\n');
    AllLinesKept(texts);
  }

  /** Reading back a written finance file gives one row per record, in order,
      with every value as written. */
  lemma FinanceRoundTrip(lines: seq<FinanceLine>)
    requires forall i :: 0 <= i < |lines| ==> CleanLine(lines[i])
    ensures ParseCsv(FormatFinanceCsv(lines), Finance) == Success(Map(ExpectedRow, lines))
  {
    var texts := FileLines(lines);
    FileLinesClean(lines);
    LinesOfJoin(texts);
    HeaderLine();
    assert Lines(FormatFinanceCsv(lines)) == texts;
    assert Cells(texts[0]) == FinanceHeaders;
    assert texts[1..] == LineTexts(lines);
    RowsOfLines(lines);
  }

  /** Every line of the written file, the header included, is one non-blank
      line. */
  lemma FileLinesClean(lines: seq<FinanceLine>)
    requires forall i :: 0 <= i < |lines| ==> CleanLine(lines[i])
    ensures forall i :: 0 <= i < |FileLines(lines)| ==> '\n' !in FileLines(lines)[i] && NonBlank(FileLines(lines)[i])
  {
    var texts := FileLines(lines);
    HeaderLine();
    forall i | 0 <= i < |texts| ensures '\n' !in texts[i] && NonBlank(texts[i]) {
      if i > 0 {
        LineParses(lines[i - 1]);
      }
    }
  }
}

=== FILE: bulk_update.dfy ===
/** The reconciliation loop of the bulk update (`handleSubmit` in
    `src/app/manager/invoices/BulkUpdateModal.tsx`): after the file and the
    rows pass, the lender's invoices are fetched once, and every row is looked
    up by `invoice_id`, turned into a status-specific update and sent. Each
    row yields exactly one result; a row that fails never stops the others.

    The backend is a parameter: `server` gives the answer to each update
    request, and `fetched` is the answer to the invoice-list request. */
module BulkUpdate {
  import opened Results
  import opened Store
  import opened Http
  import opened Seqs
  import opened Text
  import opened InvoiceApi
  import opened BulkCsv
  import opened BulkValidate

  /** `STATUS_MAP[status]?.label`. */
  function StatusLabel(status: int): (l: Option<string>)
    ensures l.Some? <==> 0 <= status <= 3
  {
    if status == Searched then Some("Searched")
    else if status == Financed then Some("Financed")
    else if status == Rejected then Some("Rejected")
    else if status == Repaid then Some("Repaid")
    else None
  }

  /** The status an update type writes. */
  function StatusFor(mode: UpdateType): int {
    match mode
    case Finance => Financed
    case Reject => Rejected
    case MarkRepaid => Repaid
  }

  /** The body of one update request. */
  datatype Payload = Payload(
    status: int,
    loanAmount: Option<string>,
    interestRate: Option<string>,
    disbursementAmount: Option<string>,
    disbursementDate: Option<string>,
    creditPeriod: Option<string>,
    dueDate: Option<string>,
    invoiceId: string)

  /** The update data for a row: finance sends the six financing fields,
      repaid only the due date, reject nothing but the status; the invoice id
      is always sent. */
  function BuildPayload(row: CsvRow, mode: UpdateType): (p: Payload)
    ensures p.invoiceId == row.invoiceId && p.status == StatusFor(mode)
    ensures mode == Finance ==>
      && p.loanAmount == row.loanAmount && p.interestRate == row.interestRate
      && p.disbursementAmount == row.disbursementAmount && p.disbursementDate == row.disbursementDate
      && p.creditPeriod == row.creditPeriod && p.dueDate == row.dueDate
    ensures mode != Finance ==>
      && p.loanAmount.None? && p.interestRate.None? && p.disbursementAmount.None?
      && p.disbursementDate.None? && p.creditPeriod.None?
    ensures p.dueDate.Some? ==> mode != Reject && p.dueDate == row.dueDate
  {
    match mode
    case Finance =>
      Payload(Financed, row.loanAmount, row.interestRate, row.disbursementAmount,
              row.disbursementDate, row.creditPeriod, row.dueDate, row.invoiceId)
    case MarkRepaid =>
      Payload(Repaid, None, None, None, None, None, row.dueDate, row.invoiceId)
    case Reject =>
      Payload(Rejected, None, None, None, None, None, None, row.invoiceId)
  }

  /** `PUT /invoice/invoice-id/<target>` with `payload`. */
  datatype UpdateRequest = UpdateRequest(target: string, payload: Payload)

  datatype RowStatus = Succeeded | Errored

  /** One line of the results list. */
  datatype RowResult = RowResult(invoiceId: string, status: RowStatus, message: string)

  /** `allInvoices.find(inv => inv.invoice_id === id)`. */
  function FindInvoice(invoices: seq<Invoice>, id: string): (r: Option<Invoice>)
    ensures r.None? <==> forall k :: 0 <= k < |invoices| ==> invoices[k].invoiceId != id
    ensures r.Some? ==> r.value.invoiceId == id && r.value in invoices
  {
    if |invoices| == 0 then None
    else if invoices[0].invoiceId == id then Some(invoices[0])
    else FindInvoice(invoices[1..], id)
  }

  /** When several invoices share the id, the first one is used. */
  lemma {:induction false} FindInvoiceFirst(invoices: seq<Invoice>, id: string, k: nat)
    requires k < |invoices| && invoices[k].invoiceId == id
    requires forall j :: 0 <= j < k ==> invoices[j].invoiceId != id
    ensures FindInvoice(invoices, id) == Some(invoices[k])
    decreases k
  {
    if k > 0 {
      FindInvoiceFirst(invoices[1..], id, k - 1);
    }
  }

  const NotFoundMessage: string := "Invoice not found"
  const UpdateFailedMessage: string := "Failed to update invoice"

  /** `Successfully updated to ${STATUS_MAP[status]?.label}`. */
  function SuccessMessage(mode: UpdateType): string {
    "Successfully updated to " + StatusLabel(StatusFor(mode)).GetOr("undefined")
  }

  /** Every update type has a label, so no success message reads "undefined". */
  lemma SuccessMessages()
    ensures SuccessMessage(Finance) == "Successfully updated to Financed"
    ensures SuccessMessage(MarkRepaid) == "Successfully updated to Repaid"
    ensures SuccessMessage(Reject) == "Successfully updated to Rejected"
  {
  }

  /** The request sent for a row whose invoice exists. */
  function RequestFor(row: CsvRow, mode: UpdateType): UpdateRequest {
    UpdateRequest(row.invoiceId, BuildPayload(row, mode))
  }

  /** The message of the error `updateInvoice` throws, as the catch block
      shows it: its `message`, or the fallback when that is empty. */
  function CaughtMessage(store: Storage, resp: Response<Invoice>): string
    requires UpdateInvoice(store, resp).Failure?
  {
    OrElse(UpdateInvoice(store, resp).error, UpdateFailedMessage)
  }

  /** One pass of the loop body. */
  function ProcessRow(row: CsvRow, mode: UpdateType, invoices: seq<Invoice>, store: Storage,
                      server: UpdateRequest -> Response<Invoice>): (r: RowResult)
    ensures r.invoiceId == row.invoiceId
    ensures FindInvoice(invoices, row.invoiceId).None? ==> r == RowResult(row.invoiceId, Errored, NotFoundMessage)
    ensures r.status == Succeeded <==>
      FindInvoice(invoices, row.invoiceId).Some? && HasToken(store) && server(RequestFor(row, mode)).Ok?
    ensures r.status == Succeeded ==> r.message == SuccessMessage(mode)
    ensures FindInvoice(invoices, row.invoiceId).Some? && !HasToken(store) ==> r.message == NoTokenMessage
    ensures FindInvoice(invoices, row.invoiceId).Some? && HasToken(store) && server(RequestFor(row, mode)).HttpError? ==>
      r.message == OrElse(UpdateErrorMessage(server(RequestFor(row, mode)).detail), UpdateFailedMessage)
  {
    match FindInvoice(invoices, row.invoiceId)
    case None => RowResult(row.invoiceId, Errored, NotFoundMessage)
    case Some(invoice) =>
      var request := UpdateRequest(invoice.invoiceId, BuildPayload(row, mode));
      match UpdateInvoice(store, server(request))
      case Success(_) => RowResult(row.invoiceId, Succeeded, SuccessMessage(mode))
      case Failure(_) => RowResult(row.invoiceId, Errored, CaughtMessage(store, server(request)))
  }

  /** The loop body as a value for `Map`. */
  function RowProcessor(mode: UpdateType, invoices: seq<Invoice>, store: Storage,
                        server: UpdateRequest -> Response<Invoice>): CsvRow -> RowResult {
    (row: CsvRow) => ProcessRow(row, mode, invoices, store, server)
  }

  /** The loop over every row: one result per row, in row order, each
      depending on its own row only. */
  function ProcessRows(rows: seq<CsvRow>, mode: UpdateType, invoices: seq<Invoice>, store: Storage,
                       server: UpdateRequest -> Response<Invoice>): (results: seq<RowResult>)
    ensures |results| == |rows|
    ensures forall i :: 0 <= i < |rows| ==>
      results[i] == ProcessRow(rows[i], mode, invoices, store, server)
  {
    Map(RowProcessor(mode, invoices, store, server), rows)
  }

  /** A row whose invoice is among the lender's invoices. */
  function Matched(invoices: seq<Invoice>): CsvRow -> bool {
    (row: CsvRow) => FindInvoice(invoices, row.invoiceId).Some?
  }

  function RequestBuilder(mode: UpdateType): CsvRow -> UpdateRequest {
    (row: CsvRow) => RequestFor(row, mode)
  }

  /** The requests that reach the backend, in order: one per matched row, and
      none without a token (the token check throws before any request). */
  function RequestsSent(rows: seq<CsvRow>, mode: UpdateType, invoices: seq<Invoice>, store: Storage): (sent: seq<UpdateRequest>)
    ensures |sent| <= |rows|
    ensures !HasToken(store) ==> sent == []
  {
    if HasToken(store) then FilterMap(Matched(invoices), RequestBuilder(mode), rows) else []
  }

  predicate IsSuccess(r: RowResult) { r.status == Succeeded }
  predicate IsError(r: RowResult) { r.status == Errored }

  /** `results.filter(r => r.status === 'success').length`. */
  function SuccessCount(results: seq<RowResult>): nat {
    Count(IsSuccess, results)
  }

  /** `results.filter(r => r.status === 'error').length`. */
  function ErrorCount(results: seq<RowResult>): nat {
    Count(IsError, results)
  }

  /** Every result is counted exactly once. */
  lemma CountsCoverResults(results: seq<RowResult>)
    ensures SuccessCount(results) + ErrorCount(results) == |results|
  {
    CountPartition(IsSuccess, IsError, results);
  }

  /** With a token and a backend that accepts every request, exactly one
      request is sent per row whose invoice exists, and the errors are exactly
      the rows without an invoice. */
  lemma {:induction false} AcceptingBackend(rows: seq<CsvRow>, mode: UpdateType, invoices: seq<Invoice>, store: Storage,
                                            server: UpdateRequest -> Response<Invoice>)
    requires HasToken(store)
    requires forall q :: server(q).Ok?
    ensures ErrorCount(ProcessRows(rows, mode, invoices, store, server))
            == |rows| - Count(Matched(invoices), rows)
    ensures |RequestsSent(rows, mode, invoices, store)| == Count(Matched(invoices), rows)
    decreases |rows|
  {
    FilterMapLength(Matched(invoices), RequestBuilder(mode), rows);
    if |rows| > 0 {
      AcceptingBackend(rows[1..], mode, invoices, store, server);
      var results := ProcessRows(rows, mode, invoices, store, server);
      assert results[1..] == ProcessRows(rows[1..], mode, invoices, store, server);
      assert results == [results[0]] + results[1..];
    }
  }

  /** The name of the system-level result line. */
  const SystemId: string := "System"

  /** A lender id that passes `if (!lenderId)`: present and not 0. */
  predicate LenderKnown(lenderId: Option<int>) {
    lenderId.Some? && lenderId.value != 0
  }

  /** What the submit ends with: an alert (nothing was sent), the results
      page with the requests that reached the backend, or the processing
      step left on screen because `handleSubmit` threw before any result. */
  datatype Outcome =
    | Alert(message: string)
    | Finished(results: seq<RowResult>, requests: seq<UpdateRequest>)
    | Stalled

  /** `handleSubmit`. `lenderId` is the lender of the signed-in user, and
      `fetched` the backend's answer to the lender's invoice list. */
  function HandleSubmit(fileSelected: bool, rows: seq<CsvRow>, mode: UpdateType, lenderId: Option<int>,
                        fetched: Response<seq<Invoice>>, store: Storage,
                        server: UpdateRequest -> Response<Invoice>): (o: Outcome)
    ensures !fileSelected || |rows| == 0 ==> o == Alert("Please upload a CSV file first")
    ensures !o.Stalled?
    ensures o.Alert? <==> !fileSelected || |rows| == 0 || ValidateCsvData(rows, mode).Some?
    ensures fileSelected && |rows| > 0 && ValidateCsvData(rows, mode).Some? ==>
      o == Alert(ValidateCsvData(rows, mode).value)
    ensures o.Finished? && !LenderKnown(lenderId) ==>
      o == Finished([RowResult(SystemId, Errored, "No lender ID found for the current user.")], [])
    ensures o.Finished? && LenderKnown(lenderId) && GetInvoicesByLenderId(store, fetched).Failure? ==>
      o == Finished([RowResult(SystemId, Errored,
                               OrElse(GetInvoicesByLenderId(store, fetched).error, "Failed to fetch invoices"))], [])
    ensures o.Finished? && LenderKnown(lenderId) && GetInvoicesByLenderId(store, fetched).Success? ==>
      var invoices := GetInvoicesByLenderId(store, fetched).value;
      && o.results == ProcessRows(rows, mode, invoices, store, server)
      && o.requests == RequestsSent(rows, mode, invoices, store)
  {
    if !fileSelected || |rows| == 0 then Alert("Please upload a CSV file first")
    else match ValidateCsvData(rows, mode)
      case Some(message) => Alert(message)
      case None =>
        if !LenderKnown(lenderId) then
          Finished([RowResult(SystemId, Errored, "No lender ID found for the current user.")], [])
        else match GetInvoicesByLenderId(store, fetched)
          case Failure(message) =>
            Finished([RowResult(SystemId, Errored, OrElse(message, "Failed to fetch invoices"))], [])
          case Success(invoices) =>
            Finished(ProcessRows(rows, mode, invoices, store, server), RequestsSent(rows, mode, invoices, store))
  }

  /** `handleSubmit` as the program is written: the lender lookup calls
      `authenticationApi.getUserDetails`, which the authentication client
      does not define, so once the file is valid the call throws outside any
      `try`. The dialog stays on the processing step, and no invoice is
      fetched or updated. */
  function HandleSubmitAsWritten(fileSelected: bool, rows: seq<CsvRow>, mode: UpdateType): (o: Outcome)
    ensures !o.Finished?
    ensures o.Alert? <==> !fileSelected || |rows| == 0 || ValidateCsvData(rows, mode).Some?
  {
    if !fileSelected || |rows| == 0 then Alert("Please upload a CSV file first")
    else match ValidateCsvData(rows, mode)
      case Some(message) => Alert(message)
      case None => Stalled
  }

  /** The program as written agrees with `HandleSubmit` up to the alerts,
      and every submit that `HandleSubmit` carries through to the results
      page stalls instead. */
  lemma MissingUserLookupStalls(fileSelected: bool, rows: seq<CsvRow>, mode: UpdateType, lenderId: Option<int>,
                                fetched: Response<seq<Invoice>>, store: Storage,
                                server: UpdateRequest -> Response<Invoice>)
    ensures var intended := HandleSubmit(fileSelected, rows, mode, lenderId, fetched, store, server);
      HandleSubmitAsWritten(fileSelected, rows, mode) == (if intended.Alert? then intended else Stalled)
  {
  }

  /** A single invalid row stops the whole batch before any request, however
      many valid rows there are. */
  lemma InvalidRowBlocksBatch(rows: seq<CsvRow>, mode: UpdateType, k: nat, lenderId: Option<int>,
                              fetched: Response<seq<Invoice>>, store: Storage,
                              server: UpdateRequest -> Response<Invoice>)
    requires k < |rows| && !RowValid(rows[k], mode)
    ensures HandleSubmit(true, rows, mode, lenderId, fetched, store, server).Alert?
  {
  }

  /** A missing invoice produces an error line and the rows after it are
      still processed. */
  lemma MissingInvoiceDoesNotStop(rows: seq<CsvRow>, mode: UpdateType, invoices: seq<Invoice>, store: Storage,
                                  server: UpdateRequest -> Response<Invoice>, k: nat)
    requires k < |rows| && FindInvoice(invoices, rows[k].invoiceId).None?
    ensures ProcessRows(rows, mode, invoices, store, server)[k] == RowResult(rows[k].invoiceId, Errored, NotFoundMessage)
    ensures forall i :: k < i < |rows| ==>
      ProcessRows(rows, mode, invoices, store, server)[i] == ProcessRow(rows[i], mode, invoices, store, server)
  {
  }

  /** The file picker: a name ending in `.csv` in any letter case is parsed,
      anything else is refused before reading. */
  predicate HasCsvExtension(name: string) {
    var lower := Lower(name);
    |lower| >= 4 && lower[|lower| - 4..] == ".csv"
  }

  /** `handleFileSelect`: a parse error is alerted and the file is dropped. */
  function SelectFile(name: string, text: string, mode: UpdateType): (r: Result<seq<CsvRow>>)
    ensures !HasCsvExtension(name) ==> r == Failure("Please select a CSV file")
    ensures HasCsvExtension(name) ==> r == ParseCsv(text, mode)
  {
    if !HasCsvExtension(name) then Failure("Please select a CSV file") else ParseCsv(text, mode)
  }

  lemma UpperCaseExtensionAccepted(stem: string, text: string, mode: UpdateType)
    ensures SelectFile(stem + ".CSV", text, mode) == ParseCsv(text, mode)
  {
    var name := stem + ".CSV";
    var lower := Lower(name);
    assert lower[|lower| - 4..] == ".csv" by {
      forall k | 0 <= k < 4 ensures lower[|lower| - 4..][k] == ".csv"[k] {
        assert name[|stem| + k] == ".CSV"[k];
      }
    }
  }
}

=== FILE: bulk_validate.dfy ===
/** The all-or-nothing check of the parsed rows (`validateCSVData` in
    `src/app/manager/invoices/BulkUpdateModal.tsx`): the first failing row,
    numbered as a spreadsheet line (data row i is line i + 2), decides the
    message, and the checks within a row run in a fixed order. */
module BulkValidate {
  import opened Results
  import opened Text
  import opened JsNumbers
  import opened BulkCsv
  import opened Seqs

  /** `!v`: the value is absent or empty. */
  predicate Blank(v: Option<string>) {
    v.None? || v.value == []
  }

  /** Passes `!v || isNaN(Number(v)) || Number(v) <= 0`. */
  predicate PositiveValue(v: Option<string>) {
    !Blank(v) && NumberClass(v.value) == Positive
  }

  /** Passes `!v || isNaN(Number(v)) || Number(v) < 0`. */
  predicate NonNegativeValue(v: Option<string>) {
    !Blank(v) && (NumberClass(v.value) == Zero || NumberClass(v.value) == Positive)
  }

  /** Everything a row must satisfy for its update type, as one conjunction. */
  predicate RowValid(row: CsvRow, mode: UpdateType) {
    && Trim(row.invoiceId) != []
    && (mode == Finance ==>
          && PositiveValue(row.loanAmount)
          && NonNegativeValue(row.interestRate)
          && PositiveValue(row.disbursementAmount)
          && !Blank(row.disbursementDate)
          && PositiveValue(row.creditPeriod)
          && !Blank(row.dueDate))
    && (mode == MarkRepaid ==> !Blank(row.dueDate))
  }

  /** One finance check: what a row must satisfy and the message shown when
      it does not. */
  datatype FieldCheck = FieldCheck(passes: CsvRow -> bool, message: string)

  /** The finance checks in the order `validateCSVData` runs them. */
  function FinanceChecks(): seq<FieldCheck> {
    [ FieldCheck((row: CsvRow) => PositiveValue(row.loanAmount), "Invalid loan amount"),
      FieldCheck((row: CsvRow) => NonNegativeValue(row.interestRate), "Invalid interest rate"),
      FieldCheck((row: CsvRow) => PositiveValue(row.disbursementAmount), "Invalid disbursement amount"),
      FieldCheck((row: CsvRow) => !Blank(row.disbursementDate), "Disbursement date is required"),
      FieldCheck((row: CsvRow) => PositiveValue(row.creditPeriod), "Invalid credit period"),
      FieldCheck((row: CsvRow) => !Blank(row.dueDate), "Due date is required") ]
  }

  /** Whether `row` passes a check, as a value for `FirstFailing`. */
  function PassedBy(row: CsvRow): FieldCheck -> bool {
    (c: FieldCheck) => c.passes(row)
  }

  /** The message of the first finance check the row fails, if any. */
  ghost function FirstFinanceFailure(row: CsvRow): Option<string> {
    var k := FirstFailing(PassedBy(row), FinanceChecks(), 0);
    if k == |FinanceChecks()| then None else Some(FinanceChecks()[k].message)
  }

  /** The message for the first check a row fails, if any. */
  function RowError(row: CsvRow, mode: UpdateType): (e: Option<string>)
    ensures e.None? <==> RowValid(row, mode)
    ensures Trim(row.invoiceId) == [] ==> e == Some("Invoice ID is required")
    ensures mode == Finance && Trim(row.invoiceId) != [] ==> e == FirstFinanceFailure(row)
    ensures mode == MarkRepaid && Trim(row.invoiceId) != [] ==>
            (e.Some? <==> Blank(row.dueDate)) && (e.Some? ==> e.value == "Due date is required")
    ensures mode == Reject ==> (e.None? <==> Trim(row.invoiceId) != [])
  {
    if Trim(row.invoiceId) == [] then Some("Invoice ID is required")
    else match mode
      case Finance =>
        FinanceErrorInOrder(row);
        if !PositiveValue(row.loanAmount) then Some("Invalid loan amount")
        else if !NonNegativeValue(row.interestRate) then Some("Invalid interest rate")
        else if !PositiveValue(row.disbursementAmount) then Some("Invalid disbursement amount")
        else if Blank(row.disbursementDate) then Some("Disbursement date is required")
        else if !PositiveValue(row.creditPeriod) then Some("Invalid credit period")
        else if Blank(row.dueDate) then Some("Due date is required")
        else None
      case MarkRepaid =>
        if Blank(row.dueDate) then Some("Due date is required") else None
      case Reject => None
  }

  /** The chain of `if`s in `validateCSVData` reports the first failing
      entry of `FinanceChecks`. */
  lemma FinanceErrorInOrder(row: CsvRow)
    ensures FirstFinanceFailure(row) ==
      if !PositiveValue(row.loanAmount) then Some("Invalid loan amount")
      else if !NonNegativeValue(row.interestRate) then Some("Invalid interest rate")
      else if !PositiveValue(row.disbursementAmount) then Some("Invalid disbursement amount")
      else if Blank(row.disbursementDate) then Some("Disbursement date is required")
      else if !PositiveValue(row.creditPeriod) then Some("Invalid credit period")
      else if Blank(row.dueDate) then Some("Due date is required")
      else None
  {
    var cs := FinanceChecks();
    var p := PassedBy(row);
    assert p(cs[0]) == PositiveValue(row.loanAmount);
    assert p(cs[1]) == NonNegativeValue(row.interestRate);
    assert p(cs[2]) == PositiveValue(row.disbursementAmount);
    assert p(cs[3]) == !Blank(row.disbursementDate);
    assert p(cs[4]) == PositiveValue(row.creditPeriod);
    assert p(cs[5]) == !Blank(row.dueDate);
  }

  /** The line number shown for data row `i`: the header is line 1. */
  function RowMessage(i: nat, msg: string): string {
    "Row " + NatToString(i + 2) + ": " + msg
  }

  /** `RowValid` for one update type, as a value for `FirstFailing`. */
  function ValidFor(mode: UpdateType): CsvRow -> bool {
    (row: CsvRow) => RowValid(row, mode)
  }

  /** The first failing row at or after `from`, or `|rows|` when there is none. */
  ghost function FirstInvalid(rows: seq<CsvRow>, mode: UpdateType, from: nat): (i: nat)
    requires from <= |rows|
    ensures from <= i <= |rows|
    ensures forall j :: from <= j < i ==> RowValid(rows[j], mode)
    ensures i < |rows| ==> !RowValid(rows[i], mode)
  {
    FirstFailing(ValidFor(mode), rows, from)
  }

  /** The loop of `validateCSVData` from row `from` on: it stops at the first
      failing row and reports it. */
  function FirstError(rows: seq<CsvRow>, mode: UpdateType, from: nat): (e: Option<string>)
    requires from <= |rows|
    ensures var i := FirstInvalid(rows, mode, from);
      && (e.None? <==> i == |rows|)
      && (e.Some? ==> i < |rows| && e.value == RowMessage(i, RowError(rows[i], mode).value))
    decreases |rows| - from
  {
    if from == |rows| then None
    else match RowError(rows[from], mode)
      case Some(msg) => Some(RowMessage(from, msg))
      case None => FirstError(rows, mode, from + 1)
  }

  /** `validateCSVData`: `"CSV file is empty"` for no rows, otherwise the
      first failing row's message, or nothing when every row passes. */
  function ValidateCsvData(rows: seq<CsvRow>, mode: UpdateType): (e: Option<string>)
    ensures |rows| == 0 ==> e == Some("CSV file is empty")
    ensures |rows| > 0 ==> (e.None? <==> forall i :: 0 <= i < |rows| ==> RowValid(rows[i], mode))
    ensures |rows| > 0 && e.Some? ==>
      var i := FirstInvalid(rows, mode, 0);
      && i < |rows| && !RowValid(rows[i], mode)
      && (forall j :: 0 <= j < i ==> RowValid(rows[j], mode))
      && e.value == RowMessage(i, RowError(rows[i], mode).value)
  {
    if |rows| == 0 then Some("CSV file is empty") else FirstError(rows, mode, 0)
  }

  /** The first data row is reported as row 2. */
  lemma FirstRowIsLineTwo(rows: seq<CsvRow>, mode: UpdateType)
    requires |rows| > 0 && !RowValid(rows[0], mode)
    ensures ValidateCsvData(rows, mode) == Some("Row 2: " + RowError(rows[0], mode).value)
  {
    var msg := RowError(rows[0], mode).value;
    assert NatToString(2) == "2";
    assert RowMessage(0, msg) == "Row 2: " + msg;
  }

  /** A finance row of positive whole amounts, a whole non-negative rate and
      non-empty dates passes. */
  lemma WholeNumberFinanceRowValid(id: string, loan: nat, rate: nat, disbursed: nat, period: nat, date: string, due: string)
    requires Trim(id) != [] && loan > 0 && disbursed > 0 && period > 0 && date != [] && due != []
    ensures RowValid(CsvRow(id, Some(IntToString(loan)), Some(IntToString(rate)), Some(IntToString(disbursed)),
                            Some(date), Some(IntToString(period)), Some(due)), Finance)
  {
    NumberClassOfInt(loan);
    NumberClassOfInt(rate);
    NumberClassOfInt(disbursed);
    NumberClassOfInt(period);
  }

  /** A blank amount is not a number Number() rejects, but it is still refused:
      `!v` comes first. */
  lemma BlankAmountRefused(row: CsvRow)
    requires Trim(row.invoiceId) != [] && row.loanAmount == Some([])
    ensures RowError(row, Finance) == Some("Invalid loan amount")
  {
  }
}

=== FILE: credits_api.dfy ===
/** The API-credit client (`src/library/creditsApi.ts`): the token is checked
    before the stored lender id, and a lender without a credit record reads
    as an all-zero active record. */
module CreditsApi {
  import opened Results
  import opened Store
  import opened Http
  import opened JsNumbers

  /** A lender's credit record. `lenderId` is what `parseInt` produced for a
      default record, so it may be `NaN`. */
  datatype ApiCredits = ApiCredits(
    id: int,
    lenderId: JsInt,
    totalCredits: int,
    usedCredits: int,
    availableCredits: int,
    status: string,
    createdAt: string,
    updatedAt: string)

  datatype TransactionType = Purchase | Usage | Billing

  datatype Transaction = Transaction(
    id: int,
    lenderId: int,
    description: string,
    creditsChange: int,
    balanceAfter: int,
    transactionType: TransactionType,
    status: string,
    createdAt: string)

  /** The credit lookup answers either an array of records or one record. */
  datatype CreditsBody = List(items: seq<ApiCredits>) | Single(record: ApiCredits)

  datatype PurchaseReply = PurchaseReply(credits: ApiCredits, transaction: Transaction)

  /** The record shown for a lender that has never bought credits. `created`
      and `updated` are the two separate `new Date().toISOString()` readings,
      which may fall in different milliseconds. */
  function DefaultCredits(storedLenderId: string, created: string, updated: string): ApiCredits {
    ApiCredits(0, ParseInt(storedLenderId, Auto), 0, 0, 0, "active", created, updated)
  }

  /** The guard shared by the lender-scoped calls: token first, then lender id. */
  function LenderGuard(store: Storage): (r: Result<string>)
    ensures !HasToken(store) ==> r == Failure("No access token found")
    ensures HasToken(store) && !Truthy(store, "lender_id") ==> r == Failure("No lender ID found")
    ensures r.Success? <==> HasToken(store) && Truthy(store, "lender_id")
    ensures r.Success? ==> r.value == store["lender_id"]
  {
    if !HasToken(store) then Failure("No access token found")
    else if !Truthy(store, "lender_id") then Failure("No lender ID found")
    else Success(store["lender_id"])
  }

  /** `getApiCredits`. */
  function GetApiCredits(store: Storage, resp: Response<CreditsBody>, created: string, updated: string): (r: Result<ApiCredits>)
    ensures !HasToken(store) ==> r == Failure("No access token found")
    ensures HasToken(store) && !Truthy(store, "lender_id") ==> r == Failure("No lender ID found")
    ensures r.Success? <==> HasToken(store) && Truthy(store, "lender_id") && resp.Ok?
    ensures r.Success? && resp.body == List([]) ==>
      r.value.lenderId == ParseInt(store["lender_id"], Auto)
      && r.value.totalCredits == 0 && r.value.usedCredits == 0 && r.value.availableCredits == 0
      && r.value.status == "active" && r.value.createdAt == created && r.value.updatedAt == updated
    ensures r.Success? && resp.body.List? && |resp.body.items| > 0 ==> r.value == resp.body.items[0]
    ensures r.Success? && resp.body.Single? ==> r.value == resp.body.record
  {
    var lenderId :- LenderGuard(store);
    var body :- Fetch(true, resp, "Failed to fetch API credits");
    match body
    case List(items) => if |items| == 0 then Success(DefaultCredits(lenderId, created, updated)) else Success(items[0])
    case Single(record) => Success(record)
  }

  /** `purchaseCredits`: only the token is required, not a stored lender id. */
  function PurchaseCredits(store: Storage, resp: Response<PurchaseReply>): (r: Result<PurchaseReply>)
    ensures !HasToken(store) ==> r == Failure("No access token found")
    ensures r.Success? <==> HasToken(store) && resp.Ok?
  {
    Fetch(HasToken(store), resp, "Failed to purchase credits")
  }

  /** `getTransactions`. */
  function GetTransactions(store: Storage, resp: Response<seq<Transaction>>): (r: Result<seq<Transaction>>)
    ensures !HasToken(store) ==> r == Failure("No access token found")
    ensures HasToken(store) && !Truthy(store, "lender_id") ==> r == Failure("No lender ID found")
    ensures r.Success? <==> HasToken(store) && Truthy(store, "lender_id") && resp.Ok?
  {
    var _ :- LenderGuard(store);
    Fetch(true, resp, "Failed to fetch transactions")
  }

  /** A stored decimal lender id is read back exactly into the default record. */
  lemma DefaultRecordLenderId(store: Storage, id: nat, created: string, updated: string)
    requires HasToken(store)
    requires "lender_id" in store && store["lender_id"] == NatToString(id)
    ensures GetApiCredits(store, Ok(List([])), created, updated)
            == Success(ApiCredits(0, Int(id), 0, 0, 0, "active", created, updated))
  {
    assert NatToString(id) == IntToString(id);
    ParseIntToString(id, [], Auto);
    assert NatToString(id) + [] == NatToString(id);
  }

  /** A purchase never needs a lender id, while the lender-scoped calls do. */
  lemma PurchaseWithoutLenderId(store: Storage, reply: PurchaseReply, resp: Response<CreditsBody>,
                                  created: string, updated: string)
    requires HasToken(store) && "lender_id" !in store
    ensures PurchaseCredits(store, Ok(reply)) == Success(reply)
    ensures GetApiCredits(store, resp, created, updated) == Failure("No lender ID found")
  {
  }
}

=== FILE: http.dfy ===
/** The shape of the backend's answers, shared by the API clients: a body on
    success, or an error body with an optional `detail`. */
module Http {
  import opened Results
  import opened Text

  /** One element of an array-valued `detail`: a validation error object
      (`loc` may be missing) or any other value, given by its string form. */
  datatype DetailItem = FieldError(loc: Option<seq<string>>, msg: string) | Plain(text: string)

  /** The `detail` of an error body: an array or a string. */
  datatype Detail = Items(items: seq<DetailItem>) | Message(text: string)

  /** What the backend answers: a body on success, or an error body whose
      `detail` may be absent (also when the body is not JSON). */
  datatype Response<T> = Ok(body: T) | HttpError(detail: Option<Detail>)

  /** JavaScript's string form of an array element (`String(x)`). */
  function ItemString(item: DetailItem): string {
    match item
    case FieldError(_, _) => "[object Object]"
    case Plain(t) => t
  }

  /** `new Error(errorData.detail || fallback).message`: a string detail is used
      as is, an array is converted with `Array.prototype.toString`. */
  function PlainErrorMessage(detail: Option<Detail>, fallback: string): string {
    match detail
    case None => fallback
    case Some(Message(m)) => OrElse(m, fallback)
    case Some(Items(items)) => Join(seq(|items|, k requires 0 <= k < |items| => ItemString(items[k])), ",")
  }

  /** The guarded call of every client method: no token fails before any
      request; an error answer becomes `detail || fallback`. */
  function Fetch<T>(hasToken: bool, resp: Response<T>, fallback: string): (r: Result<T>)
    ensures !hasToken ==> r == Failure("No access token found")
    ensures r.Success? <==> hasToken && resp.Ok?
    ensures r.Success? ==> r.value == resp.body
    ensures hasToken && resp.HttpError? && resp.detail.None? ==> r == Failure(fallback)
  {
    if !hasToken then Failure("No access token found")
    else match resp
      case Ok(body) => Success(body)
      case HttpError(detail) => Failure(PlainErrorMessage(detail, fallback))
  }
}

=== FILE: invoice_api.dfy ===
/** The invoice client (`src/library/invoiceApi.ts`): every call checks the
    stored bearer token before any request, and turns the backend's error
    body into one message.

    The HTTP exchange itself is not modelled: each call receives the
    `Response` the backend would give. */
module InvoiceApi {
  import opened Results
  import opened Store
  import opened Http
  import opened Text

  /** Status codes of the invoice lifecycle. */
  const Searched: int := 0
  const Financed: int := 1
  const Rejected: int := 2
  const Repaid: int := 3
  const Trash: int := 4

  /** The backend invoice record. Financing fields are optional strings;
      `rejectionReason` and `repaidDate` are the extra keys the admin dialogs
      add to the record they send back. */
  datatype Invoice = Invoice(
    id: int,
    userId: int,
    invoiceId: string,
    lenderId: int,
    taxAmount: int,
    purchaseOrderNumber: string,
    lorryReceipt: string,
    ewayBill: string,
    sellerId: int,
    sellerPan: string,
    sellerGst: string,
    buyerId: int,
    buyerPan: string,
    buyerGst: string,
    status: int,
    createdAt: string,
    updatedAt: string,
    loanAmount: Option<string>,
    interestRate: Option<string>,
    disbursementAmount: Option<string>,
    disbursementDate: Option<string>,
    creditPeriod: Option<string>,
    dueDate: Option<string>,
    invoiceAmount: Option<int>,
    rejectionReason: Option<string>,
    repaidDate: Option<string>)

  /** A response body that may or may not be a JSON array. */
  datatype ListBody = Array(items: seq<Invoice>) | NotArray

  /** The calls whose error path is `detail || <fallback>`. */
  datatype Endpoint = GetByLender | GetById | Create | Delete | Upload | MarkFinanced | RejectFinance | CheckExists

  function FallbackMessage(e: Endpoint): string {
    match e
    case GetByLender => "Failed to fetch invoices"
    case GetById => "Failed to fetch invoice"
    case Create => "Failed to create invoice"
    case Delete => "Failed to delete invoice"
    case Upload => "Failed to upload invoice"
    case MarkFinanced => "Failed to mark invoice as financed"
    case RejectFinance => "Failed to reject finance"
    case CheckExists => "Failed to check invoice existence"
  }

  /** The field path of a validation error: `loc.join('.') || 'Field'`. */
  function LocLabel(loc: Option<seq<string>>): (r: string)
    ensures r == "Field" <==> loc.None? || Join(loc.value, ".") == [] || Join(loc.value, ".") == "Field"
  {
    match loc
    case None => "Field"
    case Some(parts) => OrElse(Join(parts, "."), "Field")
  }

  /** One element of an array `detail`: `"<loc>: <msg>"` when it has a
      (non-empty) `msg`, otherwise the element itself. */
  function RenderItem(item: DetailItem): string {
    match item
    case FieldError(loc, msg) => if msg != [] then LocLabel(loc) + ": " + msg else ItemString(item)
    case Plain(t) => t
  }

  /** The rendered elements joined with `", "`. */
  function FlattenDetail(items: seq<DetailItem>): (r: string)
    ensures |items| == 1 ==> r == RenderItem(items[0])
    ensures |items| == 0 ==> r == []
  {
    if |items| == 0 then []
    else if |items| == 1 then RenderItem(items[0])
    else RenderItem(items[0]) + ", " + FlattenDetail(items[1..])
  }

  /** Flattening two non-empty lists is flattening each, joined by `", "`. */
  lemma {:induction false} FlattenDetailAppend(a: seq<DetailItem>, b: seq<DetailItem>)
    requires |a| > 0 && |b| > 0
    ensures FlattenDetail(a + b) == FlattenDetail(a) + ", " + FlattenDetail(b)
    decreases |a|
  {
    if |a| == 1 {
      assert (a + b)[1..] == b;
    } else {
      assert (a + b)[1..] == a[1..] + b;
      FlattenDetailAppend(a[1..], b);
    }
  }

  /** A validation error with a message and no location reads `"Field: <msg>"`. */
  lemma FieldErrorWithoutLoc(msg: string)
    requires msg != []
    ensures FlattenDetail([FieldError(None, msg)]) == "Field: " + msg
  {
  }

  /** The message `updateInvoice` throws for an error response. */
  function UpdateErrorMessage(detail: Option<Detail>): (r: string)
    ensures detail.None? ==> r == "Failed to update invoice"
    ensures detail == Some(Message([])) ==> r == "Failed to update invoice"
    ensures forall m :: detail == Some(Message(m)) && m != [] ==> r == m
  {
    match detail
    case Some(Items(items)) => FlattenDetail(items)
    case Some(Message(m)) => OrElse(m, "Failed to update invoice")
    case None => "Failed to update invoice"
  }

  /** `updateInvoice`: token guard, then the backend's answer. */
  function UpdateInvoice(store: Storage, resp: Response<Invoice>): (r: Result<Invoice>)
    ensures !HasToken(store) ==> r == Failure(NoTokenMessage)
    ensures r.Success? <==> HasToken(store) && resp.Ok?
    ensures r.Success? ==> r.value == resp.body
    ensures HasToken(store) && resp.HttpError? ==> r == Failure(UpdateErrorMessage(resp.detail))
  {
    if !HasToken(store) then Failure(NoTokenMessage)
    else match resp
      case Ok(inv) => Success(inv)
      case HttpError(detail) => Failure(UpdateErrorMessage(detail))
  }

  /** Any call whose error path is `detail || fallback`. */
  function Call<T>(store: Storage, e: Endpoint, resp: Response<T>): (r: Result<T>)
    ensures !HasToken(store) ==> r == Failure(NoTokenMessage)
    ensures r.Success? <==> HasToken(store) && resp.Ok?
    ensures HasToken(store) && resp.HttpError? && resp.detail.None? ==> r == Failure(FallbackMessage(e))
  {
    Fetch(HasToken(store), resp, FallbackMessage(e))
  }

  /** `getInvoicesByLenderId`. */
  function GetInvoicesByLenderId(store: Storage, resp: Response<seq<Invoice>>): (r: Result<seq<Invoice>>)
    ensures !HasToken(store) ==> r == Failure(NoTokenMessage)
    ensures r.Success? <==> HasToken(store) && resp.Ok?
    ensures r.Success? ==> r.value == resp.body
    ensures HasToken(store) && resp.HttpError? ==>
      r == Failure(PlainErrorMessage(resp.detail, "Failed to fetch invoices"))
    ensures HasToken(store) && resp.HttpError? && resp.detail.None? ==> r == Failure("Failed to fetch invoices")
  {
    Call(store, GetByLender, resp)
  }

  /** `getInvoiceById`: the first element of the returned list. */
  function GetInvoiceById(store: Storage, resp: Response<seq<Invoice>>): (r: Result<Invoice>)
    ensures !HasToken(store) ==> r == Failure(NoTokenMessage)
    ensures r.Success? <==> HasToken(store) && resp.Ok? && |resp.body| > 0
    ensures r.Success? ==> r.value == resp.body[0]
    ensures HasToken(store) && resp.Ok? && |resp.body| == 0 ==> r == Failure("Invoice not found")
  {
    var list :- Call(store, GetById, resp);
    if |list| > 0 then Success(list[0]) else Failure("Invoice not found")
  }

  /** `checkInvoiceExists`: the answer is a non-empty array. */
  function CheckInvoiceExists(store: Storage, resp: Response<ListBody>): (r: Result<bool>)
    ensures !HasToken(store) ==> r == Failure(NoTokenMessage)
    ensures r.Success? <==> HasToken(store) && resp.Ok?
    ensures r.Success? ==> (r.value <==> resp.body.Array? && |resp.body.items| > 0)
  {
    var body :- Call(store, CheckExists, resp);
    Success(body.Array? && |body.items| > 0)
  }
}

=== FILE: invoice_modals.dfy ===
/** The manager's financing and rejection forms
    (`src/app/manager/invoices/MarkAsFinancedModal.tsx` and
    `src/app/manager/invoices/RejectFinanceModal.tsx`): they only validate
    their fields and hand them to the parent. */
module ManagerInvoiceForms {
  import opened Results
  import opened Text
  import InvoiceApi

  /** The six text inputs of the "Mark as Financed" form. */
  datatype FinanceForm = FinanceForm(
    loanAmount: string,
    rateOfInterest: string,
    disbursementAmount: string,
    disbursementDate: string,
    creditPeriod: string,
    dueDate: string)

  /** The `name` of an input. */
  datatype FinanceField = LoanAmount | RateOfInterest | DisbursementAmount
                        | DisbursementDate | CreditPeriod | DueDate

  const EmptyFinanceForm: FinanceForm := FinanceForm([], [], [], [], [], [])

  /** The value of one input. */
  function Get(form: FinanceForm, field: FinanceField): string {
    match field
    case LoanAmount => form.loanAmount
    case RateOfInterest => form.rateOfInterest
    case DisbursementAmount => form.disbursementAmount
    case DisbursementDate => form.disbursementDate
    case CreditPeriod => form.creditPeriod
    case DueDate => form.dueDate
  }

  /** `isValid`: all six inputs are non-empty; nothing checks that they are
      numbers or dates. */
  predicate IsValid(form: FinanceForm) {
    form.loanAmount != [] && form.rateOfInterest != [] && form.disbursementAmount != []
    && form.disbursementDate != [] && form.creditPeriod != [] && form.dueDate != []
  }

  /** The form is valid exactly when no input is empty. */
  lemma IsValidIffNoEmptyField(form: FinanceForm)
    ensures IsValid(form) <==> forall field: FinanceField :: Get(form, field) != []
  {
    if !IsValid(form) {
      var field :=
        if form.loanAmount == [] then LoanAmount
        else if form.rateOfInterest == [] then RateOfInterest
        else if form.disbursementAmount == [] then DisbursementAmount
        else if form.disbursementDate == [] then DisbursementDate
        else if form.creditPeriod == [] then CreditPeriod
        else DueDate;
      assert Get(form, field) == [];
    }
  }

  /** `handleChange`: the named input takes the value; the other five keep theirs. */
  function ChangeField(form: FinanceForm, field: FinanceField, value: string): (f: FinanceForm)
    ensures Get(f, field) == value
    ensures forall other: FinanceField :: other != field ==> Get(f, other) == Get(form, other)
  {
    match field
    case LoanAmount => form.(loanAmount := value)
    case RateOfInterest => form.(rateOfInterest := value)
    case DisbursementAmount => form.(disbursementAmount := value)
    case DisbursementDate => form.(disbursementDate := value)
    case CreditPeriod => form.(creditPeriod := value)
    case DueDate => form.(dueDate := value)
  }

  /** `handleSubmit`: the whole form goes to `onSubmit` when it is valid and
      a handler is given; otherwise nothing happens. */
  function SubmitFinance(form: FinanceForm, hasHandler: bool): (submitted: Option<FinanceForm>)
    ensures submitted.Some? <==> IsValid(form) && hasHandler
    ensures submitted.Some? ==> submitted.value == form
  {
    if IsValid(form) && hasHandler then Some(form) else None
  }

  /** The submit button is disabled exactly when the form is invalid. */
  predicate FinanceSubmitDisabled(form: FinanceForm) {
    !IsValid(form)
  }

  /** Filling one input keeps the form valid iff the value is non-empty and
      the other inputs already were. */
  lemma ChangeFieldValidity(form: FinanceForm, field: FinanceField, value: string)
    ensures IsValid(ChangeField(form, field, value)) <==>
      value != [] && forall other: FinanceField :: other != field ==> Get(form, other) != []
  {
    var f := ChangeField(form, field, value);
    IsValidIffNoEmptyField(f);
  }

  /** An enabled button always submits (given a handler), and a disabled one
      never does. */
  lemma ButtonMatchesSubmit(form: FinanceForm)
    ensures FinanceSubmitDisabled(form) <==> SubmitFinance(form, true).None?
  {
  }

  /** The rejection reason is valid when it is not blank. */
  predicate ReasonValid(reason: string) {
    Trim(reason) != []
  }

  /** The manager's reject form. A missing invoice renders nothing, so
      nothing can be submitted; otherwise a valid reason goes to `onSubmit`
      exactly as typed, surrounding spaces included. */
  function SubmitManagerReject(invoice: Option<InvoiceApi.Invoice>, reason: string, hasHandler: bool): (submitted: Option<string>)
    ensures submitted.Some? <==> invoice.Some? && ReasonValid(reason) && hasHandler
    ensures submitted.Some? ==> submitted.value == reason
  {
    if invoice.None? then None
    else if ReasonValid(reason) && hasHandler then Some(reason)
    else None
  }

  /** A blank reason is never submitted, however long it is. */
  lemma BlankReasonNeverSubmitted(invoice: Option<InvoiceApi.Invoice>, reason: string, hasHandler: bool)
    requires AllSpace(reason)
    ensures SubmitManagerReject(invoice, reason, hasHandler).None?
  {
  }

  /** A padded reason is submitted untrimmed. */
  lemma PaddedReasonKept(invoice: InvoiceApi.Invoice)
    ensures SubmitManagerReject(Some(invoice), " late ", true) == Some(" late ")
  {
    assert !AllSpace(" late ") by {
      assert !IsSpace(" late "[1]);
    }
  }
}

/** The invoice actions that write a full copy of the record back with a new
    status: the admin's reject and mark-as-repaid dialogs
    (`src/app/admin/invoices/RejectFinanceModal.tsx`,
    `src/app/admin/invoices/MarkAsRepaidModal.tsx`) and the manager's delete
    dialog (`src/app/manager/invoices/DeleteInvoiceModal.tsx`). */
module InvoiceActions {
  import opened Results
  import opened Text
  import opened Store
  import opened Http
  import opened InvoiceApi
  import ManagerInvoiceForms

  /** One write of an invoice record, addressed by the record's numeric `id`. */
  datatype InvoiceWrite = InvoiceWrite(id: int, body: Invoice)

  /** The parent's callbacks, in the order they run. */
  datatype Callback = Submitted(data: string) | RepaidSubmitted(repaidDate: string) | Deleted | Closed

  /** What an action did: the write it sent, the callbacks that ran, the
      error shown in the dialog and the browser alert raised. */
  datatype Outcome = Outcome(
    write: Option<InvoiceWrite>,
    callbacks: seq<Callback>,
    error: Option<string>,
    alert: Option<string>)

  const NothingHappens: Outcome := Outcome(None, [], None, None)

  const RejectFailedMessage: string := "Failed to reject invoice"
  const RepaidFailedMessage: string := "Failed to mark as repaid"
  const DeleteFailedMessage: string := "Failed to delete invoice"

  /** `{...invoice, status: 2, rejection_reason: reason}`. */
  function RejectPayload(invoice: Invoice, reason: string): (p: Invoice)
    ensures p.status == Rejected && p.rejectionReason == Some(reason)
    ensures p.(status := invoice.status, rejectionReason := invoice.rejectionReason) == invoice
  {
    invoice.(status := Rejected, rejectionReason := Some(reason))
  }

  /** `{...invoice, status: 3, repaid_date: repaidDate || undefined}`: an
      empty date leaves the key out of the request. */
  function RepaidPayload(invoice: Invoice, repaidDate: string): (p: Invoice)
    ensures p.status == Repaid
    ensures p.repaidDate.None? <==> repaidDate == []
    ensures p.repaidDate.Some? ==> p.repaidDate.value == repaidDate
    ensures p.(status := invoice.status, repaidDate := invoice.repaidDate) == invoice
  {
    invoice.(status := Repaid, repaidDate := if repaidDate == [] then None else Some(repaidDate))
  }

  /** `{...invoice, status: 4}`. */
  function TrashPayload(invoice: Invoice): (p: Invoice)
    ensures p.status == Trash
    ensures p.(status := invoice.status) == invoice
  {
    invoice.(status := Trash)
  }

  /** The admin's reject dialog. `reply` is how `updateInvoiceById` ends:
      `None` when it resolves, `Some(message)` when it throws. */
  function AdminReject(invoice: Option<Invoice>, reason: string, hasHandler: bool, reply: Option<string>): (out: Outcome)
    ensures out.write.Some? <==> invoice.Some? && ManagerInvoiceForms.ReasonValid(reason)
    ensures out.write.None? ==> out == NothingHappens
    ensures out.write.Some? ==> out.write.value == InvoiceWrite(invoice.value.id, RejectPayload(invoice.value, reason))
    ensures out.write.Some? && reply.None? ==>
      out.callbacks == (if hasHandler then [Submitted(reason)] else []) + [Closed] && out.error.None?
    ensures out.write.Some? && reply.Some? ==>
      out.callbacks == [] && out.error == Some(OrElse(reply.value, RejectFailedMessage))
    ensures out.alert.None?
  {
    if invoice.None? || !ManagerInvoiceForms.ReasonValid(reason) then NothingHappens
    else
      var write := Some(InvoiceWrite(invoice.value.id, RejectPayload(invoice.value, reason)));
      match reply
      case None => Outcome(write, (if hasHandler then [Submitted(reason)] else []) + [Closed], None, None)
      case Some(message) => Outcome(write, [], Some(OrElse(message, RejectFailedMessage)), None)
  }

  /** The admin's mark-as-repaid dialog. Nothing looks at the invoice's
      current status before writing. */
  function MarkAsRepaid(invoice: Option<Invoice>, repaidDate: string, hasHandler: bool, reply: Option<string>): (out: Outcome)
    ensures out.write.Some? <==> invoice.Some?
    ensures out.write.None? ==> out == NothingHappens
    ensures out.write.Some? ==> out.write.value == InvoiceWrite(invoice.value.id, RepaidPayload(invoice.value, repaidDate))
    ensures out.write.Some? && reply.None? ==>
      out.callbacks == (if hasHandler then [RepaidSubmitted(repaidDate)] else []) + [Closed] && out.alert.None?
    ensures out.write.Some? && reply.Some? ==> out.callbacks == [] && out.alert == Some(RepaidFailedMessage)
    ensures out.error.None?
  {
    if invoice.None? then NothingHappens
    else
      var write := Some(InvoiceWrite(invoice.value.id, RepaidPayload(invoice.value, repaidDate)));
      match reply
      case None => Outcome(write, (if hasHandler then [RepaidSubmitted(repaidDate)] else []) + [Closed], None, None)
      case Some(_) => Outcome(write, [], None, Some(RepaidFailedMessage))
  }

  /** The reject dialog as the program is written: it calls
      `invoiceApi.updateInvoiceById`, which the invoice client does not
      define, so the call throws a `TypeError` (its text is `typeError`)
      before any request. The dialog shows that text and stays open. */
  function AdminRejectAsWritten(invoice: Option<Invoice>, reason: string, hasHandler: bool, typeError: string): (out: Outcome)
    ensures out.write.None? && out.callbacks == [] && out.alert.None?
    ensures out == AdminReject(invoice, reason, hasHandler, Some(typeError)).(write := None)
  {
    if invoice.None? || !ManagerInvoiceForms.ReasonValid(reason) then NothingHappens
    else Outcome(None, [], Some(OrElse(typeError, RejectFailedMessage)), None)
  }

  /** The mark-as-repaid dialog as the program is written: the same missing
      `updateInvoiceById` throws, so every attempt ends in the alert. */
  function MarkAsRepaidAsWritten(invoice: Option<Invoice>, repaidDate: string, hasHandler: bool): (out: Outcome)
    ensures out.write.None? && out.callbacks == [] && out.error.None?
    ensures invoice.Some? <==> out.alert == Some(RepaidFailedMessage)
    ensures forall message :: out == MarkAsRepaid(invoice, repaidDate, hasHandler, Some(message)).(write := None)
  {
    if invoice.None? then NothingHappens else Outcome(None, [], None, Some(RepaidFailedMessage))
  }

  /** Where the intended dialogs send the write and close, the dialogs as
      written send nothing and stay open. */
  lemma MissingUpdateByIdNeverWrites(invoice: Invoice, reason: string, repaidDate: string, hasHandler: bool,
                                     typeError: string)
    requires ManagerInvoiceForms.ReasonValid(reason)
    ensures AdminReject(Some(invoice), reason, hasHandler, None).write.Some?
    ensures Closed in AdminReject(Some(invoice), reason, hasHandler, None).callbacks
    ensures AdminRejectAsWritten(Some(invoice), reason, hasHandler, typeError).write.None?
    ensures Closed !in AdminRejectAsWritten(Some(invoice), reason, hasHandler, typeError).callbacks
    ensures MarkAsRepaid(Some(invoice), repaidDate, hasHandler, None).write.Some?
    ensures Closed in MarkAsRepaid(Some(invoice), repaidDate, hasHandler, None).callbacks
    ensures MarkAsRepaidAsWritten(Some(invoice), repaidDate, hasHandler).alert == Some(RepaidFailedMessage)
  {
    CloseOnlyOnSuccess(invoice, reason, repaidDate, hasHandler, None, map[], HttpError(None));
  }

  /** The manager's delete dialog: `updateInvoice` with the record's numeric
      id and status 4. The token check of `updateInvoice` comes first, so
      without a token nothing is sent. */
  function DeleteInvoice(invoice: Option<Invoice>, hasHandler: bool, store: Storage, resp: Response<Invoice>): (out: Outcome)
    ensures out.write.Some? <==> invoice.Some? && HasToken(store)
    ensures out.write.Some? ==> out.write.value == InvoiceWrite(invoice.value.id, TrashPayload(invoice.value))
    ensures invoice.None? ==> out == NothingHappens
    ensures invoice.Some? ==>
      (out.callbacks != [] <==> UpdateInvoice(store, resp).Success?)
    ensures out.callbacks != [] ==> out.callbacks == (if hasHandler then [Deleted] else []) + [Closed] && out.alert.None?
    ensures invoice.Some? && out.callbacks == [] ==> out.alert == Some(DeleteFailedMessage)
    ensures out.error.None?
  {
    if invoice.None? then NothingHappens
    else
      var write := if HasToken(store) then Some(InvoiceWrite(invoice.value.id, TrashPayload(invoice.value))) else None;
      match UpdateInvoice(store, resp)
      case Success(_) => Outcome(write, (if hasHandler then [Deleted] else []) + [Closed], None, None)
      case Failure(_) => Outcome(write, [], None, Some(DeleteFailedMessage))
  }

  /** Every action ends with `onClose` exactly when it succeeds; a failure
      keeps the dialog open. */
  lemma CloseOnlyOnSuccess(invoice: Invoice, reason: string, repaidDate: string, hasHandler: bool,
                           reply: Option<string>, store: Storage, resp: Response<Invoice>)
    requires ManagerInvoiceForms.ReasonValid(reason)
    ensures Closed in AdminReject(Some(invoice), reason, hasHandler, reply).callbacks <==> reply.None?
    ensures Closed in MarkAsRepaid(Some(invoice), repaidDate, hasHandler, reply).callbacks <==> reply.None?
    ensures Closed in DeleteInvoice(Some(invoice), hasHandler, store, resp).callbacks
            <==> HasToken(store) && resp.Ok?
  {
    var r := AdminReject(Some(invoice), reason, hasHandler, reply).callbacks;
    var m := MarkAsRepaid(Some(invoice), repaidDate, hasHandler, reply).callbacks;
    var d := DeleteInvoice(Some(invoice), hasHandler, store, resp).callbacks;
    if reply.None? {
      assert r[|r| - 1] == Closed;
      assert m[|m| - 1] == Closed;
    }
    if HasToken(store) && resp.Ok? {
      assert d[|d| - 1] == Closed;
    }
  }

  /** The three writes differ from the record only in the status (and the
      reason or repaid date): reading the written record back with the old
      status gives the original, and the invoice's business id is kept. */
  lemma WritesKeepInvoiceId(invoice: Invoice, reason: string, repaidDate: string)
    ensures RejectPayload(invoice, reason).invoiceId == invoice.invoiceId
    ensures RepaidPayload(invoice, repaidDate).invoiceId == invoice.invoiceId
    ensures TrashPayload(invoice).invoiceId == invoice.invoiceId
    ensures RepaidPayload(invoice, repaidDate).rejectionReason == invoice.rejectionReason
  {
  }

  /** An invoice in any status, even one already in the trash, is written as
      repaid: the dialog does not check the current status. */
  lemma RepaidFromAnyStatus(invoice: Invoice, status: int, repaidDate: string)
    ensures MarkAsRepaid(Some(invoice.(status := status)), repaidDate, false, None)
            == Outcome(Some(InvoiceWrite(invoice.id, RepaidPayload(invoice, repaidDate))), [Closed], None, None)
  {
  }
}

=== FILE: jsnumbers.dfy ===
/** The JavaScript number conversions the front end uses, on mathematical
    integers: `n.toString()`, `parseInt(s)` / `parseInt(s, 10)`, and the sign
    of `Number(s)` (all that `isNaN(Number(s))`, `Number(s) <= 0` and
    `Number(s) < 0` ever look at). */
module JsNumbers {
  import opened Text

  /** A `parseInt` result: an integer or `NaN`. */
  datatype JsInt = Int(value: int) | NaN

  /** `parseInt(s, 10)` or `parseInt(s)` (the latter also accepts a `0x` prefix). */
  datatype Radix = Decimal | Auto

  /** The sign class of `Number(s)`. `-0` is `Zero`: it is neither `< 0` nor `> 0`. */
  datatype NumClass = NotANumber | Negative | Zero | Positive

  predicate IsDigit(c: char) {
    '0' <= c <= '9'
  }

  predicate IsHexDigit(c: char) {
    IsDigit(c) || 'a' <= c <= 'f' || 'A' <= c <= 'F'
  }

  predicate AllDigits(s: string) {
    forall k :: 0 <= k < |s| ==> IsDigit(s[k])
  }

  function DigitValue(c: char): (d: nat)
    requires IsHexDigit(c)
    ensures d < 16
    ensures IsDigit(c) ==> d < 10
  {
    if IsDigit(c) then c as int - '0' as int
    else if 'a' <= c <= 'f' then c as int - 'a' as int + 10
    else c as int - 'A' as int + 10
  }

  function DigitChar(d: nat): (c: char)
    requires d < 10
    ensures IsDigit(c) && DigitValue(c) == d
  {
    ('0' as int + d) as char
  }

  /** Decimal representation of a natural number, without leading zeros. */
  function NatToString(n: nat): (s: string)
    ensures |s| >= 1 && AllDigits(s)
    ensures s[0] == '0' <==> n == 0
    ensures n == 0 ==> s == "0"
  {
    if n < 10 then [DigitChar(n)] else NatToString(n / 10) + [DigitChar(n % 10)]
  }

  /** `n.toString()` for an integer `n`. */
  function IntToString(n: int): (s: string)
    ensures |s| >= 1
    ensures n < 0 <==> s[0] == '-'
  {
    if n < 0 then "-" + NatToString(-n) else NatToString(n)
  }

  /** Value of a string of digits in the given base. */
  function DigitsValue(ds: string, base: nat): nat
    requires base == 10 || base == 16
    requires forall k :: 0 <= k < |ds| ==> IsHexDigit(ds[k]) && DigitValue(ds[k]) < base
  {
    if |ds| == 0 then 0
    else DigitsValue(ds[..|ds| - 1], base) * base + DigitValue(ds[|ds| - 1])
  }

  predicate IsDigitIn(c: char, base: nat) {
    IsHexDigit(c) && DigitValue(c) < base
  }

  /** Length of the longest prefix of `s` made of digits of `base`. */
  function DigitRun(s: string, base: nat): (n: nat)
    ensures n <= |s|
    ensures forall k :: 0 <= k < n ==> IsDigitIn(s[k], base)
    ensures n == |s| || !IsDigitIn(s[n], base)
  {
    if |s| > 0 && IsDigitIn(s[0], base) then 1 + DigitRun(s[1..], base) else 0
  }

  /** The unsigned part of `parseInt`: with `Auto` a `0x`/`0X` prefix selects
      hexadecimal; then the longest run of digits is read, and no digits is `NaN`. */
  function ParseUnsigned(u: string, radix: Radix): JsInt
    ensures ParseUnsigned(u, radix).Int? ==> ParseUnsigned(u, radix).value >= 0
  {
    var hex := radix == Auto && |u| >= 2 && u[0] == '0' && (u[1] == 'x' || u[1] == 'X');
    var base := if hex then 16 else 10;
    var body := if hex then u[2..] else u;
    var n := DigitRun(body, base);
    if n == 0 then NaN else Int(DigitsValue(body[..n], base))
  }

  /** `parseInt(s, 10)` (radix `Decimal`) or `parseInt(s)` (radix `Auto`):
      skip leading white space, take one optional sign, then read the number. */
  function ParseInt(s: string, radix: Radix): JsInt {
    var t := s[LeadingSpace(s)..];
    if |t| > 0 && t[0] == '-' then
      match ParseUnsigned(t[1..], radix)
      case Int(v) => Int(-v)
      case NaN => NaN
    else if |t| > 0 && t[0] == '+' then ParseUnsigned(t[1..], radix)
    else ParseUnsigned(t, radix)
  }

  /** Reading back the decimal digits of `n` gives `n`. */
  lemma {:induction false} NatToStringValue(n: nat)
    ensures DigitsValue(NatToString(n), 10) == n
    decreases n
  {
    var s := NatToString(n);
    if n >= 10 {
      NatToStringValue(n / 10);
      assert s[..|s| - 1] == NatToString(n / 10);
    }
  }

  /** `parseInt` reads back what `toString` wrote, in either radix mode, and
      ignores whatever follows the number as long as it does not start with a
      digit (`parseInt("12px")` is 12) or an `x` (`parseInt("0x1")` is 1). */
  lemma ParseIntToString(n: int, rest: string, radix: Radix)
    requires rest == [] || (!IsDigit(rest[0]) && rest[0] != 'x' && rest[0] != 'X')
    ensures ParseInt(IntToString(n) + rest, radix) == Int(n)
  {
    if n < 0 {
      var m: nat := -n;
      var u := NatToString(m) + rest;
      assert IntToString(n) + rest == "-" + u;
      ParseIntNegative(m, rest, radix);
    } else {
      assert IntToString(n) == NatToString(n);
      ParseIntNonNegative(n, rest, radix);
    }
  }

  /** The non-negative case: no sign, the digits are read directly. */
  lemma ParseIntNonNegative(m: nat, rest: string, radix: Radix)
    requires rest == [] || (!IsDigit(rest[0]) && rest[0] != 'x' && rest[0] != 'X')
    ensures ParseInt(NatToString(m) + rest, radix) == Int(m)
  {
    var digits := NatToString(m);
    ParseUnsignedDigits(m, rest, radix);
    assert (digits + rest)[0] == digits[0];
    ParseIntOfDigitStart(digits + rest, radix);
  }

  /** A string that starts with a digit has no white space or sign to skip. */
  lemma ParseIntOfDigitStart(s: string, radix: Radix)
    requires |s| > 0 && IsDigit(s[0])
    ensures ParseInt(s, radix) == ParseUnsigned(s, radix)
  {
    NoLeadingSpace(s);
  }

  /** The negative case: the minus sign is taken, then the digits are read. */
  lemma ParseIntNegative(m: nat, rest: string, radix: Radix)
    requires m > 0
    requires rest == [] || (!IsDigit(rest[0]) && rest[0] != 'x' && rest[0] != 'X')
    ensures ParseInt("-" + (NatToString(m) + rest), radix) == Int(-(m as int))
  {
    var u := NatToString(m) + rest;
    var s := "-" + u;
    ParseUnsignedDigits(m, rest, radix);
    NoLeadingSpace(s);
    assert s[0] == '-' && s[1..] == u;
  }

  /** A string that starts with a non-space character has no leading white space. */
  lemma NoLeadingSpace(s: string)
    requires |s| > 0 && (IsDigit(s[0]) || s[0] == '-')
    ensures s[LeadingSpace(s)..] == s
  {
    assert !IsSpace(s[0]);
  }

  /** The unsigned reader reads back the digits of `m`. */
  lemma ParseUnsignedDigits(m: nat, rest: string, radix: Radix)
    requires rest == [] || (!IsDigit(rest[0]) && rest[0] != 'x' && rest[0] != 'X')
    ensures ParseUnsigned(NatToString(m) + rest, radix) == Int(m)
  {
    var digits := NatToString(m);
    var u := digits + rest;
    if |u| >= 2 && u[0] == '0' {
      assert m == 0 && digits == "0";
      assert u[1] == rest[0];
    }
    DigitRunPrefix(digits, rest);
    NatToStringValue(m);
    assert u[..|digits|] == digits;
  }

  /** The digit run of `digits + rest` is exactly `digits`. */
  lemma {:induction false} DigitRunPrefix(digits: string, rest: string)
    requires AllDigits(digits)
    requires rest == [] || !IsDigit(rest[0])
    ensures DigitRun(digits + rest, 10) == |digits|
    decreases |digits|
  {
    if |digits| > 0 {
      assert (digits + rest)[1..] == digits[1..] + rest;
      DigitRunPrefix(digits[1..], rest);
    } else {
      assert digits + rest == rest;
    }
  }

  // ---------------------------------------------------------------- Number()

  predicate AllZeros(s: string) {
    forall k :: 0 <= k < |s| ==> s[k] == '0'
  }

  /** A JavaScript decimal mantissa: `12`, `12.`, `12.5` or `.5`. */
  predicate IsMantissa(m: string) {
    var dot := DigitRun(m, 10);
    if dot == |m| then |m| > 0
    else m[dot] == '.' && AllDigits(m[dot + 1..]) && |m| > 1
  }

  /** An exponent after `e`/`E`: an optional sign and at least one digit. */
  predicate IsExponent(x: string) {
    var d := if |x| > 0 && (x[0] == '+' || x[0] == '-') then x[1..] else x;
    |d| > 0 && AllDigits(d)
  }

  /** Position of the first `e` or `E`, or `|s|`. */
  function ExponentMark(s: string): (i: nat)
    ensures i <= |s|
    ensures forall k :: 0 <= k < i ==> s[k] != 'e' && s[k] != 'E'
    ensures i < |s| ==> s[i] == 'e' || s[i] == 'E'
  {
    if |s| == 0 || s[0] == 'e' || s[0] == 'E' then 0 else 1 + ExponentMark(s[1..])
  }

  /** Sign class of an unsigned decimal literal (`Infinity` included). */
  function UnsignedClass(u: string): NumClass {
    if u == "Infinity" then Positive
    else
      var e := ExponentMark(u);
      var m := u[..e];
      if !IsMantissa(m) || (e < |u| && !IsExponent(u[e + 1..])) then NotANumber
      else if forall k :: 0 <= k < |m| ==> m[k] == '0' || m[k] == '.' then Zero
      else Positive
  }

  /** Sign class of `0b…`, `0o…` or `0x…` (no sign allowed). */
  function PrefixedClass(t: string): NumClass
    requires |t| >= 2 && t[0] == '0'
  {
    var base := if t[1] in "xX" then 16 else if t[1] in "oO" then 8 else 2;
    var body := t[2..];
    if |body| == 0 || exists k :: 0 <= k < |body| && !(IsHexDigit(body[k]) && DigitValue(body[k]) < base) then NotANumber
    else if AllZeros(body) then Zero
    else Positive
  }

  function Negate(c: NumClass): NumClass {
    match c
    case Positive => Negative
    case Negative => Positive
    case other => other
  }

  /** The sign class of `Number(s)`: white space is trimmed, the empty string
      is 0, and anything outside the numeric-literal grammar is `NaN`. */
  function NumberClass(s: string): NumClass {
    var t := Trim(s);
    if t == [] then Zero
    else if |t| >= 2 && t[0] == '0' && t[1] in "xXoObB" then PrefixedClass(t)
    else if t[0] == '-' then Negate(UnsignedClass(t[1..]))
    else if t[0] == '+' then UnsignedClass(t[1..])
    else UnsignedClass(t)
  }

  /** `Number(n.toString())` has the sign of `n`. */
  lemma NumberClassOfInt(n: int)
    ensures NumberClass(IntToString(n)) == (if n > 0 then Positive else if n < 0 then Negative else Zero)
  {
    var s := IntToString(n);
    TrimNoEdgeSpace(s);
    if n < 0 {
      var m: nat := -n;
      UnsignedClassOfNat(m);
      assert s[0] == '-' && s[1..] == NatToString(m);
    } else {
      UnsignedClassOfNat(n);
      assert s == NatToString(n);
      assert n > 0 ==> s[0] != '0';
    }
  }

  /** The digits of a natural number are an unsigned literal of its sign. */
  lemma UnsignedClassOfNat(m: nat)
    ensures UnsignedClass(NatToString(m)) == (if m > 0 then Positive else Zero)
  {
    var digits := NatToString(m);
    assert ExponentMark(digits) == |digits|;
    DigitRunPrefix(digits, []);
    assert digits + [] == digits;
    assert digits[..|digits|] == digits;
    if m > 0 {
      assert digits[0] != '0' && digits[0] != '.';
    }
  }

  /** Blank input converts to 0, which is neither valid-positive nor negative. */
  lemma NumberClassBlank(s: string)
    requires AllSpace(s)
    ensures NumberClass(s) == Zero
  {
  }
}

=== FILE: manager_forms.dfy ===
/** The manager's password change card
    (`src/app/manager/account-settings/UpdatePasswordCard.tsx`). */
module PasswordForm {
  import opened Results

  datatype Fields = Fields(currentPassword: string, newPassword: string, confirmPassword: string)

  /** The input a change event comes from (the input's `name`). */
  datatype FieldName = CurrentPassword | NewPassword | ConfirmPassword

  datatype MessageKind = SuccessKind | ErrorKind

  datatype Message = Message(kind: MessageKind, text: string)

  /** How `updatePassword` ends: it resolves, throws an `Error` with a
      message, or throws something that is not an `Error`. */
  datatype Reply = Updated | ThrewError(message: string) | ThrewOther

  /** The arguments `updatePassword` is called with. */
  datatype PasswordChange = PasswordChange(currentPassword: string, newPassword: string)

  datatype State = State(fields: Fields, message: Option<Message>, loading: bool)

  datatype Outcome = Outcome(state: State, request: Option<PasswordChange>)

  const MismatchMessage: string := "New password and confirm password do not match"
  const TooShortMessage: string := "New password must be at least 6 characters long"
  const UpdatedMessage: string := "Password updated successfully!"
  const UpdateFailedMessage: string := "Failed to update password"
  const MinLength: nat := 6

  /** Number of UTF-16 code units of one character: two for characters
      outside the Basic Multilingual Plane. */
  function Utf16Units(c: char): nat {
    if c as int > 0xFFFF then 2 else 1
  }

  /** `s.length`: JavaScript counts UTF-16 code units, not characters. */
  function Utf16Length(s: string): (n: nat)
    ensures |s| <= n <= 2 * |s|
  {
    if |s| == 0 then 0 else Utf16Units(s[0]) + Utf16Length(s[1..])
  }

  /** For text without characters beyond U+FFFF the length is the number of
      characters. */
  lemma {:induction false} Utf16LengthBmp(s: string)
    requires forall k :: 0 <= k < |s| ==> s[k] as int <= 0xFFFF
    ensures Utf16Length(s) == |s|
  {
    if |s| > 0 {
      Utf16LengthBmp(s[1..]);
    }
  }

  /** `handleInputChange`: the named field takes the new value, the other
      two keep theirs. */
  function ChangeField(fields: Fields, name: FieldName, value: string): (f: Fields)
    ensures name == CurrentPassword ==> f == Fields(value, fields.newPassword, fields.confirmPassword)
    ensures name == NewPassword ==> f == Fields(fields.currentPassword, value, fields.confirmPassword)
    ensures name == ConfirmPassword ==> f == Fields(fields.currentPassword, fields.newPassword, value)
  {
    match name
    case CurrentPassword => fields.(currentPassword := value)
    case NewPassword => fields.(newPassword := value)
    case ConfirmPassword => fields.(confirmPassword := value)
  }

  /** `handleSubmit`. `reply` is how the call ends when it is made. The
      browser's `required` checks on the three inputs run before this
      handler and are not modelled. */
  function Submit(fields: Fields, reply: Reply): (out: Outcome)
    ensures !out.state.loading
    ensures out.request.Some? <==>
      fields.newPassword == fields.confirmPassword && Utf16Length(fields.newPassword) >= MinLength
    ensures out.request.Some? ==> out.request.value == PasswordChange(fields.currentPassword, fields.newPassword)
    ensures fields.newPassword != fields.confirmPassword ==>
      out.state == State(fields, Some(Message(ErrorKind, MismatchMessage)), false)
    ensures fields.newPassword == fields.confirmPassword && Utf16Length(fields.newPassword) < MinLength ==>
      out.state == State(fields, Some(Message(ErrorKind, TooShortMessage)), false)
    ensures out.request.Some? && reply == Updated ==>
      out.state == State(Fields([], [], []), Some(Message(SuccessKind, UpdatedMessage)), false)
    ensures out.request.Some? && reply.ThrewError? ==>
      out.state == State(fields, Some(Message(ErrorKind, reply.message)), false)
    ensures out.request.Some? && reply == ThrewOther ==>
      out.state == State(fields, Some(Message(ErrorKind, UpdateFailedMessage)), false)
  {
    if fields.newPassword != fields.confirmPassword then
      Outcome(State(fields, Some(Message(ErrorKind, MismatchMessage)), false), None)
    else if Utf16Length(fields.newPassword) < MinLength then
      Outcome(State(fields, Some(Message(ErrorKind, TooShortMessage)), false), None)
    else
      var request := Some(PasswordChange(fields.currentPassword, fields.newPassword));
      match reply
      case Updated => Outcome(State(Fields([], [], []), Some(Message(SuccessKind, UpdatedMessage)), false), request)
      case ThrewError(m) => Outcome(State(fields, Some(Message(ErrorKind, m)), false), request)
      case ThrewOther => Outcome(State(fields, Some(Message(ErrorKind, UpdateFailedMessage)), false), request)
  }

  /** The submit as the program is written: it calls
      `authenticationApi.updatePassword`, which the authentication client
      does not define, so every password that passes both checks ends with
      the `TypeError`'s text (`typeError`) and nothing is sent. */
  function SubmitAsWritten(fields: Fields, typeError: string): (out: Outcome)
    ensures out.request.None?
    ensures out.state.message.Some? && out.state.message.value.kind == ErrorKind
    ensures out.state == Submit(fields, ThrewError(typeError)).state
  {
    Outcome(Submit(fields, ThrewError(typeError)).state, None)
  }

  /** A valid change that `Submit` sends and confirms is, as written, never
      sent, and the card keeps the fields and shows an error. */
  lemma MissingUpdatePasswordNeverSends(fields: Fields, typeError: string)
    requires fields.newPassword == fields.confirmPassword && Utf16Length(fields.newPassword) >= MinLength
    ensures Submit(fields, Updated).request == Some(PasswordChange(fields.currentPassword, fields.newPassword))
    ensures Submit(fields, Updated).state.message == Some(Message(SuccessKind, UpdatedMessage))
    ensures SubmitAsWritten(fields, typeError).request.None?
    ensures SubmitAsWritten(fields, typeError).state == State(fields, Some(Message(ErrorKind, typeError)), false)
  {
  }

  /** A short password that does not match its confirmation is reported as a
      mismatch: the match is checked first. */
  lemma MismatchReportedFirst(fields: Fields, reply: Reply)
    requires fields.newPassword != fields.confirmPassword
    requires Utf16Length(fields.newPassword) < MinLength
    ensures Submit(fields, reply).state.message == Some(Message(ErrorKind, MismatchMessage))
  {
  }

  /** Three characters beyond U+FFFF are six code units, so a three-emoji
      password passes the length rule. */
  lemma AstralCharactersCountTwice(fields: Fields, reply: Reply)
    requires fields.newPassword == fields.confirmPassword == "\U{1F600}\U{1F600}\U{1F600}"
    ensures Submit(fields, reply).request.Some?
  {
    var p := fields.newPassword;
    assert p[1..][1..][1..] == [];
    assert Utf16Length(p) == 2 + Utf16Length(p[1..]);
    assert Utf16Length(p[1..]) == 2 + Utf16Length(p[1..][1..]);
  }

  /** Re-submitting after a success sends nothing: the cleared fields match
      but are too short. */
  lemma ClearedFormIsRefused(fields: Fields, reply: Reply)
    requires Submit(fields, reply).request.Some? && reply == Updated
    ensures Submit(Submit(fields, reply).state.fields, reply).request.None?
  {
  }
}

/** The manager's "Buy Credits" dialog (`src/app/manager/credits/BuyCreditsModal.tsx`). */
module BuyCreditsForm {
  import opened Results
  import opened JsNumbers

  datatype State = State(amount: string, error: string)

  /** `bought` is the argument of `onBuy`, if it runs; `closed` says whether
      `onClose` runs. */
  datatype Outcome = Outcome(state: State, bought: Option<int>, closed: bool)

  const InvalidAmountMessage: string := "Please enter a valid number of credits."

  /** `parseInt(amount, 10)` is a positive number. */
  predicate ValidAmount(amount: string) {
    ParseInt(amount, Decimal).Int? && ParseInt(amount, Decimal).value > 0
  }

  /** `handleSubmit`. */
  function Submit(state: State): (out: Outcome)
    ensures out.bought.Some? <==> ValidAmount(state.amount)
    ensures out.bought.Some? ==>
      && out.bought.value > 0
      && ParseInt(state.amount, Decimal) == Int(out.bought.value)
      && out.state == State([], [])
      && out.closed
    ensures out.bought.None? ==> out == Outcome(State(state.amount, InvalidAmountMessage), None, false)
  {
    match ParseInt(state.amount, Decimal)
    case NaN => Outcome(state.(error := InvalidAmountMessage), None, false)
    case Int(n) =>
      if n <= 0 then Outcome(state.(error := InvalidAmountMessage), None, false)
      else Outcome(State([], []), Some(n), true)
  }

  /** `handleClose`: both fields are cleared and the dialog closes. */
  function Close(state: State): Outcome {
    Outcome(State([], []), None, true)
  }

  /** The submit button's `disabled`: an empty amount, or one that parses to
      a number that is not positive. `NaN <= 0` is false, so text that does
      not parse would leave the button enabled. */
  predicate SubmitDisabled(amount: string) {
    amount == [] || (ParseInt(amount, Decimal).Int? && ParseInt(amount, Decimal).value <= 0)
  }

  /** Whatever a disabled button would have submitted is refused. */
  lemma DisabledButtonWouldRefuse(state: State)
    requires SubmitDisabled(state.amount)
    ensures Submit(state).bought.None?
  {
  }

  /** Whether the dialog is left by Cancel or by a purchase, it reopens with
      an empty amount, a disabled button and nothing to buy. */
  lemma CloseOrBuyDisablesButton(state: State)
    ensures Close(state).closed && Close(state).bought.None?
    ensures SubmitDisabled(Close(state).state.amount) && Submit(Close(state).state).bought.None?
    ensures Submit(state).bought.Some? ==>
              SubmitDisabled(Submit(state).state.amount) && Submit(Submit(state).state).bought.None?
  {
  }

  /** A decimal mantissa of HTML's "valid floating-point number": digits,
      digits with a fraction, or a fraction alone (`12`, `12.5`, `.5`). */
  predicate FloatMantissa(m: string) {
    var whole := DigitRun(m, 10);
    if whole == |m| then |m| > 0
    else m[whole] == '.' && whole + 1 < |m| && AllDigits(m[whole + 1..])
  }

  /** HTML's "valid floating-point number": an optional `-`, a mantissa and
      an optional exponent (`e` or `E`, an optional sign, digits). */
  predicate ValidFloatingPoint(s: string) {
    var u := if |s| > 0 && s[0] == '-' then s[1..] else s;
    var e := ExponentMark(u);
    FloatMantissa(u[..e]) && (e == |u| || IsExponent(u[e + 1..]))
  }

  /** The `value` of the `<input type="number">` after the user types `raw`:
      text that is not a valid floating-point number reads as empty. */
  function InputValue(raw: string): (value: string)
    ensures value == [] || ValidFloatingPoint(value)
    ensures ValidFloatingPoint(raw) ==> value == raw
  {
    if ValidFloatingPoint(raw) then raw else []
  }

  /** Text the number input cannot hold reads as an empty amount, so the
      button is disabled and nothing could be bought: `"abc"` and
      `"25 credits"` are two such texts. */
  lemma TypedTextDisablesButton(raw: string)
    requires !ValidFloatingPoint(raw)
    ensures InputValue(raw) == [] && SubmitDisabled(InputValue(raw))
    ensures !ValidFloatingPoint("abc") && !ValidFloatingPoint("25 credits")
  {
    LettersAreNotANumber();
    TrailingWordIsNotANumber();
  }

  lemma LettersAreNotANumber()
    ensures !ValidFloatingPoint("abc")
  {
    assert ExponentMark("abc") == 3;
    assert DigitRun("abc", 10) == 0 by {
      assert !IsDigitIn('a', 10);
    }
  }

  lemma TrailingWordIsNotANumber()
    ensures !ValidFloatingPoint("25 credits")
  {
    var t := "25 credits";
    var e := ExponentMark(t);
    assert e >= 3 by {
      assert t[0] == '2' && t[1] == '5' && t[2] == ' ';
    }
    var m := t[..e];
    assert m[2] == ' ' && IsDigitIn(m[0], 10) && IsDigitIn(m[1], 10);
    assert DigitRun(m, 10) == 2;
    assert !FloatMantissa(m);
  }

  /** An amount the number input can hold that starts with a positive
      decimal number is bought as that number: like `parseInt`, the submit
      ignores a fraction or an exponent (`"12.5"` buys 12). */
  lemma DecimalAmountBought(n: nat, rest: string, error: string)
    requires n > 0
    requires rest == [] || (!IsDigit(rest[0]) && rest[0] != 'x' && rest[0] != 'X')
    requires ValidFloatingPoint(NatToString(n) + rest)
    ensures InputValue(NatToString(n) + rest) == NatToString(n) + rest
    ensures !SubmitDisabled(NatToString(n) + rest)
    ensures Submit(State(NatToString(n) + rest, error)) == Outcome(State([], []), Some(n), true)
  {
    assert NatToString(n) == IntToString(n);
    ParseIntToString(n, rest, Decimal);
  }

  /** `"1e3"` is a valid number of a thousand credits, yet the submit buys
      one credit: `parseInt` stops at the `e`. */
  lemma ExponentAmountBuysOne(error: string)
    ensures InputValue("1e3") == "1e3" && !SubmitDisabled("1e3")
    ensures Submit(State("1e3", error)) == Outcome(State([], []), Some(1), true)
  {
    assert ExponentMark("1e3") == 1;
    assert DigitRun("1", 10) == 1;
    assert "1e3"[2..] == "3";
    assert NatToString(1) == "1";
    assert NatToString(1) + "e3" == "1e3";
    DecimalAmountBought(1, "e3", error);
  }
}

/** The manager's credits page (`src/app/manager/credits/page.tsx`): a local
    balance that purchases increase, with fixed figures around it. */
module CreditsPage {
  import BuyCreditsForm

  const InitialCredits: int := 1250

  /** The "Credits Used" figure, written into the page as a literal. */
  const CreditsUsed: int := 750

  /** The two figure cards at the top of the page: the balance, which is
      state, and the used figure, which is not. */
  datatype Cards = Cards(available: int, used: int)

  function PageCards(available: int): Cards {
    Cards(available, CreditsUsed)
  }

  /** `handleBuyCredits`: the balance grows by the amount. */
  function BuyCredits(available: int, amount: int): (r: int)
    ensures r - available == amount
  {
    available + amount
  }

  /** The balance column of the three hard-coded history rows, newest
      first: the current balance, then 5 less, then 500 less again. */
  function HistoryBalances(available: int): (r: seq<int>)
    ensures |r| == 3
    ensures r[0] == available && r[0] - r[1] == 5 && r[1] - r[2] == 500
  {
    [available, available - 5, available - 5 - 500]
  }

  /** The balance after a series of purchases. */
  function AfterPurchases(available: int, amounts: seq<int>): int
    decreases |amounts|
  {
    if |amounts| == 0 then available
    else AfterPurchases(BuyCredits(available, amounts[0]), amounts[1..])
  }

  function Sum(amounts: seq<int>): int {
    if |amounts| == 0 then 0 else amounts[0] + Sum(amounts[1..])
  }

  /** A series of purchases adds their total to the balance. */
  lemma {:induction false} PurchasesAddUp(available: int, amounts: seq<int>)
    ensures AfterPurchases(available, amounts) == available + Sum(amounts)
    decreases |amounts|
  {
    if |amounts| > 0 {
      PurchasesAddUp(BuyCredits(available, amounts[0]), amounts[1..]);
    }
  }

  /** A purchase the dialog accepts raises the balance card and every history
      balance by the same positive amount, and leaves the Credits Used card
      at 750. */
  lemma AcceptedPurchaseRaisesBalance(available: int, state: BuyCreditsForm.State)
    requires BuyCreditsForm.Submit(state).bought.Some?
    ensures var n := BuyCreditsForm.Submit(state).bought.value;
      && BuyCredits(available, n) > available
      && PageCards(BuyCredits(available, n)).available == PageCards(available).available + n
      && PageCards(BuyCredits(available, n)).used == PageCards(available).used == 750
      && forall k :: 0 <= k < 3 ==>
           HistoryBalances(BuyCredits(available, n))[k] == HistoryBalances(available)[k] + n
  {
  }
}

/** The dashboard's credit gauge
    (`src/app/manager/components/dashboard/MonthlyTarget.tsx`). */
module CreditGauge {
  import opened Results
  import CreditsApi

  /** `Math.round(x)` for `x = n / d`: the nearest integer, halves rounded
      up, computed exactly as the floor of `(2n + d) / 2d`. */
  function RoundQuotient(n: int, d: int): (r: int)
    requires d != 0
    ensures d > 0 ==> d * (2 * r - 1) <= 2 * n < d * (2 * r + 1)
    ensures d < 0 ==> d * (2 * r - 1) >= 2 * n > d * (2 * r + 1)
  {
    if d > 0 then (2 * n + d) / (2 * d) else (-(2 * n + d)) / (-2 * d)
  }

  /** `calculateAvailablePercentage`: 0 without a record or with no total,
      otherwise the available share of the total, in whole percent. */
  function AvailablePercentage(credits: Option<CreditsApi.ApiCredits>): (p: int)
    ensures credits.None? || credits.value.totalCredits == 0 ==> p == 0
    ensures credits.Some? && credits.value.totalCredits > 0 ==>
      var t := credits.value.totalCredits;
      t * (2 * p - 1) <= 200 * credits.value.availableCredits < t * (2 * p + 1)
  {
    if credits.None? || credits.value.totalCredits == 0 then 0
    else RoundQuotient(100 * credits.value.availableCredits, credits.value.totalCredits)
  }

  /** With a positive total, the percentage stays within 0..100 as long as
      the available credits do not exceed the total; a full balance is 100
      and an empty one 0. */
  lemma PercentageBounds(credits: CreditsApi.ApiCredits)
    requires credits.totalCredits > 0
    requires 0 <= credits.availableCredits <= credits.totalCredits
    ensures 0 <= AvailablePercentage(Some(credits)) <= 100
    ensures credits.availableCredits == credits.totalCredits ==> AvailablePercentage(Some(credits)) == 100
    ensures credits.availableCredits == 0 ==> AvailablePercentage(Some(credits)) == 0
  {
    var t := credits.totalCredits;
    var a := credits.availableCredits;
    var p := AvailablePercentage(Some(credits));
    ScaleCompare(t, 0, 2 * p + 1);
    ScaleCompare(t, 2 * p - 1, 200);
    ScaleCompare(t, 200, 2 * p + 1);
    ScaleCompare(t, 2 * p - 1, 0);
  }

  /** Multiplying by a positive number keeps the order. */
  lemma ScaleCompare(t: int, x: int, y: int)
    requires t > 0
    ensures t * x < t * y <==> x < y
    ensures t * x <= t * y <==> x <= y
  {
  }

  /** `value || 0` for a figure read through `credits?.`: a missing record
      shows 0. */
  function Shown(credits: Option<CreditsApi.ApiCredits>, figure: CreditsApi.ApiCredits -> int): (v: int)
    ensures credits.None? ==> v == 0
    ensures credits.Some? ==> v == figure(credits.value)
  {
    if credits.None? then 0 else figure(credits.value)
  }

  function AvailableFigure(): CreditsApi.ApiCredits -> int {
    (c: CreditsApi.ApiCredits) => c.availableCredits
  }

  function TotalFigure(): CreditsApi.ApiCredits -> int {
    (c: CreditsApi.ApiCredits) => c.totalCredits
  }

  function UsedFigure(): CreditsApi.ApiCredits -> int {
    (c: CreditsApi.ApiCredits) => c.usedCredits
  }

  /** The closing sentence: the percentage when some credits are available,
      otherwise the hint to buy more. */
  datatype Sentence = PercentageRemaining(percent: int) | PurchaseHint

  function ClosingSentence(credits: Option<CreditsApi.ApiCredits>): (s: Sentence)
    ensures s.PercentageRemaining? <==> credits.Some? && credits.value.availableCredits > 0
    ensures s.PercentageRemaining? ==> s.percent == AvailablePercentage(credits)
  {
    if credits.Some? && credits.value.availableCredits != 0 && credits.value.availableCredits > 0
    then PercentageRemaining(AvailablePercentage(credits))
    else PurchaseHint
  }

  /** A lender with no credit record yet (the all-zero default record) sees
      0 everywhere and the purchase hint. */
  lemma DefaultRecordShowsZero(lenderId: string, created: string, updated: string)
    ensures var c := Some(CreditsApi.DefaultCredits(lenderId, created, updated));
      && AvailablePercentage(c) == 0
      && Shown(c, AvailableFigure()) == 0 && Shown(c, TotalFigure()) == 0 && Shown(c, UsedFigure()) == 0
      && ClosingSentence(c) == PurchaseHint
  {
  }

  /** Whenever the percentage sentence shows, the gauge's percentage is
      positive-or-zero: a positive balance over a positive total never
      rounds below zero. */
  lemma SentenceShowsNonNegativePercent(credits: CreditsApi.ApiCredits)
    requires credits.totalCredits > 0
    requires credits.availableCredits > 0
    ensures ClosingSentence(Some(credits)).PercentageRemaining?
    ensures ClosingSentence(Some(credits)).percent >= 0
  {
    ScaleCompare(credits.totalCredits, 0, 2 * AvailablePercentage(Some(credits)) + 1);
  }
}

=== FILE: my_api.dfy ===
/** The manager's API keys page (`src/app/manager/my-api/page.tsx`): a local
    list of mock keys that the page deletes from, and a generated key that
    is kept in the page's state but neither added to the list nor passed to
    the dialog that opens. */
module ApiKeysPage {
  import opened Results
  import opened Seqs

  datatype ApiKey = ApiKey(
    id: int,
    keyLabel: string,
    key: string,
    status: string,
    created: string,
    lastUsed: string,
    permission: string)

  /** The key chosen for deletion (`keyToDelete`). */
  datatype KeyRef = KeyRef(id: int, keyLabel: string)

  datatype Page = Page(
    keys: seq<ApiKey>,
    showModal: bool,
    deleteModalOpen: bool,
    keyToDelete: Option<KeyRef>,
    generatedKey: string,
    generatedTitle: string)

  /** `MOCK_API_KEYS`. */
  const MockApiKeys: seq<ApiKey> := [
    ApiKey(1, "Production Key", "sk_live_1234567890abcdef...", "Active", "Jan 24, 2024",
           "within the last week", "Read/write"),
    ApiKey(2, "Test Key", "sk_test_1234567890abcdef...", "Test Mode", "Jan 28, 2025",
           "within the last 6 months", "Read/write")
  ]

  const InitialPage: Page := Page(MockApiKeys, false, false, None, "", "")

  const KeyPrefix: string := "sk_"
  const NewKeyTitle: string := "New Key"

  function OtherThan(id: int): ApiKey -> bool {
    (k: ApiKey) => k.id != id
  }

  /** `handleDelete`: drop every key with the id, keep the rest in order. */
  function DeleteKey(keys: seq<ApiKey>, id: int): (r: seq<ApiKey>)
    ensures forall i :: 0 <= i < |r| ==> r[i] in keys && r[i].id != id
    ensures forall k :: k in keys && k.id != id ==> k in r
    ensures IsSubsequence(r, keys)
  {
    FilterIsSubsequence(OtherThan(id), keys);
    Filter(OtherThan(id), keys)
  }

  /** Deleting an id no key has changes nothing, and deleting twice is
      deleting once. */
  lemma {:induction false} DeleteAbsentId(keys: seq<ApiKey>, id: int)
    requires forall k :: k in keys ==> k.id != id
    ensures DeleteKey(keys, id) == keys
    decreases |keys|
  {
    if |keys| > 0 {
      DeleteAbsentId(keys[1..], id);
    }
  }

  lemma DeleteTwice(keys: seq<ApiKey>, id: int)
    ensures DeleteKey(DeleteKey(keys, id), id) == DeleteKey(keys, id)
  {
    DeleteAbsentId(DeleteKey(keys, id), id);
  }

  /** `handleDeleteClick`: remember the key and open the confirmation. */
  function DeleteClick(page: Page, key: KeyRef): (p: Page)
    ensures p.keyToDelete == Some(key) && p.deleteModalOpen
    ensures p.keys == page.keys && p.showModal == page.showModal
  {
    page.(keyToDelete := Some(key), deleteModalOpen := true)
  }

  /** `handleDeleteConfirm`: with a chosen key, delete it, forget it and
      close the confirmation; without one, nothing changes. */
  function DeleteConfirm(page: Page): (p: Page)
    ensures page.keyToDelete.None? ==> p == page
    ensures page.keyToDelete.Some? ==>
      p == page.(keys := DeleteKey(page.keys, page.keyToDelete.value.id), keyToDelete := None, deleteModalOpen := false)
  {
    match page.keyToDelete
    case None => page
    case Some(key) => page.(keys := DeleteKey(page.keys, key.id), keyToDelete := None, deleteModalOpen := false)
  }

  /** `s.slice(start, end)` for `0 <= start <= end`: clamped to the string. */
  function Slice(s: string, start: nat, end: nat): (r: string)
    requires start <= end
    ensures |r| <= end - start
    ensures start <= |s| ==> r == s[start..if end <= |s| then end else |s|]
    ensures start > |s| ==> r == []
  {
    if start > |s| then [] else s[start..if end <= |s| then end else |s|]
  }

  /** `handleGenerateKey`. `randomText` stands for
      `Math.random().toString(36)`. The key list is left alone. */
  function GenerateKey(page: Page, randomText: string): (p: Page)
    ensures p.keys == page.keys
    ensures |KeyPrefix| <= |p.generatedKey| <= |KeyPrefix| + 16 && p.generatedKey[..|KeyPrefix|] == KeyPrefix
    ensures p.generatedTitle == NewKeyTitle && p.showModal
  {
    page.(generatedKey := KeyPrefix + Slice(randomText, 2, 18), generatedTitle := NewKeyTitle, showModal := true)
  }

  /** What the page hands `GenerateKeyModal`: only `open` and `onClose`. */
  datatype GenerateModalProps = GenerateModalProps(open: bool)

  function GenerateModal(page: Page): GenerateModalProps {
    GenerateModalProps(page.showModal)
  }

  /** The dialog that opens receives the same props whatever key was
      generated: the page's generated key and title never reach the screen. */
  lemma GeneratedKeyNeverShown(page: Page, randomText: string, otherText: string)
    ensures GenerateModal(GenerateKey(page, randomText)) == GenerateModal(GenerateKey(page, otherText))
    ensures GenerateModal(GenerateKey(page, randomText)).open
  {
  }

  /** The key's suffix is the first sixteen base-36 digits after `"0."`. */
  lemma GeneratedKeySuffix(page: Page, digits: string)
    ensures GenerateKey(page, "0." + digits).generatedKey
            == KeyPrefix + digits[..if |digits| <= 16 then |digits| else 16]
  {
    var s := "0." + digits;
    assert s[2..] == digits;
    assert s[2..if 18 <= |s| then 18 else |s|] == digits[..if |digits| <= 16 then |digits| else 16];
  }

  /** Choosing a key and confirming removes exactly that key from the list
      and closes the confirmation; generating keys meanwhile adds none. */
  lemma ChooseGenerateConfirm(page: Page, key: KeyRef, randomText: string)
    ensures var p := DeleteConfirm(GenerateKey(DeleteClick(page, key), randomText));
      && p.keys == DeleteKey(page.keys, key.id)
      && p.keyToDelete.None? && !p.deleteModalOpen
  {
  }

  /** Deleting the production key from the initial page leaves the test key. */
  lemma DeleteProductionKey()
    ensures DeleteKey(InitialPage.keys, 1) == [MockApiKeys[1]]
  {
    assert MockApiKeys[1..][1..] == [];
  }
}

=== FILE: results.dfy ===
/** Success/failure wrappers shared by the whole model.

    The front end reports failures as thrown `Error`s whose message is shown to
    the user; here a failing step returns `Failure(message)` instead. */
module Results {

  datatype Option<+T> = None | Some(value: T) {
    function GetOr(default: T): T {
      match this
      case Some(v) => v
      case None => default
    }
  }

  datatype Result<+R> = Success(value: R) | Failure(error: string) {
    predicate IsFailure() {
      Failure?
    }

    function PropagateFailure<U>(): Result<U>
      requires Failure?
    {
      Failure(error)
    }

    function Extract(): R
      requires Success?
    {
      value
    }
  }

  /** JavaScript's `a || b` on strings: the empty string is falsy. */
  function OrElse(s: string, fallback: string): (r: string)
    ensures s != [] ==> r == s
    ensures s == [] ==> r == fallback
  {
    if s != [] then s else fallback
  }
}

=== FILE: route_guard.dfy ===
/** Page access decisions: the `RouteProtection` wrapper
    (`src/app/admin/components/RouteProtection.tsx`) and the redirect of an
    already signed-in visitor away from the sign-in pages
    (`src/app/auth/layout.tsx`). */
module RouteGuard {
  import opened Results
  import opened Store
  import opened Session

  const SignInPath: string := "/auth/signin"
  const DefaultFallback: string := "/admin"

  /** The outcome of the authorisation check. */
  datatype Decision = Authorized | RedirectTo(path: string)

  /** What the wrapper renders. */
  datatype View = Loader | Children | NothingShown

  /** The `fallbackPath` prop, `"/admin"` when not given. */
  function Fallback(fallbackPath: Option<string>): string {
    fallbackPath.GetOr(DefaultFallback)
  }

  /** `checkAuthorization`: not signed in goes to the sign-in page; no (or an
      empty) role, or a role outside `allowedRoles`, goes to the fallback. */
  function CheckAuthorization(store: Storage, allowedRoles: seq<string>, fallbackPath: Option<string>): (d: Decision)
    ensures d == Authorized <==>
      IsAuthenticated(store) && "role" in store && store["role"] != [] && store["role"] in allowedRoles
    ensures !IsAuthenticated(store) ==> d == RedirectTo(SignInPath)
    ensures IsAuthenticated(store) && d.RedirectTo? ==> d.path == Fallback(fallbackPath)
  {
    if !IsAuthenticated(store) then RedirectTo(SignInPath)
    else match GetUserRole(store)
      case None => RedirectTo(Fallback(fallbackPath))
      case Some(role) =>
        if role == [] then RedirectTo(Fallback(fallbackPath))
        else if role !in allowedRoles then RedirectTo(Fallback(fallbackPath))
        else Authorized
  }

  /** `isAuthorized` after the check: set to `true` when authorised and never
      set otherwise (a redirect leaves it `null`). */
  function AuthorizedState(d: Decision): Option<bool> {
    if d == Authorized then Some(true) else None
  }

  /** The wrapper's render: a loader while undecided, children when authorised. */
  function Render(isAuthorized: Option<bool>): View {
    match isAuthorized
    case None => Loader
    case Some(b) => if b then Children else NothingShown
  }

  /** The protected page is shown exactly when the visitor is authorised; in
      every other case the loader stays on screen while the redirect happens. */
  lemma ChildrenOnlyWhenAuthorized(store: Storage, allowedRoles: seq<string>, fallbackPath: Option<string>)
    ensures var v := Render(AuthorizedState(CheckAuthorization(store, allowedRoles, fallbackPath)));
      (v == Children <==> IsAuthenticated(store) && GetUserRole(store).Some?
                          && GetUserRole(store).value != [] && GetUserRole(store).value in allowedRoles)
      && (v != Children ==> v == Loader)
  {
  }

  /** The auth layout's redirect for a visitor who is already signed in:
      managers go to `/manager`, everybody else (admins, other or no role)
      to `/admin`; a visitor who is not signed in stays. */
  function SignedInRedirect(store: Storage): (r: Option<string>)
    ensures r.None? <==> !IsAuthenticated(store)
    ensures r == Some("/manager") <==> IsAuthenticated(store) && GetUserRole(store) == Some("MANAGER")
    ensures IsAuthenticated(store) && GetUserRole(store) != Some("MANAGER") ==> r == Some("/admin")
  {
    if !IsAuthenticated(store) then None
    else match GetUserRole(store)
      case Some(role) =>
        if role == "MANAGER" then Some("/manager")
        else if role == "ADMIN" then Some("/admin")
        else Some("/admin")
      case None => Some("/admin")
  }

  /** A manager who logs in is let into manager-only pages and sent from the
      sign-in page to `/manager`; after logout the same pages send them to sign in. */
  lemma ManagerSession(store: Storage, d: LoginResponse)
    requires d.accessToken != [] && d.role == "MANAGER"
    ensures CheckAuthorization(Login(store, Accepted(d)).store, ["MANAGER"], None) == Authorized
    ensures SignedInRedirect(Login(store, Accepted(d)).store) == Some("/manager")
    ensures CheckAuthorization(Logout(Login(store, Accepted(d)).store), ["MANAGER"], None) == RedirectTo(SignInPath)
  {
    LoginAuthenticates(store, d);
    LogoutEndsSession(Login(store, Accepted(d)).store);
  }
}

=== FILE: seqs.dfy ===
/** Order-preserving filtering and counting over sequences, the model of
    JavaScript's `Array.prototype.filter` and `filter(...).length`. */
module Seqs {

  /** `sub` can be obtained from `s` by deleting elements, keeping the order. */
  ghost predicate IsSubsequence<T>(sub: seq<T>, s: seq<T>)
    decreases |s|
  {
    if |sub| == 0 then true
    else if |s| == 0 then false
    else if sub[0] == s[0] then IsSubsequence(sub[1..], s[1..])
    else IsSubsequence(sub, s[1..])
  }

  /** The elements of `s` that satisfy `keep`, in their original order. */
  function Filter<T>(keep: T -> bool, s: seq<T>): (r: seq<T>)
    ensures |r| <= |s|
    ensures forall i :: 0 <= i < |r| ==> keep(r[i]) && r[i] in s
    ensures forall x :: x in s && keep(x) ==> x in r
  {
    if |s| == 0 then []
    else if keep(s[0]) then [s[0]] + Filter(keep, s[1..])
    else Filter(keep, s[1..])
  }

  /** `s.map(f)`. */
  function Map<T, U>(f: T -> U, s: seq<T>): (r: seq<U>)
    ensures |r| == |s|
    ensures forall i :: 0 <= i < |r| ==> r[i] == f(s[i])
  {
    if |s| == 0 then [] else [f(s[0])] + Map(f, s[1..])
  }

  /** The loop that visits `s` in order and pushes `f(x)` for each `x` that
      passes `keep`. */
  function FilterMap<T, U>(keep: T -> bool, f: T -> U, s: seq<T>): (r: seq<U>)
    ensures |r| <= |s|
  {
    if |s| == 0 then []
    else if keep(s[0]) then [f(s[0])] + FilterMap(keep, f, s[1..])
    else FilterMap(keep, f, s[1..])
  }

  /** Number of elements of `s` that satisfy `p`. */
  function Count<T>(p: T -> bool, s: seq<T>): (n: nat)
    ensures n <= |s|
  {
    if |s| == 0 then 0
    else (if p(s[0]) then 1 else 0) + Count(p, s[1..])
  }

  /** The first position at or after `from` whose element fails `p`, or `|s|`
      when every later element passes: where `for`/`return` loops stop. */
  ghost function FirstFailing<T>(p: T -> bool, s: seq<T>, from: nat): (i: nat)
    requires from <= |s|
    ensures from <= i <= |s|
    ensures forall j :: from <= j < i ==> p(s[j])
    ensures i < |s| ==> !p(s[i])
    decreases |s| - from
  {
    if from == |s| || !p(s[from]) then from else FirstFailing(p, s, from + 1)
  }

  /** Filtering keeps exactly the elements that satisfy the predicate, in order. */
  lemma {:induction false} FilterIsSubsequence<T>(keep: T -> bool, s: seq<T>)
    ensures IsSubsequence(Filter(keep, s), s)
    decreases |s|
  {
    if |s| > 0 {
      FilterIsSubsequence(keep, s[1..]);
      if !keep(s[0]) {
        SubsequenceOfTail(Filter(keep, s), s);
      }
    }
  }

  /** A subsequence of the tail is a subsequence of the whole. */
  lemma {:induction false} SubsequenceOfTail<T>(sub: seq<T>, s: seq<T>)
    requires |s| > 0
    requires IsSubsequence(sub, s[1..])
    ensures IsSubsequence(sub, s)
    decreases |s|, 1
  {
    if |sub| > 0 && sub[0] == s[0] {
      SubsequenceDropHead(sub, s[1..]);
    }
  }

  /** Dropping the first element of a subsequence keeps it a subsequence. */
  lemma {:induction false} SubsequenceDropHead<T>(sub: seq<T>, t: seq<T>)
    requires |sub| > 0
    requires IsSubsequence(sub, t)
    ensures IsSubsequence(sub[1..], t)
    decreases |t|, 2
  {
    if sub[0] == t[0] {
      if |t| > 0 {
        SubsequenceOfTail(sub[1..], t);
      }
    } else {
      SubsequenceDropHead(sub, t[1..]);
      SubsequenceOfTail(sub[1..], t);
    }
  }

  /** Filtering distributes over concatenation: rows are kept in input order. */
  lemma {:induction false} FilterAppend<T>(keep: T -> bool, a: seq<T>, b: seq<T>)
    ensures Filter(keep, a + b) == Filter(keep, a) + Filter(keep, b)
    decreases |a|
  {
    if |a| > 0 {
      assert (a + b)[1..] == a[1..] + b;
      FilterAppend(keep, a[1..], b);
    } else {
      assert a + b == b;
    }
  }

  /** The length of a filter is the count of its predicate. */
  lemma {:induction false} FilterLength<T>(keep: T -> bool, s: seq<T>)
    ensures |Filter(keep, s)| == Count(keep, s)
    decreases |s|
  {
    if |s| > 0 {
      FilterLength(keep, s[1..]);
    }
  }

  /** Counting two disjoint predicates never exceeds the length. */
  lemma {:induction false} CountDisjoint<T>(p: T -> bool, q: T -> bool, s: seq<T>)
    requires forall x :: x in s ==> !(p(x) && q(x))
    ensures Count(p, s) + Count(q, s) <= |s|
    decreases |s|
  {
    if |s| > 0 {
      assert s[0] in s;
      assert forall x :: x in s[1..] ==> x in s;
      CountDisjoint(p, q, s[1..]);
    }
  }

  /** When every element satisfies `p`, the count is the length. */
  lemma {:induction false} CountAll<T>(p: T -> bool, s: seq<T>)
    requires forall x :: x in s ==> p(x)
    ensures Count(p, s) == |s|
    decreases |s|
  {
    if |s| > 0 {
      assert s[0] in s;
      assert forall x :: x in s[1..] ==> x in s;
      CountAll(p, s[1..]);
    }
  }

  /** When every element satisfies exactly one of `p` and `q`, the two counts
      add up to the length. */
  lemma {:induction false} CountPartition<T>(p: T -> bool, q: T -> bool, s: seq<T>)
    requires forall x :: x in s ==> p(x) != q(x)
    ensures Count(p, s) + Count(q, s) == |s|
    decreases |s|
  {
    if |s| > 0 {
      assert s[0] in s;
      assert forall x :: x in s[1..] ==> x in s;
      CountPartition(p, q, s[1..]);
    }
  }

  /** The push loop is a filter followed by a map. */
  lemma {:induction false} FilterMapIsMapOfFilter<T, U>(keep: T -> bool, f: T -> U, s: seq<T>)
    ensures FilterMap(keep, f, s) == Map(f, Filter(keep, s))
    decreases |s|
  {
    if |s| > 0 {
      FilterMapIsMapOfFilter(keep, f, s[1..]);
      if keep(s[0]) {
        MapCons(f, s[0], Filter(keep, s[1..]));
      }
    }
  }

  lemma MapCons<T, U>(f: T -> U, x: T, s: seq<T>)
    ensures Map(f, [x] + s) == [f(x)] + Map(f, s)
  {
    assert ([x] + s)[1..] == s;
  }

  /** The push loop over two pieces is the concatenation of the two loops. */
  lemma {:induction false} FilterMapAppend<T, U>(keep: T -> bool, f: T -> U, a: seq<T>, b: seq<T>)
    ensures FilterMap(keep, f, a + b) == FilterMap(keep, f, a) + FilterMap(keep, f, b)
    decreases |a|
  {
    if |a| == 0 {
      assert a + b == b;
    } else {
      assert (a + b)[0] == a[0];
      assert (a + b)[1..] == a[1..] + b;
      FilterMapAppend(keep, f, a[1..], b);
    }
  }

  /** The push loop produces one element per element passing `keep`. */
  lemma {:induction false} FilterMapLength<T, U>(keep: T -> bool, f: T -> U, s: seq<T>)
    ensures |FilterMap(keep, f, s)| == Count(keep, s)
    decreases |s|
  {
    if |s| > 0 {
      FilterMapLength(keep, f, s[1..]);
    }
  }
}

=== FILE: session.dfy ===
/** The session kept in `localStorage` by `src/library/authenticationApi.ts`:
    login writes five keys, logout removes exactly those five, and the
    readers look them up. */
module Session {
  import opened Results
  import opened Store
  import opened JsNumbers

  /** The body of a successful `/login` answer. */
  datatype LoginResponse = LoginResponse(
    accessToken: string,
    tokenType: string,
    userId: int,
    email: string,
    role: string)

  /** The backend either accepts the credentials or answers a non-2xx status. */
  datatype LoginReply = Accepted(data: LoginResponse) | Refused

  /** The store after a call, with the call's outcome. */
  datatype LoginOutcome = LoginOutcome(store: Storage, result: Result<LoginResponse>)

  /** What `getStoredAuthData` returns. */
  datatype StoredAuth = StoredAuth(
    accessToken: Option<string>,
    tokenType: Option<string>,
    userId: Option<JsInt>,
    email: Option<string>,
    role: Option<string>)

  /** The keys a login writes and a logout removes. */
  const AuthKeys: set<string> := {"access_token", "token_type", "user_id", "email", "role"}

  /** `login`: on success store the five session keys (the user id as its
      decimal string); on failure throw `"Login failed"` and store nothing. */
  function Login(store: Storage, reply: LoginReply): (out: LoginOutcome)
    ensures reply.Refused? ==> out == LoginOutcome(store, Failure("Login failed"))
    ensures reply.Accepted? ==>
      && out.result == Success(reply.data)
      && out.store.Keys == store.Keys + AuthKeys
      && out.store["access_token"] == reply.data.accessToken
      && out.store["token_type"] == reply.data.tokenType
      && out.store["user_id"] == IntToString(reply.data.userId)
      && out.store["email"] == reply.data.email
      && out.store["role"] == reply.data.role
    ensures forall k :: k in store && k !in AuthKeys ==> k in out.store && out.store[k] == store[k]
  {
    match reply
    case Refused => LoginOutcome(store, Failure("Login failed"))
    case Accepted(d) =>
      var s := store["access_token" := d.accessToken]["token_type" := d.tokenType]
                    ["user_id" := IntToString(d.userId)]["email" := d.email]["role" := d.role];
      LoginOutcome(s, Success(d))
  }

  /** `logout`: remove the five session keys and nothing else. */
  function Logout(store: Storage): (r: Storage)
    ensures r.Keys == store.Keys - AuthKeys
    ensures forall k :: k in r ==> r[k] == store[k]
  {
    store - AuthKeys
  }

  /** `isAuthenticated`: a non-empty access token is stored. */
  predicate IsAuthenticated(store: Storage) {
    Truthy(store, "access_token")
  }

  /** `getUserRole`. */
  function GetUserRole(store: Storage): Option<string> {
    GetItem(store, "role")
  }

  /** `getStoredAuthData`: an absent or empty user id reads as `null`, any
      other stored id goes through `parseInt`. */
  function GetStoredAuthData(store: Storage): (r: StoredAuth)
    ensures r.userId.None? <==> !Truthy(store, "user_id")
    ensures r.userId.Some? ==> r.userId.value == ParseInt(store["user_id"], Auto)
    ensures r.accessToken == GetItem(store, "access_token") && r.role == GetItem(store, "role")
  {
    StoredAuth(
      GetItem(store, "access_token"),
      GetItem(store, "token_type"),
      if Truthy(store, "user_id") then Some(ParseInt(store["user_id"], Auto)) else None,
      GetItem(store, "email"),
      GetItem(store, "role"))
  }

  /** After a successful login with a non-empty token the user is
      authenticated with the role the backend returned. */
  lemma LoginAuthenticates(store: Storage, d: LoginResponse)
    requires d.accessToken != []
    ensures IsAuthenticated(Login(store, Accepted(d)).store)
    ensures GetUserRole(Login(store, Accepted(d)).store) == Some(d.role)
  {
  }

  /** A refused login leaves the session exactly as it was. */
  lemma RefusedLoginKeepsSession(store: Storage)
    ensures Login(store, Refused).store == store
    ensures IsAuthenticated(Login(store, Refused).store) == IsAuthenticated(store)
  {
  }

  /** The stored data reads back the logged-in user's id, email and role. */
  lemma LoginStoredAuth(store: Storage, d: LoginResponse)
    ensures GetStoredAuthData(Login(store, Accepted(d)).store)
            == StoredAuth(Some(d.accessToken), Some(d.tokenType), Some(Int(d.userId)), Some(d.email), Some(d.role))
  {
    ParseIntToString(d.userId, [], Auto);
    assert IntToString(d.userId) + [] == IntToString(d.userId);
  }

  /** After logout nobody is authenticated and no role is stored, while any
      other key (such as `lender_id`) keeps its value. */
  lemma LogoutEndsSession(store: Storage)
    ensures !IsAuthenticated(Logout(store))
    ensures GetUserRole(Logout(store)).None?
    ensures GetStoredAuthData(Logout(store)) == StoredAuth(None, None, None, None, None)
    ensures "lender_id" in store ==> GetItem(Logout(store), "lender_id") == Some(store["lender_id"])
  {
  }

  /** Logging out after logging in restores every key outside the session keys
      and leaves none of them. */
  lemma LoginLogout(store: Storage, d: LoginResponse)
    ensures Logout(Login(store, Accepted(d)).store) == store - AuthKeys
  {
  }
}

=== FILE: store.dfy ===
/** The browser's `localStorage` as a finite map from keys to strings. */
module Store {
  import opened Results

  type Storage = map<string, string>

  /** `localStorage.getItem(key)`: the stored string or `null`. */
  function GetItem(store: Storage, key: string): (r: Option<string>)
    ensures r.Some? <==> key in store
    ensures r.Some? ==> r.value == store[key]
  {
    if key in store then Some(store[key]) else None
  }

  /** `!!localStorage.getItem(key)`: present and not the empty string. */
  predicate Truthy(store: Storage, key: string) {
    key in store && store[key] != []
  }

  /** The bearer-token guard every API call performs first. */
  predicate HasToken(store: Storage) {
    Truthy(store, "access_token")
  }

  const NoTokenMessage: string := "No access token found"
}

=== FILE: text.dfy ===
/** The JavaScript string operations the front end relies on: `trim`,
    `toLowerCase`, `includes`, `split` and `join`. */
module Text {

  /** ECMAScript WhiteSpace and LineTerminator code points: the characters
      `String.prototype.trim` removes. */
  predicate IsSpace(c: char) {
    c == ' ' || c == '\t' || c == '\n' || c == '\r'
    || c == '\U{000B}' || c == '\U{000C}' || c == '\U{00A0}' || c == '\U{1680}'
    || ('\U{2000}' <= c <= '\U{200A}')
    || c == '\U{2028}' || c == '\U{2029}' || c == '\U{202F}' || c == '\U{205F}'
    || c == '\U{3000}' || c == '\U{FEFF}'
  }

  ghost predicate AllSpace(s: string) {
    forall k :: 0 <= k < |s| ==> IsSpace(s[k])
  }

  /** Length of the run of white space that starts `s`. */
  function LeadingSpace(s: string): (n: nat)
    ensures n <= |s|
    ensures forall k :: 0 <= k < n ==> IsSpace(s[k])
    ensures n == |s| || !IsSpace(s[n])
  {
    if |s| > 0 && IsSpace(s[0]) then 1 + LeadingSpace(s[1..]) else 0
  }

  /** Length of the run of white space that ends `s`. */
  function TrailingSpace(s: string): (n: nat)
    ensures n <= |s|
    ensures forall k :: |s| - n <= k < |s| ==> IsSpace(s[k])
    ensures n == |s| || !IsSpace(s[|s| - 1 - n])
  {
    if |s| > 0 && IsSpace(s[|s| - 1]) then 1 + TrailingSpace(s[..|s| - 1]) else 0
  }

  /** `s.trim()`: `s` without its leading and trailing white space. */
  function Trim(s: string): (r: string)
    ensures |r| <= |s|
    ensures r == [] <==> AllSpace(s)
    ensures r != [] ==> !IsSpace(r[0]) && !IsSpace(r[|r| - 1])
  {
    var lead := LeadingSpace(s);
    if lead == |s| then
      assert s[..lead] == s;
      assert s[0..0] == [];
      []
    else
      var trail := TrailingSpace(s);
      assert trail < |s| - lead;
      var r := s[lead..|s| - trail];
      assert r[0] == s[lead];
      assert r[|r| - 1] == s[|s| - 1 - trail];
      assert !AllSpace(s) by { assert !IsSpace(s[lead]); }
      r
  }

  /** The trim is a slice of the input with only white space around it. */
  lemma TrimIsSlice(s: string)
    ensures exists i :: 0 <= i <= |s| - |Trim(s)| && s[i..i + |Trim(s)|] == Trim(s)
                        && AllSpace(s[..i]) && AllSpace(s[i + |Trim(s)|..])
  {
    var lead := LeadingSpace(s);
    var r := Trim(s);
    if lead == |s| {
      assert s[..lead] == s;
      assert s[0..0] == r;
      assert AllSpace(s[..0]) && AllSpace(s[0..]);
    } else {
      var trail := TrailingSpace(s);
      assert r == s[lead..|s| - trail];
      assert s[lead..lead + |r|] == r;
      assert AllSpace(s[..lead]) by {
        forall k | 0 <= k < lead ensures IsSpace(s[..lead][k]) {
          assert s[..lead][k] == s[k];
        }
      }
      var tail := s[lead + |r|..];
      assert AllSpace(tail) by {
        forall k | 0 <= k < |tail| ensures IsSpace(tail[k]) {
          assert tail[k] == s[|s| - trail + k];
        }
      }
    }
  }

  /** A string whose ends are not white space is its own trim. */
  lemma TrimNoEdgeSpace(s: string)
    requires s != [] ==> !IsSpace(s[0]) && !IsSpace(s[|s| - 1])
    ensures Trim(s) == s
  {
    if s != [] {
      assert LeadingSpace(s) == 0;
      assert TrailingSpace(s) == 0;
      assert s[0..|s|] == s;
    }
  }

  /** Trimming twice is trimming once. */
  lemma TrimIdempotent(s: string)
    ensures Trim(Trim(s)) == Trim(s)
  {
    TrimNoEdgeSpace(Trim(s));
  }

  /** ASCII upper-case letters map to lower case; every other character is kept. */
  function LowerChar(c: char): char {
    if 'A' <= c <= 'Z' then (c as int + 32) as char else c
  }

  /** `s.toLowerCase()` restricted to ASCII letters. */
  function Lower(s: string): (r: string)
    ensures |r| == |s|
    ensures forall k :: 0 <= k < |s| ==> r[k] == LowerChar(s[k])
  {
    if |s| == 0 then [] else [LowerChar(s[0])] + Lower(s[1..])
  }

  /** Lower-casing twice is lower-casing once. */
  lemma LowerIdempotent(s: string)
    ensures Lower(Lower(s)) == Lower(s)
  {
  }

  /** `t` occurs in `s` starting at position `i`. */
  ghost predicate OccursAt(s: string, t: string, i: int) {
    0 <= i <= |s| - |t| && s[i..i + |t|] == t
  }

  /** `s.includes(t)`. */
  predicate Contains(s: string, t: string)
    decreases |s|
  {
    t <= s || (|s| > 0 && Contains(s[1..], t))
  }

  /** `Contains` holds exactly when `t` occurs at some position of `s`. */
  lemma {:induction false} ContainsIff(s: string, t: string)
    ensures Contains(s, t) <==> exists i :: OccursAt(s, t, i)
    decreases |s|
  {
    if t <= s {
      assert s[0..|t|] == t;
      assert OccursAt(s, t, 0);
    }
    if |s| > 0 {
      ContainsIff(s[1..], t);
      if exists i :: OccursAt(s[1..], t, i) {
        var i :| OccursAt(s[1..], t, i);
        assert s[1..][i..i + |t|] == s[i + 1..i + 1 + |t|];
        assert OccursAt(s, t, i + 1);
      }
      if exists i :: OccursAt(s, t, i) {
        var i :| OccursAt(s, t, i);
        if i == 0 {
          assert s[..|t|] == t;
          assert t <= s;
        } else {
          assert s[1..][i - 1..i - 1 + |t|] == s[i..i + |t|];
          assert OccursAt(s[1..], t, i - 1);
        }
      }
    }
  }

  /** Every string contains the empty string (JavaScript `s.includes("")`). */
  lemma ContainsEmpty(s: string)
    ensures Contains(s, [])
  {
  }

  /** `s.toLowerCase().includes(t.toLowerCase())`: the search test of the tables. */
  predicate IncludesIgnoringCase(s: string, t: string) {
    Contains(Lower(s), Lower(t))
  }

  /** `s.split(sep)` for a one-character separator. */
  function Split(s: string, sep: char): (parts: seq<string>)
    ensures |parts| >= 1
    ensures forall k :: 0 <= k < |parts| ==> sep !in parts[k]
  {
    if |s| == 0 then [[]]
    else
      var rest := Split(s[1..], sep);
      if s[0] == sep then [[]] + rest
      else [[s[0]] + rest[0]] + rest[1..]
  }

  /** `parts.join(sep)`. */
  function Join(parts: seq<string>, sep: string): string {
    if |parts| == 0 then []
    else if |parts| == 1 then parts[0]
    else parts[0] + sep + Join(parts[1..], sep)
  }

  /** Splitting a separator-free prefix glued to `t` only extends the first piece. */
  lemma {:induction false} SplitPrefix(a: string, t: string, sep: char)
    requires sep !in a
    ensures Split(a + t, sep) == [a + Split(t, sep)[0]] + Split(t, sep)[1..]
    decreases |a|
  {
    if |a| > 0 {
      assert (a + t)[0] == a[0];
      assert (a + t)[1..] == a[1..] + t;
      SplitPrefix(a[1..], t, sep);
      assert [a[0]] + (a[1..] + Split(t, sep)[0]) == a + Split(t, sep)[0];
    } else {
      assert a + t == t;
      assert a + Split(t, sep)[0] == Split(t, sep)[0];
      assert Split(t, sep) == [Split(t, sep)[0]] + Split(t, sep)[1..];
    }
  }

  /** `split` undoes `join` when no piece contains the separator. */
  lemma {:induction false} SplitJoin(parts: seq<string>, sep: char)
    requires |parts| >= 1
    requires forall k :: 0 <= k < |parts| ==> sep !in parts[k]
    ensures Split(Join(parts, [sep]), sep) == parts
    decreases |parts|
  {
    if |parts| == 1 {
      SplitPrefix(parts[0], [], sep);
      assert parts[0] + [] == parts[0];
    } else {
      var tail := Join(parts[1..], [sep]);
      SplitJoin(parts[1..], sep);
      assert Join(parts, [sep]) == parts[0] + ([sep] + tail);
      SplitPrefix(parts[0], [sep] + tail, sep);
      assert ([sep] + tail)[1..] == tail;
      assert Split([sep] + tail, sep) == [[]] + parts[1..];
      assert parts[0] + [] == parts[0];
    }
  }

  /** A character in none of the pieces and not in the separator is not in the join. */
  lemma {:induction false} JoinExcludes(parts: seq<string>, sep: string, c: char)
    requires c !in sep
    requires forall k :: 0 <= k < |parts| ==> c !in parts[k]
    ensures c !in Join(parts, sep)
    decreases |parts|
  {
    if |parts| > 1 {
      JoinExcludes(parts[1..], sep, c);
    }
  }

  /** `join` undoes `split`. */
  lemma {:induction false} JoinSplit(s: string, sep: char)
    ensures Join(Split(s, sep), [sep]) == s
    decreases |s|
  {
    if |s| > 0 {
      JoinSplit(s[1..], sep);
      var rest := Split(s[1..], sep);
      if s[0] == sep {
        assert s == [sep] + s[1..];
      } else {
        assert s == [s[0]] + s[1..];
        if |rest| > 1 {
          assert Join(rest, [sep]) == rest[0] + [sep] + Join(rest[1..], [sep]);
        } else {
          assert Join(rest, [sep]) == rest[0];
        }
      }
    }
  }
}

=== FILE: user_tables.dfy ===
/** The admin user table (`src/app/admin/users/UserTable.tsx`): the users of
    the selected role tab, without the signed-in user, narrowed by a
    case-insensitive search over name and email, with per-role counts. */
module AdminUserTable {
  import opened Results
  import opened Text
  import opened Seqs
  import opened JsNumbers

  datatype User = User(id: int, name: string, email: string, role: string, lenderId: int, status: string)

  datatype Lender = Lender(id: int, name: string, status: string)

  /** The tab labels and the role each one lists (`TABS`). */
  function TabRole(tab: string): (role: Option<string>)
    ensures role.Some? <==> tab == "Admin" || tab == "Manager" || tab == "User"
    ensures role.Some? ==> role.value in Roles && Lower(role.value) == Lower(tab)
  {
    if tab == "Admin" then Some("ADMIN")
    else if tab == "Manager" then Some("MANAGER")
    else if tab == "User" then Some("USER")
    else None
  }

  /** The three roles the backend stores, in capitals. */
  const Roles: seq<string> := ["ADMIN", "MANAGER", "USER"]

  /** The search box test: an empty search matches everyone, otherwise the
      name or the email must include it, ignoring case. */
  predicate SearchHit(search: string, name: string, email: string) {
    search == [] || IncludesIgnoringCase(name, search) || IncludesIgnoringCase(email, search)
  }

  /** A row is shown unless it is the signed-in user or misses the search. */
  predicate Shown(u: User, currentEmail: Option<string>, search: string) {
    currentEmail != Some(u.email) && SearchHit(search, u.name, u.email)
  }

  function ShownFilter(currentEmail: Option<string>, search: string): User -> bool {
    (u: User) => Shown(u, currentEmail, search)
  }

  /** `filteredUsers`. */
  function FilteredUsers(users: seq<User>, currentEmail: Option<string>, search: string): (r: seq<User>)
    ensures forall i :: 0 <= i < |r| ==> r[i] in users && Shown(r[i], currentEmail, search)
    ensures forall u :: u in users && Shown(u, currentEmail, search) ==> u in r
    ensures IsSubsequence(r, users)
  {
    FilterIsSubsequence(ShownFilter(currentEmail, search), users);
    Filter(ShownFilter(currentEmail, search), users)
  }

  /** The signed-in user is never listed, whatever the search. */
  lemma SelfNeverListed(users: seq<User>, me: string, search: string)
    ensures forall u :: u in FilteredUsers(users, Some(me), search) ==> u.email != me
  {
  }

  /** Typing the search in another letter case lists the same users. */
  lemma {:induction false} SearchIgnoresCase(users: seq<User>, currentEmail: Option<string>, search: string)
    ensures FilteredUsers(users, currentEmail, Lower(search)) == FilteredUsers(users, currentEmail, search)
    decreases |users|
  {
    LowerIdempotent(search);
    if |users| > 0 {
      SearchIgnoresCase(users[1..], currentEmail, search);
    }
  }

  /** Nobody signed in and nothing searched: the whole list is shown. */
  lemma {:induction false} NoFilterShowsAll(users: seq<User>)
    ensures FilteredUsers(users, None, "") == users
    decreases |users|
  {
    if |users| > 0 {
      NoFilterShowsAll(users[1..]);
    }
  }

  /** The tab badges: the number of users of each role in the full list. */
  datatype TabCounts = TabCounts(admin: nat, manager: nat, user: nat)

  function HasRole(role: string): User -> bool {
    (u: User) => u.role == role
  }

  function CountTabs(all: seq<User>): (c: TabCounts)
    ensures c.admin == |Filter(HasRole("ADMIN"), all)|
    ensures c.manager == |Filter(HasRole("MANAGER"), all)|
    ensures c.user == |Filter(HasRole("USER"), all)|
    ensures c.admin + c.manager + c.user <= |all|
    ensures (forall u :: u in all ==> u.role in Roles) ==>
              c.admin + c.manager + c.user == |all|
  {
    RoleCountsBound(all);
    FilterLength(HasRole("ADMIN"), all);
    FilterLength(HasRole("MANAGER"), all);
    FilterLength(HasRole("USER"), all);
    TabCounts(Count(HasRole("ADMIN"), all), Count(HasRole("MANAGER"), all), Count(HasRole("USER"), all))
  }

  /** `tabCounts[tab.label]`: the badge shown next to a tab label. */
  function TabBadge(c: TabCounts, tab: string): Option<nat> {
    if tab == "Admin" then Some(c.admin)
    else if tab == "Manager" then Some(c.manager)
    else if tab == "User" then Some(c.user)
    else None
  }

  /** Each tab's badge counts exactly the users of the role that tab's query
      asks for, so a badge never shows another role's count. */
  lemma BadgeCountsQueriedRole(all: seq<User>, tab: string)
    ensures TabBadge(CountTabs(all), tab).Some? <==> TabRole(tab).Some?
    ensures TabRole(tab).Some? ==>
              TabBadge(CountTabs(all), tab).value == |Filter(HasRole(TabRole(tab).value), all)|
  {
  }

  /** Each user is counted in at most one badge, and in exactly one when every
      role is one of the three tabs. */
  lemma {:induction false} RoleCountsBound(all: seq<User>)
    ensures Count(HasRole("ADMIN"), all) + Count(HasRole("MANAGER"), all) + Count(HasRole("USER"), all) <= |all|
    ensures (forall u :: u in all ==> u.role in Roles) ==>
              Count(HasRole("ADMIN"), all) + Count(HasRole("MANAGER"), all) + Count(HasRole("USER"), all) == |all|
    decreases |all|
  {
    if |all| > 0 {
      assert forall u :: u in all[1..] ==> u in all;
      RoleCountsBound(all[1..]);
    }
  }

  /** The status badge: `"active"` reads Active, anything else Blocked. */
  function StatusLabel(status: string): string {
    if status == "active" then "Active" else "Blocked"
  }

  datatype Action = Block | Unblock

  /** The dropdown offers Block for an active user and Unblock otherwise. */
  function RowAction(status: string): (a: Action)
    ensures a == Block <==> StatusLabel(status) == "Active"
  {
    if status == "active" then Block else Unblock
  }

  /** `lenderMap`: each lender sets its id, so a later lender with the same id
      overrides an earlier one. */
  function LenderMap(lenders: seq<Lender>): (m: map<int, string>)
    ensures forall id :: id in m <==> exists k :: 0 <= k < |lenders| && lenders[k].id == id
    ensures forall id :: id in m ==> exists k :: 0 <= k < |lenders| && lenders[k].id == id && lenders[k].name == m[id]
    decreases |lenders|
  {
    if |lenders| == 0 then map[]
    else
      var init := LenderMap(lenders[..|lenders| - 1]);
      var last := lenders[|lenders| - 1];
      assert forall k :: 0 <= k < |lenders| - 1 ==> lenders[..|lenders| - 1][k] == lenders[k];
      init[last.id := last.name]
  }

  /** The last lender with a given id names it. */
  lemma {:induction false} LenderMapLastWins(lenders: seq<Lender>, k: nat)
    requires k < |lenders|
    requires forall j :: k < j < |lenders| ==> lenders[j].id != lenders[k].id
    ensures lenders[k].id in LenderMap(lenders) && LenderMap(lenders)[lenders[k].id] == lenders[k].name
    decreases |lenders|
  {
    if k < |lenders| - 1 {
      var init := lenders[..|lenders| - 1];
      assert forall j :: k < j < |init| ==> init[j] == lenders[j];
      LenderMapLastWins(init, k);
    }
  }

  /** `lenderMap.get(id) || 'Lender #' + id`. */
  function LenderColumn(lenders: seq<Lender>, id: int): (s: string)
    ensures s == "Lender #" + IntToString(id)
            || (s != [] && exists k :: 0 <= k < |lenders| && lenders[k].id == id && lenders[k].name == s)
  {
    var m := LenderMap(lenders);
    if id in m && m[id] != [] then m[id] else "Lender #" + IntToString(id)
  }

  /** An unknown lender id is shown as `Lender #<id>`. */
  lemma UnknownLenderFallback(lenders: seq<Lender>, id: int)
    requires forall k :: 0 <= k < |lenders| ==> lenders[k].id != id
    ensures LenderColumn(lenders, id) == "Lender #" + IntToString(id)
  {
  }
}

/** The manager user table (`src/app/manager/users/UserTable.tsx`): a fixed
    list of three users, filtered by status tab and search. */
module ManagerUserTable {
  import opened Text
  import opened Seqs

  datatype StaticUser = StaticUser(id: int, name: string, email: string, status: string)

  /** `USERS`. */
  const Users: seq<StaticUser> := [
    StaticUser(1, "Lindsey Curtis", "lindsey@email.com", "Active"),
    StaticUser(2, "Kaiya George", "kaiya@email.com", "Blocked"),
    StaticUser(3, "Zain Geidt", "zain@email.com", "Active")
  ]

  function HasStatus(status: string): StaticUser -> bool {
    (u: StaticUser) => u.status == status
  }

  datatype TabCounts = TabCounts(all: nat, active: nat, blocked: nat)

  /** `tabCounts`. */
  function CountTabs(users: seq<StaticUser>): (c: TabCounts)
    ensures c.all == |users| && c.active + c.blocked <= c.all
  {
    CountDisjoint(HasStatus("Active"), HasStatus("Blocked"), users);
    TabCounts(|users|, Count(HasStatus("Active"), users), Count(HasStatus("Blocked"), users))
  }

  /** The badges of the fixed list. */
  lemma FixedCounts()
    ensures CountTabs(Users) == TabCounts(3, 2, 1)
  {
    assert Users[1..][1..][1..] == [];
  }

  /** A row is on the tab ("All" lists every status) and matches the search. */
  predicate OnTab(u: StaticUser, tab: string, search: string) {
    (tab == "All" || u.status == tab)
    && (search == [] || IncludesIgnoringCase(u.name, search) || IncludesIgnoringCase(u.email, search))
  }

  function OnTabFilter(tab: string, search: string): StaticUser -> bool {
    (u: StaticUser) => OnTab(u, tab, search)
  }

  /** `filteredUsers`. */
  function FilteredUsers(users: seq<StaticUser>, tab: string, search: string): (r: seq<StaticUser>)
    ensures forall i :: 0 <= i < |r| ==> r[i] in users && OnTab(r[i], tab, search)
    ensures forall u :: u in users && OnTab(u, tab, search) ==> u in r
    ensures IsSubsequence(r, users)
  {
    FilterIsSubsequence(OnTabFilter(tab, search), users);
    Filter(OnTabFilter(tab, search), users)
  }

  /** With an empty search each tab lists as many users as its badge says. */
  lemma {:induction false} BadgeMatchesList(users: seq<StaticUser>)
    ensures |FilteredUsers(users, "All", "")| == CountTabs(users).all
    ensures |FilteredUsers(users, "Active", "")| == CountTabs(users).active
    ensures |FilteredUsers(users, "Blocked", "")| == CountTabs(users).blocked
    decreases |users|
  {
    if |users| > 0 {
      BadgeMatchesList(users[1..]);
    }
  }

  datatype Action = Block | Unblock

  /** The dropdown offers Block for status `"Active"` and Unblock otherwise. */
  function RowAction(status: string): (a: Action)
    ensures a == Block <==> status == "Active"
  {
    if status == "Active" then Block else Unblock
  }
}

/** The admin lender table (`src/app/admin/lenders/LenderTable.tsx`). */
module LenderTable {
  import opened Text
  import opened Seqs
  import opened JsNumbers

  datatype Lender = Lender(id: int, name: string, status: string, createdAt: string)

  predicate NameHit(l: Lender, search: string) {
    search == [] || IncludesIgnoringCase(l.name, search)
  }

  function NameFilter(search: string): Lender -> bool {
    (l: Lender) => NameHit(l, search)
  }

  /** `filteredLenders`: the lenders whose name includes the search, ignoring
      case, in their original order. */
  function FilteredLenders(lenders: seq<Lender>, search: string): (r: seq<Lender>)
    ensures forall i :: 0 <= i < |r| ==> r[i] in lenders && NameHit(r[i], search)
    ensures forall l :: l in lenders && NameHit(l, search) ==> l in r
    ensures IsSubsequence(r, lenders)
  {
    FilterIsSubsequence(NameFilter(search), lenders);
    Filter(NameFilter(search), lenders)
  }

  /** An empty search lists every lender. */
  lemma {:induction false} EmptySearchListsAll(lenders: seq<Lender>)
    ensures FilteredLenders(lenders, "") == lenders
    decreases |lenders|
  {
    if |lenders| > 0 {
      EmptySearchListsAll(lenders[1..]);
    }
  }

  /** The status badge: `"active"` reads Active, anything else Inactive. */
  function StatusLabel(status: string): (shown: string)
    ensures shown == "Active" <==> status == "active"
  {
    if status == "active" then "Active" else "Inactive"
  }

  const LendersRoute: string := "/admin/lenders/"

  /** `handleViewLender`: the lender's detail page. */
  function ViewRoute(id: int): (route: string)
    ensures |route| > |LendersRoute| && route[..|LendersRoute|] == LendersRoute
  {
    LendersRoute + IntToString(id)
  }

  /** The detail page reads the id back from the last path segment. */
  lemma ViewRouteReadsBack(id: int)
    ensures ParseInt(ViewRoute(id)[|LendersRoute|..], Decimal) == Int(id)
  {
    assert ViewRoute(id)[|LendersRoute|..] == IntToString(id) + [];
    ParseIntToString(id, [], Decimal);
  }
}

/** The confirmation dialog behind the manager table's Block/Unblock action
    (`src/app/manager/users/BlockUnblockModal.tsx`). */
module BlockUnblockDialog {
  import opened Results
  import ManagerUserTable

  /** The dialog's wording: title, the verb of the question, and the button. */
  datatype Wording = Wording(title: string, verb: string, button: string)

  /** `isBlocked`: anything but the exact status `"Active"`, including a
      missing user or a lower-case `"active"`, counts as blocked. */
  function IsBlocked(user: Option<ManagerUserTable.StaticUser>): (blocked: bool)
    ensures !blocked <==> user.Some? && user.value.status == "Active"
  {
    user.None? || user.value.status != "Active"
  }

  function DialogWording(user: Option<ManagerUserTable.StaticUser>): (w: Wording)
    ensures IsBlocked(user) ==> w == Wording("Unblock User", "unblock", "Unblock")
    ensures !IsBlocked(user) ==> w == Wording("Block User", "block", "Block")
  {
    if IsBlocked(user) then Wording("Unblock User", "unblock", "Unblock")
    else Wording("Block User", "block", "Block")
  }

  /** The dialog's button names the same action the row's menu offered. */
  lemma DialogMatchesRowAction(user: ManagerUserTable.StaticUser)
    ensures DialogWording(Some(user)).button == "Block" <==> ManagerUserTable.RowAction(user.status) == ManagerUserTable.Block
    ensures DialogWording(Some(user)).button == "Unblock" <==> ManagerUserTable.RowAction(user.status) == ManagerUserTable.Unblock
  {
  }

  /** A lower-case `"active"` user is offered an unblock. */
  lemma LowerCaseActiveCountsAsBlocked(user: ManagerUserTable.StaticUser)
    requires user.status == "active"
    ensures IsBlocked(Some(user)) && DialogWording(Some(user)).button == "Unblock"
  {
  }
}
